=== FILE: README.md ===
# Real-estate marketplace: a Dafny model of its core

This project models the core of a MERN real-estate marketplace. Owners post listings for sale or rent, visitors search them, and users sign up, sign in (by password or Google) and manage their profile.

The server side is modelled as pure functions over an immutable store (`Store.Db`: the users and the listings in storage order). The modelled parts are:

- the listing query engine of `GET /api/listing/get`: its defaults, boolean parsing, type filter, sort and window;
- the listing and user controllers and the authentication controller;
- the `verifyToken` guard;
- the `errorHandler` helper and the central error middleware;
- the routing table, with route matching, guard, handler and middleware composed into one `Serve` step.

`Serve` takes a `Routes.Build`. `AsWritten` runs the handlers as the source has them, and `Corrected` runs the handlers with the defects under "## Findings" fixed. Both builds are proved to keep the store valid, and `Routes.BuildsDiffer` states exactly where they part.

Each handler ends in one of three outcomes (`Http.Outcome`):

- it replies;
- it passes an error to `next`;
- it throws outside any `try`, so that no response is ever sent.

The client side is modelled in four parts:

- the search page: reading the URL into the sidebar, writing it back, and paging with "Show more";
- the user slice of the Redux store;
- the update-listing page: loading, image upload and removal, field changes and submit;
- the listing card.

Hashing, token signing and verification are uninterpreted functions (`Crypto.Primitives`). The clock, fresh ids and random strings are parameters. The Firebase upload outcome and the browser's JSON parse error are parameters too.

## Model

| member | source | states |
|---|---|---|
| Http.ErrorHandler | server/utils/error.js:2-14 | The error carries exactly the given status and message, for every argument pair. |
| Http.ErrorMiddleware | server/index.js:43-51 | The response is always `success: false` with HTTP status equal to the body's `statusCode`. A missing or zero status becomes 500, an empty message becomes "Internal Server Error", and otherwise both pass through. |
| Http.ErrorHandlerRoundTrip | server/index.js:43-51 | An error built by `errorHandler` with a non-zero status and a non-empty message reaches the client unchanged. |
| Http.DeliveredErrorsAreConsistent | server/index.js:43-51 | Every error passed to `next` gets a response, and its status agrees with its body. |
| Guard.VerifyToken | server/utils/verifyUser.js:5-28 | A missing or empty `access_token` gives 401 "Unauthorized". A token that does not verify gives 403 "Forbidden". Otherwise (both directions) the handler runs as exactly the id the token carries. |
| Guard.DecisionDependsOnlyOnToken | server/utils/verifyUser.js:7 | The decision depends on the `access_token` cookie alone. |
| Guard.SignedTokenAdmits | server/utils/verifyUser.js:16-26 | A token signed for an id admits its bearer as that id. |
| QueryEngine.DecodeOkIffWellFormed | server/controllers/listing.js:88-116 | Reading the query parameters fails exactly for a malformed query: a flag the mapper cannot cast, an order the query builder does not accept, or an empty `sort`, which the database refuses as a field name. Such a failure has no status, so the middleware answers 500. |
| QueryEngine.DirectionIgnoresCase | server/controllers/listing.js:96-116 | The sort direction ignores the order's case, and an empty `order=` sorts ascending. |
| QueryEngine.DecodeErrorOf | server/controllers/listing.js:109-122 | A bad order is the error reported, even with a bad flag, because `.sort()` rejects it before the flags are cast. A bad flag is reported next. An empty `sort` field, which only the database sees, is reported last. None carries a status. |
| QueryEngine.EmptySortFieldRefused | server/controllers/listing.js:96-122 | `sort=` fails with no status (500) whatever the other parameters and the store: the default field applies only to an absent parameter. |
| QueryEngine.DecodeQueryMeaning | server/controllers/listing.js:100-115 | The document filter admits a listing exactly when the raw parameters ask for it. |
| QueryEngine.Insert | server/controllers/listing.js:116 | Inserting into a sorted sequence keeps it sorted and adds exactly one element. |
| QueryEngine.SortListings | server/controllers/listing.js:116 | `.sort({[sort]: order})` returns a sorted permutation of its input. |
| QueryEngine.SortedMatches | server/controllers/listing.js:109-116 | The sorted matches are sorted by the query's field and direction. Each listing occurs in them exactly as often as it is stored, if the query asks for it, and otherwise not at all. |
| QueryEngine.GetListings | server/controllers/listing.js:86-124 | The call fails exactly on a malformed query, with no status. Otherwise it returns the window at `startIndex` (at most `limit`, default 9) of the sorted matches, and every listing in it is stored and asked for. |
| QueryEngine.SortedMatchesIgnoresWindow | server/controllers/listing.js:117-118 | `startIndex` and `limit` only cut the window; the sorted matches do not depend on them. |
| QueryEngine.MatchesAreDistinct | server/controllers/listing.js:109-115 | Matches of distinct stored listings are distinct. |
| QueryEngine.MemberOfMatches | server/controllers/listing.js:109-115 | Every match is stored and asked for. |
| QueryEngine.AbsentAndFalseAgree | server/controllers/listing.js:100-105 | For `offer`, `furnished` and `parking`, an absent parameter and `"false"` give the same answer. |
| QueryEngine.SameReadingSameAnswer | server/controllers/listing.js:86-124 | The answer depends on the query only through how its parameters read. |
| QueryEngine.FlagParamSemantics | server/controllers/listing.js:100-105 | `"true"` keeps exactly the listings with the flag set; absent or `"false"` admits both values. |
| QueryEngine.AllMeansAnyType | server/controllers/listing.js:106-107 | `type=all` answers exactly as no `type` does. |
| QueryEngine.UnknownTypeFindsNothing | server/controllers/listing.js:106-114 | Over sale and rent listings, a `type` that is neither (nor `all`) returns an empty page. |
| QueryEngine.EmptyTermMatchesEveryTitle | server/controllers/listing.js:95 | The default empty search term matches every title. |
| QueryEngine.TermMatchesInAnyCase | server/controllers/listing.js:110 | For every title and every case variant of the term, the title matches the term exactly when it matches the variant, and containing either spelling is a match. |
| QueryEngine.FirstPageHoldsAllMatches | server/controllers/listing.js:109-118 | When the matches fit in one window, the first window holds each asked-for listing as often as it is stored. |
| ListingController.CreateListing | server/controllers/listing.js:5-24 | Only a caller who names themself as `userRef` may create; anyone else gets 403 and nothing is written. On success the new listing is appended, owned by the caller, stamped with `now`, and returned with 201; users are untouched. |
| ListingController.GetListing | server/controllers/listing.js:27-38 | Returns the stored listing with 200, or 404 exactly when the id is missing. It never writes. |
| ListingController.DeleteListingAsWritten | server/controllers/listing.js:41-60 | As written, a non-owner reaches the undefined `handleError` and gets no response. A non-owner never changes the store. |
| ListingController.DeleteListing | server/controllers/listing.js:41-60 | Missing listing: 404. Non-owner: 403. Owner: the listing is gone, every other lookup and every user is unchanged, and the reply is 200. |
| ListingController.UpdateListingAsWritten | server/controllers/listing.js:62-84 | As written, a non-owner gets no response. A non-owner never changes the store. |
| ListingController.UpdateListing | server/controllers/listing.js:62-84 | Missing listing: 404. Non-owner: 403. Owner: the listing takes the body's fields and `updatedAt = now`, keeps its id and `createdAt`, and is returned; nothing else changes. |
| ListingController.CreateThenGet | server/controllers/listing.js:16-19 | A created listing is fetched back with its fields and owner. |
| ListingController.FullUpdateStoresDraft | server/controllers/listing.js:75-79 | A full update by the owner stores exactly the submitted fields. |
| ListingController.ListingStepsKeepValid | server/controllers/listing.js:5-84 | Create, delete and update, as written and corrected, keep listing ids unique. |
| ListingController.EditBuildsAgree | server/controllers/listing.js:41-84 | The as-written and corrected delete and update write the same store. They answer alike unless a non-owner edits a stored listing, which as written gets no response and corrected gets 403. |
| UserController.WrittenPasswordAsWritten | server/controllers/user.js:16-18 | A non-empty password is hashed; an empty one skips hashing and is written as `""`. |
| UserController.WrittenPassword | server/controllers/user.js:16-18 | Only a non-empty password is written, and only as its hash. |
| UserController.UpdateUserWith | server/controllers/user.js:7-43 | Anyone but the user themself gets 403 and nothing is written. A missing user gives a status-less error (500). For an existing user updating themself, the update succeeds exactly when no other user holds the new username or email; a clash is a status-less error that writes nothing. On success only the four profile fields and `updatedAt` of that user change, and the record is returned without its password. Listings are never touched. |
| UserController.UpdateUserAsWritten | server/controllers/user.js:7-43 | As written, a self-update succeeds exactly when it takes nobody else's username or email, and one carrying password `""` then stores `""` as the password. A failure writes nothing. |
| UserController.UpdateUser | server/controllers/user.js:7-43 | A self-update succeeds exactly when it takes nobody else's username or email. The stored password then becomes the hash of a non-empty new password, and is otherwise kept. A failure writes nothing. |
| UserController.DeleteUser | server/controllers/user.js:46-62 | Self only, otherwise 403. On success only that user is gone, the listings stay, and the token cookie is cleared. |
| UserController.GetUserListings | server/controllers/user.js:64-74 | Anyone but the owner gets 401. The owner gets exactly the listings whose `userRef` is the id, each as often as stored. |
| UserController.GetUser | server/controllers/user.js:76-84 | Missing id: 404. Otherwise the stored record, hash included. It never writes. |
| UserController.EmptyPasswordStoredAsWritten | server/controllers/user.js:16-32 | As written, an update with password `""` succeeds and leaves `""` as the stored password. |
| UserController.UserStepsKeepValid | server/controllers/user.js:7-62 | Update (as written and corrected) and delete keep user ids, usernames and emails unique. |
| UserController.UpdateKeepsValid | server/controllers/user.js:21-32 | An update keeps the store valid whatever password it writes. |
| UserController.UpdateBuildsAgree | server/controllers/user.js:16-18 | Without password `""`, the as-written and corrected updates are the same step. |
| UserController.ReplaceKeepsUniqueProfile | server/controllers/user.js:21-32 | Replacing a user by a record that takes nobody else's username or email keeps the three unique indexes. |
| UserModel.Save | api/models/user.js:4-28 | A save succeeds exactly when the required fields are present and no unique index clashes; a failure has no status. The stored user has the default avatar when none was given and timestamps `now`. |
| UserModel.SaveKeepsValid | api/models/user.js:6-15 | A successful save keeps the indexes unique, and the new user is found by email. |
| UserModel.DuplicateUsernameRejected | api/models/user.js:9 | A second save with the same username fails. |
| UserModel.DuplicateEmailRejected | api/models/user.js:14 | A second save with the same email fails. |
| AuthController.SignedIn | api/controllers/auth.js:48-57 | Sign-in replies 200 with the profile without the password and sets an HTTP-only cookie with a token signed for the user's id. |
| AuthController.Signup | api/controllers/auth.js:7-27 | Succeeds (201) exactly when the save of the hashed password succeeds; the user is then appended with the hash, never the password. A failure writes nothing and carries no status. |
| AuthController.Signin | api/controllers/auth.js:30-62 | Unknown email: 404. Wrong password: 404. Otherwise (both directions) the user is signed in. It never writes. |
| AuthController.GoogleUsername | api/controllers/auth.js:93-95 | The username is the display name without spaces and lower-cased, followed by the random suffix: the part before the suffix is exactly that name. |
| AuthController.GoogleUsernameOfTwoWords | api/controllers/auth.js:93-95 | For a first and a last name without spaces, the username is both lower-cased and joined, then the suffix. |
| AuthController.Google | api/controllers/auth.js:65-121 | A known email signs its user in with no password check and no write. A new email succeeds exactly when the user model saves the new user. That user gets the generated password's hash, the given avatar (or the default) and the made-up username, is appended and is signed in. A failed save writes nothing and carries no status. |
| AuthController.Signout | api/controllers/auth.js:124-135 | Always 200 with the logged-out message, and the token cookie is cleared. |
| AuthController.ApplyCookie | api/controllers/auth.js:54-57 | The browser keeps, sets or clears `access_token` as the response says, and every other cookie keeps its name and value. |
| AuthController.SignupThenSignin | api/controllers/auth.js:12-57 | Signing up and then signing in with the same password signs in the user just created. |
| AuthController.SigninTokenPassesGuard | api/controllers/auth.js:48-57 | The cookie sign-in sets passes the guard as the signed-in user. |
| AuthController.SignoutLocksOut | api/controllers/auth.js:127 | After sign-out the guard answers 401. |
| AuthController.GoogleExistingIsSignin | api/controllers/auth.js:68-82 | For a known email, Google sign-in answers exactly as a matching password sign-in does. |
| Routes.Resolve | server/index.js:28-40 | A request is served the client application exactly when it is a GET that names no endpoint. Any other non-endpoint request matches nothing. |
| Routes.ResolvePathOf | api/routes/listing.js:15-25 | Every endpoint is reached by its own method and path. |
| Routes.PathOfResolve | api/routes/user.js:14-17 | A resolved endpoint is registered under exactly the request's method and path. |
| Routes.ListingsWithoutIdIsAUserLookup | api/routes/user.js:16-17 | `GET /api/user/listings` is taken by `/:id` as the user "listings". |
| Routes.HandlePublic | api/routes/auth.js:10-19 | Of the public routes, only sign-up and Google sign-in write. |
| Routes.HandleGuarded | api/routes/listing.js:15-25 | A guarded handler leaves the request unanswered exactly when the build is as written and a non-owner deletes or updates a stored listing. |
| Routes.Dispatch | api/routes/listing.js:15-25 | A guarded route without a token answers 401, and one with a bad token answers 403, both before the handler and with no write. Only guarded routes and the two user-creating routes write. As written, a request gets no response exactly when a signed-in non-owner deletes or updates a stored listing; corrected, every request gets one. |
| Routes.Serve | server/index.js:28-51 | The same properties hold end to end for the whole request pipeline, in both builds, and an unmatched request answers 404. |
| Routes.BuildsDiffer | server/controllers/listing.js:46-52 | The two builds answer every request alike except a non-owner's delete or update of a stored listing, which as written gets no response and corrected gets 403, both without a write, and a user update with password `""`. |
| Routes.PublicRoutesIgnoreCookies | api/routes/listing.js:18 | In either build, a public route answers the same whatever cookies come with it. |
| Routes.OwnListingsOnly | api/routes/user.js:16 | In either build, a signed-in user gets their own listings (200) and is refused another user's (401). |
| Routes.ServeKeepsValid | server/index.js:28-51 | In both builds, every request keeps listing ids, user ids, usernames and emails unique. |
| Routes.PublicKeepsValid | api/routes/auth.js:10-19 | Every public route keeps the store valid. |
| Routes.GuardedKeepsValid | api/routes/user.js:14-17 | In both builds, every guarded route keeps the store valid, whoever the caller. |
| Store.Find | server/controllers/listing.js:29 | `findById`/`findOne` return a stored document with the key, and nothing exactly when no document has it. |
| Store.FindUnique | server/controllers/listing.js:29 | With unique keys, the document found for a key is the only one with it. |
| Store.Remove | server/controllers/listing.js:55 | `findByIdAndDelete` makes the key unfindable, keeps every other lookup, and keeps exactly the other documents. |
| Store.RemoveKeepsUnique | server/controllers/user.js:54 | Deleting keeps every unique key unique. |
| Store.Replace | server/controllers/listing.js:75-79 | `findByIdAndUpdate` replaces the document with the key in place. No key moves, every other document stays, and a missing key changes nothing. |
| Store.ReplaceKeepsUnique | server/controllers/listing.js:75-79 | Replacing under the same key keeps that key unique. |
| Store.FindAppended | server/controllers/listing.js:16-19 | A document appended under a fresh key is the one found for it. |
| Store.AppendKeepsUnique | server/controllers/listing.js:16-19 | Appending under a fresh key keeps keys unique. |
| Seqs.Filter | server/controllers/user.js:69 | `find` by predicate keeps exactly the satisfying elements, each as often as before. |
| Seqs.Page | server/controllers/listing.js:117-118 | `skip(start).limit(limit)` is at most `limit` consecutive elements from `start`, and nothing past the end. |
| Seqs.PrefixThenPage | server/controllers/listing.js:117-118 | A prefix followed by the page that starts where it ends is again a prefix: no gap and no repeat. |
| Seqs.DistinctIffCountsAtMostOne | server/controllers/listing.js:109-115 | A sequence is distinct exactly when no element occurs twice. |
| UrlParams.GetNoneIffAbsent | client/src/pages/Search.jsx:39 | `get` finds nothing exactly when no pair has the key. |
| UrlParams.GetFindsFirst | client/src/pages/Search.jsx:39 | `get` returns the value of the first pair with the key. |
| UrlParams.Set | client/src/pages/Search.jsx:106 | After `set(k, v)`, `get(k)` is `v` and exactly one pair has key `k`. |
| UrlParams.GetSetOther | client/src/pages/Search.jsx:106 | Setting one key leaves every other key's value alone. |
| UrlParams.SetIdempotent | client/src/pages/Search.jsx:106 | Setting a key twice to the same value is setting it once. |
| SearchPage.ParseSidebarAsWritten | client/src/pages/Search.jsx:38-51 | As written, an absent sort reads as `"created_at"` and an absent order as `"desc"`; a flag is on exactly when the parameter is `"true"`. |
| SearchPage.ParseSidebar | client/src/pages/Search.jsx:38-51 | Corrected: an absent sort reads as `"createdAt"`, the initial state's and the server's default. |
| SearchPage.BuildParamsAsWritten | client/src/pages/Search.jsx:88-100 | As written, the URL never carries sort, order or a window, and carries a flag exactly when it is on. |
| SearchPage.BuildParams | client/src/pages/Search.jsx:88-100 | Corrected: the URL carries the non-empty sort and order as well. |
| SearchPage.SidebarRoundTripAsWritten | client/src/pages/Search.jsx:38-51 | As written, reading back a submitted form keeps the filters but resets sort and order. |
| SearchPage.SortFallbackLatentAsWritten | client/src/pages/Search.jsx:38-100 | As written, a URL without `sort` puts `"created_at"` in the form's state, which the initial form, once submitted, also does. The as-written submit never sends it, so its URL is the one the intended fallback gives. A submit that sends the sort would ask the server for `created_at` instead of `createdAt`. |
| SearchPage.SidebarRoundTrip | client/src/pages/Search.jsx:38-51 | Corrected: every form state with a type, sort and order reads back unchanged. |
| SearchPage.DefaultSelectIsLatest | client/src/pages/Search.jsx:183-193 | Corrected: a URL without sort and order opens the select on "Latest", the order the server uses. |
| SearchPage.HandleChangeAsWritten | client/src/pages/Search.jsx:71-85 | As written, the sort select changes nothing the form reads, and sort and order never change. |
| SearchPage.SplitChoice | client/src/pages/Search.jsx:183-193 | The select value splits at its first underscore, and the two parts join back to it. |
| SearchPage.HandleChange | client/src/pages/Search.jsx:71-85 | Corrected: every other input behaves as written, and the select sets sort and order from its value. |
| SearchPage.SortChoiceIgnoredAsWritten | client/src/pages/Search.jsx:71-96 | As written, picking a sort changes neither the URL nor the server's query. |
| SearchPage.SortChoiceReachesQuery | client/src/pages/Search.jsx:71-96 | Corrected: the chosen option's sort and order reach the server's query. |
| SearchPage.ToQuery | client/src/pages/Search.jsx:59-60 | The server reads each URL parameter under its own name; a pair under any other name is never read. |
| SearchPage.NamesIdentifyParams | client/src/pages/Search.jsx:58-60 | Two parameters have the same name exactly when they are the same parameter, so reading by parameter is reading by name. |
| SearchPage.SetStartIndex | client/src/pages/Search.jsx:105-106 | Setting `startIndex` moves the window and changes nothing else in the query. |
| SearchPage.SubmittedQueryIsWellFormedAsWritten | client/src/pages/Search.jsx:88-100 | Every URL the form submits as written reads as a query the server accepts. |
| SearchPage.SubmittedQueryIsWellFormed | client/src/pages/Search.jsx:88-100 | Corrected: the same holds whenever the order is one the select offers. |
| SearchPage.Fetch | client/src/pages/Search.jsx:56-65 | One request returns the server's window of the sorted matches. |
| SearchPage.Load | client/src/pages/Search.jsx:56-65 | The first load shows that window and offers "Show more" exactly when it holds more than eight listings. |
| SearchPage.ShowMore | client/src/pages/Search.jsx:102-112 | A press appends the next window from where the shown listings end, and keeps the button exactly when that window had nine. |
| SearchPage.WindowsArePrefixes | client/src/pages/Search.jsx:102-112 | After `n` presses the windows are the first `9(n+1)` sorted matches (or all), and a hidden button means all. |
| SearchPage.AfterClicksFollowsWindows | client/src/pages/Search.jsx:56-112 | The page's loads and presses on an unwindowed URL are exactly those windows. |
| SearchPage.ShowMorePagesThrough | client/src/pages/Search.jsx:56-112 | After loading and `n` presses the page shows the first `9(n+1)` sorted matches, with no listing skipped or repeated, given that every request orders ties alike; a hidden button means nothing is left. |
| SearchPage.ShownListingsAreDistinct | client/src/pages/Search.jsx:102-112 | With unique stored ids, and every request ordering ties alike, the listings shown are pairwise distinct after any number of presses. |
| SearchPage.SubmittedSearchPagesThrough | client/src/pages/Search.jsx:88-112 | End to end, a corrected submitted search pages through exactly the server's matches in the chosen order, given that every request orders ties alike. |
| UserSlice.Reduce | client/src/redux/user/userSlice.js:16-78 | A start sets loading and clears the error. A sign-in or update success stores the user. A delete or sign-out success clears everything. A failure stores its message and stops loading. The user changes only on a success. |
| UserSlice.ReduceIdempotent | client/src/redux/user/userSlice.js:16-78 | Dispatching an action twice is dispatching it once. |
| UserSlice.LoadingIffLastIsStart | client/src/redux/user/userSlice.js:16-78 | A request is in flight exactly when the last action was a start. |
| UserSlice.ErrorIffLastIsFailure | client/src/redux/user/userSlice.js:16-78 | An error shows exactly when the last action failed, and it is that failure's message. |
| UserSlice.OnlySuccessChangesUser | client/src/redux/user/userSlice.js:16-78 | Starts and failures never change who is signed in. |
| UserSlice.CurrentUserIsLastSuccess | client/src/redux/user/userSlice.js:21-25 | The signed-in user is the one carried by the last sign-in or update success, unless a clearing success came later. |
| UserSlice.FailedSignInFromInitial | client/src/redux/user/userSlice.js:4-30 | From the initial state, a failed sign-in leaves nobody signed in and shows the message. |
| Text.Lower | server/controllers/listing.js:110 | Lower-casing keeps the length, maps each character, and leaves no upper-case letter. |
| Text.ContainsIsSubstring | server/controllers/listing.js:110 | The scan agrees with the positional definition of a substring. |
| Text.OccursLower | server/controllers/listing.js:110 | An occurrence of a term stays an occurrence, at the same place, once both are lower-cased. |
| Text.RemoveSpaces | api/controllers/auth.js:94 | `split(" ").join("")` removes every space and keeps every other character. |
| Text.RemoveSpacesAppend | api/controllers/auth.js:94 | Removing spaces from two joined strings is joining the two results, so the order of the other characters is kept. |
| Text.LowerAppend | api/controllers/auth.js:94 | Lower-casing two joined strings is joining the two results. |
| Text.DecimalRoundTrip | client/src/pages/Search.jsx:106 | A natural number written in decimal parses back to itself. |
| Text.ParseInt | client/src/pages/UpdateListing.jsx:127 | `parseInt` yields a number exactly when a digit follows the optional sign. |
| Text.ParseIntRoundTrip | client/src/pages/UpdateListing.jsx:127 | `parseInt(String(i)) == i` for every integer of the model. |
| Text.ParseIntStopsAtNonDigit | client/src/components/ListingItem.jsx:29-34 | `parseInt` stops at the first non-digit after the number. |
| UpdateListingPage.AnswerOf | client/src/pages/UpdateListing.jsx:145-152 | No response means no answer. A JSON body is the answer. An HTML body makes `res.json()` throw. |
| UpdateListingPage.Loaded | client/src/pages/UpdateListing.jsx:40-51 | A loaded listing replaces the whole form; anything else leaves the page unchanged. |
| UpdateListingPage.Upload | client/src/pages/UpdateListing.jsx:54-86 | Without files, or past six images, only the error changes. An accepted upload appends the URLs in file order after the existing images (never beyond six). A failed one sets the size error. |
| UpdateListingPage.WithoutPosition | client/src/pages/UpdateListing.jsx:114 | The filter removes exactly the element at the index, and nothing when the index is out of range. |
| UpdateListingPage.RemoveImage | client/src/pages/UpdateListing.jsx:111-115 | Only the image list changes. |
| UpdateListingPage.RemoveUndoesUpload | client/src/pages/UpdateListing.jsx:63-115 | Removing the image a one-file upload just added restores the form. |
| UpdateListingPage.HandleChange | client/src/pages/UpdateListing.jsx:118-129 | No field outside the changed input's own changes. |
| UpdateListingPage.ChangeSetsOwnField | client/src/pages/UpdateListing.jsx:118-129 | `sale`/`rent` set the type to their id whether ticked or not. The flags take `checked`. Text inputs take the value. A number input takes `parseInt` of it. Where `parseInt` reads nothing, the model leaves the form alone. |
| UpdateListingPage.ChangeIdempotent | client/src/pages/UpdateListing.jsx:118-129 | Handling an event twice is handling it once. |
| UpdateListingPage.ShownValueIsFixedPoint | client/src/pages/UpdateListing.jsx:173-332 | An event that repeats what a value input shows leaves the form unchanged. |
| UpdateListingPage.TypeStaysSaleOrRent | client/src/pages/UpdateListing.jsx:120-121 | The type stays `sale` or `rent` under every change. |
| UpdateListingPage.HandleSubmit | client/src/pages/UpdateListing.jsx:132-151 | With no image it sets the error and sends nothing (both directions). Otherwise it sends the form with `userRef` set to the signed-in user and marks loading. |
| UpdateListingPage.FinishSubmitAsWritten | client/src/pages/UpdateListing.jsx:152-162 | As written, a failure body sets the error and still navigates, to `/listing/undefined`. |
| UpdateListingPage.FinishSubmit | client/src/pages/UpdateListing.jsx:152-162 | Corrected: a failure keeps the user on the form with the message; a success navigates to the listing without an error. |
| UpdateListingPage.FinishDiffersOnlyOnFailure | client/src/pages/UpdateListing.jsx:154-156 | The two endings differ exactly on failure bodies. |
| UpdateListingPage.InitialFormNeedsAnImage | client/src/pages/UpdateListing.jsx:18-31 | The initial form cannot be submitted. |
| UpdateListingPage.OwnerSubmitStoresForm | client/src/pages/UpdateListing.jsx:132-163 | The owner's submit stores the form as the listing's fields and goes to that listing. |
| UpdateListingPage.LoadThenSubmitKeepsFields | client/src/pages/UpdateListing.jsx:40-150 | A listing loaded and submitted unedited by its owner is stored with the fields it had. |
| UpdateListingPage.RefusedUpdateNavigatesAwayAsWritten | client/src/pages/UpdateListing.jsx:154-156 | Against the as-written server, an edit of a listing deleted since the page loaded gets 404. The page as written then shows the message and navigates to `/listing/undefined`; corrected, it stays on the form with the message. |
| UpdateListingPage.NonOwnerSubmitHangsAsWritten | client/src/pages/UpdateListing.jsx:132-162 | As written, a non-owner's submit gets no answer, so the page stays loading and never navigates. |
| UpdateListingPage.ImagesStayWithinSix | client/src/pages/UpdateListing.jsx:55-61 | From at most six images, no sequence of uploads, removals and changes leads to more than six. |
| ListingCard.CoverImage | client/src/components/ListingItem.jsx:22 | The cover is the first image unless it is missing or empty, then the default; it is never empty. |
| ListingCard.DisplayedPrice | client/src/components/ListingItem.jsx:24-26 | An offer shows the discounted price; otherwise the regular one. |
| ListingCard.PriceSuffix | client/src/components/ListingItem.jsx:27 | " / month" exactly for rentals, nothing otherwise. |
| ListingCard.CountText | client/src/components/ListingItem.jsx:29-34 | The number, a space and the given noun, with an extra `s` exactly when the count is above one. |
| ListingCard.CardOf | client/src/components/ListingItem.jsx:22-38 | The card links to `/listing/<id>` and shows the listing's title, address and description. |
| ListingCard.CountTextReadsBack | client/src/components/ListingItem.jsx:29-34 | `parseInt` of the bedroom and bathroom texts gives back the counts. |
| ListingCard.PluralIffMoreThanOne | client/src/components/ListingItem.jsx:29-34 | The noun is plural exactly when the count is above one. |
| ListingCard.PriceIsOneOfTheTwo | client/src/components/ListingItem.jsx:24-26 | The price shown is one of the two prices. When they differ, it is the discounted one exactly for an offer. |
| ListingCard.OfferOnlyMovesThePrice | client/src/components/ListingItem.jsx:22-34 | The offer flag changes only the price on the card. |

## Left out

- Database I/O, promises and their interleavings. Every handler is one atomic step over the store.
- Routes.Serve: the model assumes the server process survives an unhandled rejection and goes on serving. The server installs no `unhandledRejection` handler, so on Node 15 and later the rejection of Findings row 1 ends the process, and every later request goes unanswered too.
- QueryEngine.GetListings: the title filter is case-insensitive substring containment over ASCII letters, not a full regular expression. A term holding regex metacharacters is not modelled.
- QueryEngine.GetListings: an empty `sort` is modelled as refused by the database. Other field names the database refuses, such as `$`-prefixed names or dotted paths with an empty part, are answered with listings in the model.
- QueryEngine.GetListings: `limit=0` (no limit in MongoDB) and non-numeric `limit`/`startIndex` values are not modelled. The query arrives with a positive limit and a natural start.
- SearchPage.ToQuery: the server takes `limit` and `startIndex` as raw strings with destructuring defaults. The driver reads `limit=0` as no limit and fails on a non-numeric `startIndex` (500). A negative `limit` (the driver returns one batch of that size) and a negative `startIndex` (500) are possible too. The model reads all of these as absent, so the defaults apply.
- QueryEngine.DecodeErrorOf: the messages are shortened forms of the mapper's cast and sort errors.
- QueryEngine.SortListings: the order of ties, and sorting by a non-numeric field, are unconstrained (every such listing gets the same key). The direction follows the query builder's rule `String(order || 1).toLowerCase()`, with case folded on ASCII letters only: an empty order sorts ascending. Mapper versions that reject the strings `"1"` and `"-1"` are not modelled.
- SearchPage.ShowMorePagesThrough: every request of the model orders ties among equal sort keys alike, by storage order. MongoDB does not promise this across queries with different `skip`. With equal prices across a window boundary, the real page can show a listing twice and skip another. The same holds for `SearchPage.ShownListingsAreDistinct` and `SearchPage.SubmittedSearchPagesThrough`.
- The listing schema's validation is not modelled; the listing model file is not part of this model.
- Request bodies with missing fields, bcrypt throwing on a missing password, and ObjectId cast errors are not modelled. Ids are plain strings.
- Express's case-insensitive and trailing-slash path matching, and static file serving, are not modelled. Every GET that names no endpoint gets the client application.
- Text.Lower: `toLowerCase` is modelled on ASCII letters only.
- UrlParams: repeated query keys, which the query-string parser turns into arrays, are not modelled. URL encoding is not modelled.
- The Firebase upload (`storeImage`), OAuth pop-ups, React rendering and `toLocaleString` price formatting are not modelled. `client/src/redux/store.js` (persistence) is not part of this model.
- SearchPage.Fetch requires a well-formed query, so the error body that a malformed hand-typed URL would put into the listings state is not modelled.
- Text.ParseInt: leading whitespace, `+` handling beyond skipping it, and hexadecimal prefixes are not modelled.
- Text.ParseIntRoundTrip: numbers are unbounded integers. JavaScript's exponent spelling (`String(1e21)`), precision lost beyond 2^53 and fractional counts are not modelled.
- UpdateListingPage.ChangeSetsOwnField: where `parseInt` gives `NaN`, the page stores `NaN`. The model has no `NaN` and leaves the form unchanged, so that case is not stated as the source behaves.
- UpdateListingPage.Loaded: the extra keys of a loaded listing (`_id`, `createdAt`, …), which ride along in the submit body, are not modelled. The form is exactly the editable fields.
- UpdateListingPage.Upload: overlapping uploads and a listing loaded with more than six images are not modelled.
- UpdateListingPage.HandleChange: the commutation of changes to different inputs is not stated.
- The other pages (home, profile, sign-in and sign-up forms, contact, header) are not part of this model.

## Findings

| source | as written | input that shows it | evidently intended | confidence | as-written member | corrected member |
|---|---|---|---|---|---|---|
| server/controllers/listing.js:46-52, 66-72 | a non-owner's delete or update calls `handleError`, which is not defined, so the async handler rejects and no response is sent. With no `unhandledRejection` handler, Node 15 and later also end the process | `DELETE /api/listing/delete/<id>` with a valid token of a user who does not own the listing | `errorHandler(403, …)`, so the caller gets 403 | high, not executed | ListingController.DeleteListingAsWritten, ListingController.UpdateListingAsWritten | ListingController.DeleteListing, ListingController.UpdateListing |
| client/src/pages/Search.jsx:44-45 | an absent `sort` puts `"created_at"`, a field no listing has, into the form's state. The value is latent: the select reads its default only when mounted, and the submit as written never sends the sort | `/search` with no `sort`, then a submit that sends the sort (the fix in the row on the sort select) | `"createdAt"`, the initial state's and the server's default | medium, not executed | SearchPage.ParseSidebarAsWritten, SearchPage.SortFallbackLatentAsWritten | SearchPage.ParseSidebar, SearchPage.DefaultSelectIsLatest |
| server/controllers/user.js:16-18, 21-32 | password `""` is falsy, skips hashing, and `$set` writes `""` as the password | `POST /api/user/update/<own id>` with body `{"password": ""}` | an empty password leaves the stored hash alone | medium, not executed | UserController.UpdateUserAsWritten, UserController.EmptyPasswordStoredAsWritten | UserController.UpdateUser |
| client/src/pages/Search.jsx:71-85, 90-96 | the sort select's change stores `sort_order: false`, and the submit skips `sort` and `order`, so the chosen sort never reaches the URL | choosing "Price high to low" and pressing Search | the select sets `sort` and `order`, and the submit sends them | high, not executed | SearchPage.HandleChangeAsWritten, SearchPage.BuildParamsAsWritten, SearchPage.SortChoiceIgnoredAsWritten | SearchPage.HandleChange, SearchPage.BuildParams, SearchPage.SortChoiceReachesQuery |
| client/src/pages/UpdateListing.jsx:154-156 | a failure body sets the error and then navigates to `/listing/${data._id}`, which is `/listing/undefined` | submitting an edit of a listing deleted since the page loaded it (404), or with the token cookie gone (401) | stay on the form with the server's message shown | high, not executed | UpdateListingPage.FinishSubmitAsWritten, UpdateListingPage.RefusedUpdateNavigatesAwayAsWritten | UpdateListingPage.FinishSubmit |

=== FILE: auth_controller.dfy ===
/** The authentication handlers `signup`, `signin`, `google` and `signout`
    (api/controllers/auth.js). The hash, the token signer, the random
    password and the random username suffix are parameters. */
module AuthController {
  import opened Base
  import opened Records
  import opened Http
  import opened Store
  import opened Crypto
  import opened Guard
  import Text
  import UserModel

  const CreatedMessage := "User created successfully"
  const UserNotFoundMessage := "User not found!"
  const InvalidPasswordMessage := "Invalid password!"
  const LoggedOutMessage := "User has been logged out"

  /** The user whose email is `email`, as `findOne({ email })` finds it. */
  function ByEmail(db: Db, email: string): Option<User> {
    Find(db.users, UserEmail, email)
  }

  /** The reply that signs `u` in: their profile without the password, and
      an HTTP-only cookie holding a token signed for their id. */
  function SignedIn(u: User, c: Primitives): (r: Response)
    ensures r.status == 200
    ensures r.body == ProfileJson(WithoutPassword(u))
    ensures r.cookie == SetAccessToken(c.sign(u.id), true)
  {
    Response(200, ProfileJson(WithoutPassword(u)), SetAccessToken(c.sign(u.id), true))
  }

  /** `signup`: the password is stored only as its hash; a failed save
      (missing field, taken username or email) goes to the middleware and
      stores nothing. */
  function Signup(db: Db, c: Primitives, username: string, email: string, password: string, newId: Id, now: int): (s: Step)
    ensures s.db.listings == db.listings
    ensures s.outcome.Reply? <==> UserModel.Save(db.users, UserModel.NewUser(username, email, c.hash(password), None), newId, now).Ok?
    ensures s.outcome.Reply? ==>
      && s.outcome.response == Response(201, TextJson(CreatedMessage), KeepCookie)
      && |s.db.users| == |db.users| + 1
      && s.db.users[..|db.users|] == db.users
      && var u := s.db.users[|db.users|];
      && u.id == newId && u.username == username && u.email == email
      && u.password == c.hash(password) && u.avatar == UserModel.DefaultAvatar
    ensures !s.outcome.Reply? ==> s.db == db && s.outcome.Next? && s.outcome.error.statusCode.None?
  {
    var doc := UserModel.NewUser(username, email, c.hash(password), None);
    match UserModel.Save(db.users, doc, newId, now)
    case Err(e) => Step(Next(e), db)
    case Ok(u) => Step(Reply(Response(201, TextJson(CreatedMessage), KeepCookie)),
                       db.(users := UserModel.Inserted(db.users, u)))
  }

  /** `signin`: 404 when no user has the email, 404 again when the password
      does not match the stored hash, otherwise the user is signed in. It
      never writes. */
  function Signin(db: Db, c: Primitives, email: string, password: string): (s: Step)
    ensures s.db == db
    ensures ByEmail(db, email).None? ==> s.outcome == Next(ErrorHandler(404, UserNotFoundMessage))
    ensures ByEmail(db, email).Some? && !c.matches(password, ByEmail(db, email).value.password)
        ==> s.outcome == Next(ErrorHandler(404, InvalidPasswordMessage))
    ensures s.outcome.Reply? <==> ByEmail(db, email).Some? && c.matches(password, ByEmail(db, email).value.password)
    ensures s.outcome.Reply? ==> s.outcome.response == SignedIn(ByEmail(db, email).value, c)
  {
    match ByEmail(db, email)
    case None => Step(Next(ErrorHandler(404, UserNotFoundMessage)), db)
    case Some(u) =>
      if !c.matches(password, u.password) then Step(Next(ErrorHandler(404, InvalidPasswordMessage)), db)
      else Step(Reply(SignedIn(u, c)), db)
  }

  /** The username `google` makes up: the display name with its spaces
      removed, lower-cased, followed by the random suffix. */
  function GoogleUsername(name: string, suffix: string): (r: string)
    ensures |suffix| <= |r| <= |name| + |suffix|
    ensures r[|r| - |suffix|..] == suffix
    ensures forall i :: 0 <= i < |r| - |suffix| ==> r[i] != ' ' && !Text.IsUpper(r[i])
    ensures r[..|r| - |suffix|] == Text.Lower(Text.RemoveSpaces(name))
  {
    Text.Lower(Text.RemoveSpaces(name)) + suffix
  }

  /** A two-word display name gives its two words lower-cased and run
      together, then the suffix: "Ann Lee" with suffix "x7k2" gives
      "annleex7k2". */
  lemma GoogleUsernameOfTwoWords(first: string, last: string, suffix: string)
    requires forall i :: 0 <= i < |first| ==> first[i] != ' '
    requires forall i :: 0 <= i < |last| ==> last[i] != ' '
    ensures GoogleUsername(first + " " + last, suffix) == Text.Lower(first) + Text.Lower(last) + suffix
  {
    Text.RemoveSpacesAppend(first + " ", last);
    Text.RemoveSpacesAppend(first, " ");
    Text.RemoveSpacesOfChar(' ');
    assert Text.RemoveSpaces(first + " " + last) == first + last;
    Text.LowerAppend(first, last);
  }

  /** `google`: an existing email signs its user in without any password
      check; a new email creates a user with the generated password's hash,
      the supplied avatar (or the default) and a made-up username, and
      signs that user in. */
  function Google(db: Db, c: Primitives, name: string, email: string, avatar: Option<string>,
                  generatedPassword: string, suffix: string, newId: Id, now: int): (s: Step)
    ensures s.db.listings == db.listings
    ensures ByEmail(db, email).Some? ==> s == Step(Reply(SignedIn(ByEmail(db, email).value, c)), db)
    ensures ByEmail(db, email).None? && s.outcome.Reply? ==>
      && |s.db.users| == |db.users| + 1
      && s.db.users[..|db.users|] == db.users
      && var u := s.db.users[|db.users|];
      && u.id == newId && u.email == email && u.username == GoogleUsername(name, suffix)
      && u.password == c.hash(generatedPassword) && u.avatar == avatar.GetOr(UserModel.DefaultAvatar)
      && s.outcome.response == SignedIn(u, c)
    ensures ByEmail(db, email).None? ==>
      (s.outcome.Reply? <==>
         UserModel.Save(db.users, UserModel.NewUser(GoogleUsername(name, suffix), email, c.hash(generatedPassword), avatar), newId, now).Ok?)
    ensures !s.outcome.Reply? ==> s.db == db && s.outcome.Next? && s.outcome.error.statusCode.None?
  {
    match ByEmail(db, email)
    case Some(u) => Step(Reply(SignedIn(u, c)), db)
    case None =>
      var doc := UserModel.NewUser(GoogleUsername(name, suffix), email, c.hash(generatedPassword), avatar);
      match UserModel.Save(db.users, doc, newId, now)
      case Err(e) => Step(Next(e), db)
      case Ok(u) => Step(Reply(SignedIn(u, c)), db.(users := UserModel.Inserted(db.users, u)))
  }

  /** `signout`: always 200, and the token cookie is cleared. */
  function Signout(db: Db): (s: Step)
    ensures s.db == db
    ensures s.outcome.Reply? && s.outcome.response.status == 200
    ensures s.outcome.response.body == MessageJson(LoggedOutMessage)
    ensures s.outcome.response.cookie == ClearAccessToken
  {
    Step(Reply(Response(200, MessageJson(LoggedOutMessage), ClearAccessToken)), db)
  }

  /** The browser's cookies after a response's cookie effect. */
  function ApplyCookie(cookies: map<string, string>, e: CookieEffect): (r: map<string, string>)
    ensures e.KeepCookie? ==> r == cookies
    ensures e.SetAccessToken? ==> AccessToken in r && r[AccessToken] == e.token
    ensures e.ClearAccessToken? ==> AccessToken !in r
    ensures forall k :: k != AccessToken ==> (k in r <==> k in cookies)
    ensures forall k :: k != AccessToken && k in cookies ==> r[k] == cookies[k]
  {
    match e
    case KeepCookie => cookies
    case SetAccessToken(t, _) => cookies[AccessToken := t]
    case ClearAccessToken => cookies - {AccessToken}
  }

  /** A user who signs up and then signs in with the same password is signed
      in as the user just created, provided the hash accepts the password it
      was made from. */
  lemma SignupThenSignin(db: Db, c: Primitives, username: string, email: string, password: string, newId: Id, now: int)
    requires Signup(db, c, username, email, password, newId, now).outcome.Reply?
    requires c.matches(password, c.hash(password))
    ensures var after := Signup(db, c, username, email, password, newId, now).db;
      var s := Signin(after, c, email, password);
      && s.outcome.Reply?
      && s.outcome.response == SignedIn(after.users[|db.users|], c)
      && after.users[|db.users|].id == newId
  {
    var doc := UserModel.NewUser(username, email, c.hash(password), None);
    var u := UserModel.Save(db.users, doc, newId, now).value;
    FindAppended(db.users, UserEmail, u);
  }

  /** The cookie a successful sign-in sets lets its holder through the token
      guard as the signed-in user, provided tokens verify to the id they
      were signed for. */
  lemma SigninTokenPassesGuard(db: Db, c: Primitives, email: string, password: string, cookies: map<string, string>)
    requires Signin(db, c, email, password).outcome.Reply?
    requires forall id :: c.verify(c.sign(id)) == Some(id) && c.sign(id) != ""
    ensures var r := Signin(db, c, email, password).outcome.response;
      VerifyToken(ApplyCookie(cookies, r.cookie), c) == Admit(ByEmail(db, email).value.id)
  {
    var u := ByEmail(db, email).value;
    SignedTokenAdmits(ApplyCookie(cookies, SetAccessToken(c.sign(u.id), true)), c, u.id);
  }

  /** After signing out, the guard turns the holder away with 401. */
  lemma SignoutLocksOut(db: Db, cookies: map<string, string>, c: Primitives)
    ensures VerifyToken(ApplyCookie(cookies, Signout(db).outcome.response.cookie), c) == Reject(ErrorHandler(401, "Unauthorized"))
  {
  }

  /** For an email already stored, `google` answers exactly as a password
      sign-in that matches would, and writes nothing. */
  lemma GoogleExistingIsSignin(db: Db, c: Primitives, name: string, email: string, avatar: Option<string>,
                               generatedPassword: string, suffix: string, newId: Id, now: int, password: string)
    requires ByEmail(db, email).Some? && c.matches(password, ByEmail(db, email).value.password)
    ensures Google(db, c, name, email, avatar, generatedPassword, suffix, newId, now)
         == Signin(db, c, email, password)
  {
  }
}

=== FILE: base.dfy ===
/** Small shared vocabulary: optional values and the positive naturals. */
module Base {

  /** A value that may be absent (JavaScript's `undefined`/`null`). */
  datatype Option<+T> = None | Some(value: T) {

    /** The wrapped value, or `default` when absent. */
    function GetOr(default: T): T {
      match this
      case Some(v) => v
      case None => default
    }
  }

  /** Either a value or an error. */
  datatype Result<+T, +E> = Ok(value: T) | Err(error: E) {

    predicate IsFailure() {
      Err?
    }

    function PropagateFailure<U>(): Result<U, E>
      requires Err?
    {
      Err(error)
    }

    function Extract(): T
      requires Ok?
    {
      value
    }
  }

  /** A natural number of at least one, such as a page size. */
  type Positive = n: nat | n >= 1 witness 1
}

=== FILE: guard.dfy ===
/** Password hashing and token signing, left uninterpreted. */
module Crypto {
  import opened Base
  import opened Records

  /** `hash` is `bcryptjs.hashSync(_, 10)`, `matches(p, h)` is
      `bcryptjs.compareSync(p, h)`, `sign(id)` is `jwt.sign({id}, secret)`
      and `verify(t)` is `jwt.verify(t, secret)` giving the id it carries,
      or `None` when the token does not verify. */
  datatype Primitives = Primitives(
    hash: string -> string,
    matches: (string, string) -> bool,
    sign: Id -> string,
    verify: string -> Option<Id>)
}

/** The token guard `verifyToken` (server/utils/verifyUser.js). */
module Guard {
  import opened Base
  import opened Records
  import opened Http
  import opened Crypto

  const AccessToken := "access_token"

  /** The guard either passes an error to `next` (and the handler does not
      run) or calls `next()` with `req.user` set to the decoded payload. */
  datatype Decision = Reject(error: ErrorValue) | Admit(caller: Id)

  /** The token in the request's cookies; absent when the cookie is missing
      or empty (both are falsy). */
  function TokenOf(cookies: map<string, string>): Option<string> {
    if AccessToken in cookies && cookies[AccessToken] != "" then Some(cookies[AccessToken]) else None
  }

  /** `verifyToken`: no token is 401, a token that does not verify is 403,
      otherwise the handler runs as the id the token carries. */
  function VerifyToken(cookies: map<string, string>, c: Primitives): (d: Decision)
    ensures TokenOf(cookies).None? <==> d == Reject(ErrorHandler(401, "Unauthorized"))
    ensures (TokenOf(cookies).Some? && c.verify(TokenOf(cookies).value).None?)
        <==> d == Reject(ErrorHandler(403, "Forbidden"))
    ensures d.Admit? <==> TokenOf(cookies).Some? && c.verify(TokenOf(cookies).value).Some?
    ensures d.Admit? ==> Some(d.caller) == c.verify(TokenOf(cookies).value)
  {
    match TokenOf(cookies)
    case None => Reject(ErrorHandler(401, "Unauthorized"))
    case Some(token) =>
      match c.verify(token)
      case None => Reject(ErrorHandler(403, "Forbidden"))
      case Some(id) => Admit(id)
  }

  /** The decision looks at the `access_token` cookie and nothing else. */
  lemma DecisionDependsOnlyOnToken(a: map<string, string>, b: map<string, string>, c: Primitives)
    requires AccessToken in a <==> AccessToken in b
    requires AccessToken in a ==> a[AccessToken] == b[AccessToken]
    ensures VerifyToken(a, c) == VerifyToken(b, c)
  {
  }

  /** A token signed for `id` lets its bearer through as `id`, provided the
      signature verifies back to the id it was made for. */
  lemma SignedTokenAdmits(cookies: map<string, string>, c: Primitives, id: Id)
    requires AccessToken in cookies && cookies[AccessToken] == c.sign(id)
    requires c.sign(id) != ""
    requires c.verify(c.sign(id)) == Some(id)
    ensures VerifyToken(cookies, c) == Admit(id)
  {
  }
}

=== FILE: http.dfy ===
/** Responses, the error values handlers pass on, the error constructor
    (server/utils/error.js) and the central error middleware
    (server/index.js). */
module Http {
  import opened Base
  import opened Records

  /** A JavaScript `Error` as it reaches the middleware: `statusCode` is
      absent for errors raised by libraries (a failed validation, a
      duplicate key), and `message` is `""` when none was set. */
  datatype ErrorValue = ErrorValue(statusCode: Option<int>, message: string)

  /** Response bodies: the JSON the handlers send, the client application's
      `index.html`, and Express's page for a request no route takes. */
  datatype Body =
    | ListingJson(listing: Listing)
    | ListingsJson(listings: seq<Listing>)
    | UserJson(user: User)
    | ProfileJson(profile: Profile)
    | TextJson(text: string)
    | MessageJson(message: string)
    | ErrorJson(success: bool, statusCode: int, message: string)
    | AppShell
    | NoRoutePage

  /** What a response does to the `access_token` cookie. */
  datatype CookieEffect =
    | KeepCookie
    | SetAccessToken(token: string, httpOnly: bool)
    | ClearAccessToken

  datatype Response = Response(status: int, body: Body, cookie: CookieEffect)

  /** How a handler ends: it replies, it passes an error to `next`, or it
      throws outside any `try` so that no response is ever sent. */
  datatype Outcome =
    | Reply(response: Response)
    | Next(error: ErrorValue)
    | Unhandled(error: ErrorValue)

  const InternalServerError := "Internal Server Error"

  /** `errorHandler(statusCode, message)`: an error carrying exactly the
      given status and message, for every argument pair. */
  function ErrorHandler(statusCode: int, message: string): (e: ErrorValue)
    ensures e.statusCode == Some(statusCode)
    ensures e.message == message
  {
    ErrorValue(Some(statusCode), message)
  }

  /** The status the middleware uses: a missing or zero status is 500. */
  function StatusOf(e: ErrorValue): int {
    match e.statusCode
    case Some(s) => if s == 0 then 500 else s
    case None => 500
  }

  /** The message the middleware uses: an empty one becomes the default. */
  function MessageOf(e: ErrorValue): string {
    if e.message == "" then InternalServerError else e.message
  }

  /** The central error middleware: the HTTP status always equals the
      body's `statusCode`, `success` is always false, a missing or zero
      status becomes 500 and an empty message becomes the default one. */
  function ErrorMiddleware(e: ErrorValue): (r: Response)
    ensures r.body.ErrorJson? && !r.body.success
    ensures r.status == r.body.statusCode
    ensures r.status != 0
    ensures (e.statusCode.None? || e.statusCode == Some(0)) ==> r.status == 500
    ensures (e.statusCode.Some? && e.statusCode != Some(0)) ==> r.status == e.statusCode.value
    ensures r.body.message != ""
    ensures e.message == "" ==> r.body.message == InternalServerError
    ensures e.message != "" ==> r.body.message == e.message
    ensures r.cookie == KeepCookie
  {
    var status := StatusOf(e);
    Response(status, ErrorJson(false, status, MessageOf(e)), KeepCookie)
  }

  /** What the client receives for a handler outcome; `None` when nothing
      is ever sent. */
  function Deliver(o: Outcome): Option<Response> {
    match o
    case Reply(r) => Some(r)
    case Next(e) => Some(ErrorMiddleware(e))
    case Unhandled(_) => None
  }

  /** An error built by `errorHandler` with a non-zero status and a
      non-empty message reaches the client unchanged. */
  lemma ErrorHandlerRoundTrip(statusCode: int, message: string)
    requires statusCode != 0 && message != ""
    ensures Deliver(Next(ErrorHandler(statusCode, message)))
         == Some(Response(statusCode, ErrorJson(false, statusCode, message), KeepCookie))
  {
  }

  /** Every response the middleware writes is an error response whose HTTP
      status agrees with its body. */
  lemma DeliveredErrorsAreConsistent(e: ErrorValue)
    ensures Deliver(Next(e)).Some?
    ensures var r := Deliver(Next(e)).value;
      r.body.ErrorJson? && !r.body.success && r.status == r.body.statusCode
  {
  }
}

=== FILE: listing_card.dfy ===
/** What a listing card shows (client/src/components/ListingItem.jsx):
    the cover image, the price and its suffix, and the bedroom and
    bathroom counts. Price formatting with `toLocaleString` is outside the
    model: the card's price is the number it formats. */
module ListingCard {
  import opened Base
  import opened Records
  import Text

  const DefaultImage := "https://53.fs1.hubspotusercontent-na1.net/hub/53/hubfs/Sales_Blog/real-estate-business-compressor.jpg?width=595&height=400&name=real-estate-business-compressor.jpg"
  const MonthSuffix := " / month"

  /** The client path of the listing page for `id`. */
  function ListingPath(id: string): string {
    "/listing/" + id
  }

  /** `imageURLs[0] || defaultImage`: the first image unless there is none
      or it is the empty string. The cover is never empty. */
  function CoverImage(f: ListingFields): (r: string)
    ensures |f.imageURLs| > 0 && f.imageURLs[0] != "" ==> r == f.imageURLs[0]
    ensures |f.imageURLs| == 0 || f.imageURLs[0] == "" ==> r == DefaultImage
    ensures r != ""
  {
    if |f.imageURLs| > 0 && f.imageURLs[0] != "" then f.imageURLs[0] else DefaultImage
  }

  /** The price shown: the discounted one for an offer, the regular one
      otherwise. */
  function DisplayedPrice(f: ListingFields): (r: int)
    ensures f.offer ==> r == f.discountPrice
    ensures !f.offer ==> r == f.regularPrice
  {
    if f.offer then f.discountPrice else f.regularPrice
  }

  /** `" / month"` after a rental's price, nothing after a sale's. */
  function PriceSuffix(f: ListingFields): (r: string)
    ensures r == MonthSuffix <==> f.listingType == "rent"
    ensures r == "" <==> f.listingType != "rent"
  {
    if f.listingType == "rent" then MonthSuffix else ""
  }

  /** `"<n> <noun>s"` when `n > 1`, else `"<n> <noun>"`. */
  function CountText(n: int, noun: string): (r: string)
    requires |noun| > 0
    ensures n > 1 ==> |r| == |Text.IntToDecimal(n)| + 1 + |noun| + 1
    ensures n <= 1 ==> |r| == |Text.IntToDecimal(n)| + 1 + |noun|
    ensures r[..|Text.IntToDecimal(n)|] == Text.IntToDecimal(n)
    ensures r[|Text.IntToDecimal(n)|] == ' '
    ensures r[|Text.IntToDecimal(n)| + 1..|Text.IntToDecimal(n)| + 1 + |noun|] == noun
    ensures r[|r| - 1] == 's' <==> n > 1 || noun[|noun| - 1] == 's'
  {
    Text.IntToDecimal(n) + Unit(n, noun)
  }

  /** What follows the number: a space and the noun, plural above one. */
  function Unit(n: int, noun: string): (r: string)
    ensures |r| > 0 && r[0] == ' '
  {
    " " + noun + (if n > 1 then "s" else "")
  }

  function BedroomText(f: ListingFields): string {
    CountText(f.bedrooms, "bed")
  }

  function BathroomText(f: ListingFields): string {
    CountText(f.bathrooms, "bath")
  }

  /** Everything the card shows, with where it links. */
  datatype Card = Card(
    link: string,
    image: string,
    title: string,
    address: string,
    description: string,
    price: int,
    priceSuffix: string,
    bedrooms: string,
    bathrooms: string)

  function CardOf(l: Listing): (c: Card)
    ensures c.link == ListingPath(l.id)
    ensures c.title == l.fields.title && c.address == l.fields.address && c.description == l.fields.description
  {
    var f := l.fields;
    Card(ListingPath(l.id), CoverImage(f), f.title, f.address, f.description,
         DisplayedPrice(f), PriceSuffix(f), BedroomText(f), BathroomText(f))
  }

  /** A count text reads back as its number: `parseInt` stops at the
      space after the digits. */
  lemma CountTextParses(n: int, noun: string)
    requires |noun| > 0
    ensures Text.ParseInt(CountText(n, noun)) == Some(n)
  {
    Text.ParseIntStopsAtNonDigit(n, Unit(n, noun));
  }

  /** `parseInt` of the bedroom text is the number of bedrooms, and
      likewise for bathrooms. */
  lemma CountTextReadsBack(f: ListingFields)
    ensures Text.ParseInt(BedroomText(f)) == Some(f.bedrooms)
    ensures Text.ParseInt(BathroomText(f)) == Some(f.bathrooms)
  {
    CountTextParses(f.bedrooms, "bed");
    CountTextParses(f.bathrooms, "bath");
  }

  /** The noun is plural exactly when the count is above one. */
  lemma PluralIffMoreThanOne(f: ListingFields)
    ensures BedroomText(f)[|BedroomText(f)| - 1] == 's' <==> f.bedrooms > 1
    ensures BathroomText(f)[|BathroomText(f)| - 1] == 's' <==> f.bathrooms > 1
  {
  }

  /** The price shown is one of the two prices, and it is the discounted
      one whenever the two differ and the listing is an offer. */
  lemma PriceIsOneOfTheTwo(f: ListingFields)
    ensures DisplayedPrice(f) == f.regularPrice || DisplayedPrice(f) == f.discountPrice
    ensures f.regularPrice != f.discountPrice ==> (DisplayedPrice(f) == f.discountPrice <==> f.offer)
  {
  }

  /** Taking an offer away shows the regular price again; the card's other
      parts do not depend on the offer. */
  lemma OfferOnlyMovesThePrice(l: Listing, offer: bool)
    ensures var c := CardOf(l); var c' := CardOf(l.(fields := l.fields.(offer := offer)));
      c'.(price := c.price) == c
    ensures !offer ==> CardOf(l.(fields := l.fields.(offer := offer))).price == l.fields.regularPrice
  {
  }
}

=== FILE: listing_controller.dfy ===
/** The listing handlers `createListing`, `getListing`, `deleteListing` and
    `updateListing` (server/controllers/listing.js), as transitions of the
    database. `caller` is the id the token guard put in `req.user`. */
module ListingController {
  import opened Base
  import opened Records
  import opened Http
  import opened Store

  const NotFoundMessage := "The requested listing could not be found."
  const CreateForbiddenMessage := "Creating a listing is restricted to accounts that you own."
  const DeleteForbiddenMessage := "Deletion of a listing is restricted to the owner only. You may only delete your own listings."
  const UpdateForbiddenMessage := "Modification of a listing is restricted to the owner only. You may only update your own listings."
  const DeletedMessage := "The listing has been deleted successfully."
  /** What calling the undefined `handleError` throws. */
  const HandleErrorUndefined := "handleError is not defined"
  /** The store's answer to a second document with an existing `_id`. */
  const DuplicateKeyMessage := "E11000 duplicate key error"

  /** The listing stored under `id`, if any. */
  function Lookup(db: Db, id: Id): Option<Listing> {
    Find(db.listings, ListingId, id)
  }

  /** `createListing`: only a caller who names themself as owner may create;
      anyone else gets 403 and nothing is stored. The new listing is stored
      last, owned by the caller, stamped with `now` and returned with 201. */
  function CreateListing(db: Db, caller: Id, draft: ListingDraft, newId: Id, now: int): (s: Step)
    ensures draft.userRef != Some(caller) ==> s == Step(Next(ErrorHandler(403, CreateForbiddenMessage)), db)
    ensures s.db != db ==> draft.userRef == Some(caller) && Lookup(db, newId).None?
    ensures s.db.users == db.users
    ensures s.outcome.Reply? <==> s.db != db
    ensures s.outcome.Reply? ==>
      && s.outcome.response.status == 201
      && s.outcome.response.body.ListingJson?
      && var l := s.outcome.response.body.listing;
      && s.db.listings == db.listings + [l]
      && l.id == newId && l.fields == draft.fields && l.userRef == caller
      && l.createdAt == now && l.updatedAt == now
  {
    if draft.userRef != Some(caller) then
      Step(Next(ErrorHandler(403, CreateForbiddenMessage)), db)
    else if Lookup(db, newId).Some? then
      Step(Next(ErrorValue(None, DuplicateKeyMessage)), db)
    else
      var l := Listing(newId, draft.fields, caller, now, now);
      Step(Reply(Response(201, ListingJson(l), KeepCookie)), db.(listings := db.listings + [l]))
  }

  /** `getListing`: the stored listing with 200, or 404; never a write. */
  function GetListing(db: Db, id: Id): (s: Step)
    ensures s.db == db
    ensures Lookup(db, id).None? <==> s.outcome == Next(ErrorHandler(404, NotFoundMessage))
    ensures Lookup(db, id).Some? ==> s.outcome == Reply(Response(200, ListingJson(Lookup(db, id).value), KeepCookie))
  {
    match Lookup(db, id)
    case None => Step(Next(ErrorHandler(404, NotFoundMessage)), db)
    case Some(l) => Step(Reply(Response(200, ListingJson(l), KeepCookie)), db)
  }

  /** The listings after the owner deletes `id`. */
  function DeleteEffect(db: Db, id: Id): Db {
    db.(listings := Remove(db.listings, ListingId, id))
  }

  /** `deleteListing` as written: a non-owner's request reaches the undefined
      `handleError`, which throws outside any `try`, so no response is sent.
      Either way a non-owner never changes the database. */
  function DeleteListingAsWritten(db: Db, caller: Id, id: Id): (s: Step)
    ensures Lookup(db, id).None? ==> s == Step(Next(ErrorHandler(404, NotFoundMessage)), db)
    ensures Lookup(db, id).Some? && Lookup(db, id).value.userRef != caller
        ==> s == Step(Unhandled(ErrorValue(None, HandleErrorUndefined)), db)
    ensures s.db != db ==> Lookup(db, id).Some? && Lookup(db, id).value.userRef == caller
  {
    match Lookup(db, id)
    case None => Step(Next(ErrorHandler(404, NotFoundMessage)), db)
    case Some(l) =>
      if caller != l.userRef then Step(Unhandled(ErrorValue(None, HandleErrorUndefined)), db)
      else Step(Reply(Response(200, TextJson(DeletedMessage), KeepCookie)), DeleteEffect(db, id))
  }

  /** `deleteListing` with `errorHandler` where `handleError` is written:
      404 for a missing listing, 403 for a non-owner, and for the owner the
      listing `id` is gone while every other lookup is unchanged. */
  function DeleteListing(db: Db, caller: Id, id: Id): (s: Step)
    ensures Lookup(db, id).None? ==> s == Step(Next(ErrorHandler(404, NotFoundMessage)), db)
    ensures Lookup(db, id).Some? && Lookup(db, id).value.userRef != caller
        ==> s == Step(Next(ErrorHandler(403, DeleteForbiddenMessage)), db)
    ensures Lookup(db, id).Some? && Lookup(db, id).value.userRef == caller ==>
      && s.outcome == Reply(Response(200, TextJson(DeletedMessage), KeepCookie))
      && Lookup(s.db, id).None?
      && (forall k :: k != id ==> Lookup(s.db, k) == Lookup(db, k))
      && s.db.users == db.users
  {
    match Lookup(db, id)
    case None => Step(Next(ErrorHandler(404, NotFoundMessage)), db)
    case Some(l) =>
      if caller != l.userRef then Step(Next(ErrorHandler(403, DeleteForbiddenMessage)), db)
      else Step(Reply(Response(200, TextJson(DeletedMessage), KeepCookie)), DeleteEffect(db, id))
  }

  /** The listing after an update: the patch's fields overwrite, the owner
      moves if the patch names one, and `updatedAt` becomes `now`. */
  function Updated(l: Listing, p: ListingPatch, now: int): Listing {
    l.(fields := PatchFields(l.fields, p), userRef := p.userRef.GetOr(l.userRef), updatedAt := now)
  }

  /** `updateListing` as written: like deletion, a non-owner's request
      throws through the undefined `handleError`. */
  function UpdateListingAsWritten(db: Db, caller: Id, id: Id, p: ListingPatch, now: int): (s: Step)
    ensures Lookup(db, id).None? ==> s == Step(Next(ErrorHandler(404, NotFoundMessage)), db)
    ensures Lookup(db, id).Some? && Lookup(db, id).value.userRef != caller
        ==> s == Step(Unhandled(ErrorValue(None, HandleErrorUndefined)), db)
    ensures s.db != db ==> Lookup(db, id).Some? && Lookup(db, id).value.userRef == caller
  {
    match Lookup(db, id)
    case None => Step(Next(ErrorHandler(404, NotFoundMessage)), db)
    case Some(l) =>
      if caller != l.userRef then Step(Unhandled(ErrorValue(None, HandleErrorUndefined)), db)
      else
        var u := Updated(l, p, now);
        Step(Reply(Response(200, ListingJson(u), KeepCookie)),
             db.(listings := Replace(db.listings, ListingId, id, u)))
  }

  /** `updateListing` with `errorHandler`: 404 for a missing listing, 403 for
      a non-owner; for the owner the listing `id` takes the patched fields
      and is returned, and every other listing and every user is unchanged. */
  function UpdateListing(db: Db, caller: Id, id: Id, p: ListingPatch, now: int): (s: Step)
    ensures Lookup(db, id).None? ==> s == Step(Next(ErrorHandler(404, NotFoundMessage)), db)
    ensures Lookup(db, id).Some? && Lookup(db, id).value.userRef != caller
        ==> s == Step(Next(ErrorHandler(403, UpdateForbiddenMessage)), db)
    ensures Lookup(db, id).Some? && Lookup(db, id).value.userRef == caller ==>
      var before := Lookup(db, id).value;
      && Lookup(s.db, id).Some?
      && var l := Lookup(s.db, id).value;
      && l.id == id && l.createdAt == before.createdAt && l.updatedAt == now
      && l.fields == PatchFields(before.fields, p)
      && l.userRef == p.userRef.GetOr(before.userRef)
      && s.outcome == Reply(Response(200, ListingJson(l), KeepCookie))
      && (forall k :: k != id ==> Lookup(s.db, k) == Lookup(db, k))
      && |s.db.listings| == |db.listings|
      && s.db.users == db.users
  {
    match Lookup(db, id)
    case None => Step(Next(ErrorHandler(404, NotFoundMessage)), db)
    case Some(l) =>
      if caller != l.userRef then Step(Next(ErrorHandler(403, UpdateForbiddenMessage)), db)
      else
        var u := Updated(l, p, now);
        Step(Reply(Response(200, ListingJson(u), KeepCookie)),
             db.(listings := Replace(db.listings, ListingId, id, u)))
  }

  /** A created listing can be fetched back by its id with the fields it was
      created with. */
  lemma CreateThenGet(db: Db, caller: Id, fields: ListingFields, newId: Id, now: int)
    requires Lookup(db, newId).None?
    ensures var created := CreateListing(db, caller, ListingDraft(fields, Some(caller)), newId, now);
      var fetched := GetListing(created.db, newId);
      && fetched.outcome.Reply?
      && fetched.outcome.response.body.listing.fields == fields
      && fetched.outcome.response.body.listing.userRef == caller
  {
    var l := Listing(newId, fields, caller, now, now);
    var ls := db.listings + [l];
    assert Find(ls, ListingId, newId) == Some(l) by {
      FindAppended(db.listings, ListingId, l);
    }
  }

  /** A full update by the owner leaves the listing holding exactly the
      submitted fields. */
  lemma FullUpdateStoresDraft(db: Db, caller: Id, id: Id, draft: ListingDraft, now: int)
    requires Lookup(db, id).Some? && Lookup(db, id).value.userRef == caller
    ensures var s := UpdateListing(db, caller, id, PatchOf(draft), now);
      Lookup(s.db, id).Some? && Lookup(s.db, id).value.fields == draft.fields
  {
  }

  /** Every listing transition keeps listing ids unique. */
  lemma ListingStepsKeepValid(db: Db, caller: Id, id: Id, draft: ListingDraft, p: ListingPatch, newId: Id, now: int)
    requires Valid(db)
    ensures Valid(CreateListing(db, caller, draft, newId, now).db)
    ensures Valid(DeleteListing(db, caller, id).db)
    ensures Valid(UpdateListing(db, caller, id, p, now).db)
    ensures Valid(DeleteListingAsWritten(db, caller, id).db)
    ensures Valid(UpdateListingAsWritten(db, caller, id, p, now).db)
  {
    EditBuildsAgree(db, caller, id, p, now);
    var c := CreateListing(db, caller, draft, newId, now);
    if c.db != db {
      AppendKeepsUnique(db.listings, c.outcome.response.body.listing, ListingId);
    }
    RemoveKeepsUnique(db.listings, ListingId, id, ListingId);
    if Lookup(db, id).Some? {
      ReplaceKeepsUnique(db.listings, ListingId, id, Updated(Lookup(db, id).value, p, now));
    }
  }

  /** Delete and update as written and as corrected leave the same store
      behind, and they answer alike except on a non-owner's request for a
      stored listing: no answer at all as written, 403 as corrected. */
  lemma EditBuildsAgree(db: Db, caller: Id, id: Id, p: ListingPatch, now: int)
    ensures DeleteListingAsWritten(db, caller, id).db == DeleteListing(db, caller, id).db
    ensures UpdateListingAsWritten(db, caller, id, p, now).db == UpdateListing(db, caller, id, p, now).db
    ensures Lookup(db, id).None? || Lookup(db, id).value.userRef == caller ==>
      && DeleteListingAsWritten(db, caller, id) == DeleteListing(db, caller, id)
      && UpdateListingAsWritten(db, caller, id, p, now) == UpdateListing(db, caller, id, p, now)
    ensures Lookup(db, id).Some? && Lookup(db, id).value.userRef != caller ==>
      && Deliver(DeleteListingAsWritten(db, caller, id).outcome).None?
      && Deliver(DeleteListing(db, caller, id).outcome).value.status == 403
      && Deliver(UpdateListingAsWritten(db, caller, id, p, now).outcome).None?
      && Deliver(UpdateListing(db, caller, id, p, now).outcome).value.status == 403
  {
  }
}

=== FILE: query.dfy ===
/** The listing query engine, `getListings` (server/controllers/listing.js):
    an untyped query turned into a filter, a single-key sort and a
    skip/limit window over the stored listings. */
module QueryEngine {
  import opened Base
  import opened Text
  import opened Records
  import opened Http
  import opened Seqs

  /** `req.query` of `GET /api/listing/get`. Every parameter may be absent;
      `limit` and `startIndex` arrive already cast to numbers. */
  datatype Query = Query(
    limit: Option<Positive>,
    startIndex: Option<nat>,
    offer: Option<string>,
    furnished: Option<string>,
    parking: Option<string>,
    listingType: Option<string>,
    searchTerm: Option<string>,
    sort: Option<string>,
    order: Option<string>)

  /** The query with every parameter absent. */
  const EmptyQuery := Query(None, None, None, None, None, None, None, None, None)

  const DefaultLimit: Positive := 9
  const DefaultSort := "createdAt"
  const DefaultOrder := "desc"

  /** The spellings the document mapper casts to a boolean. `"false"` never
      reaches the cast: the engine reads it as "no constraint" first. */
  const TrueSpellings: set<string> := {"true", "1", "yes"}
  const FalseSpellings: set<string> := {"0", "no"}

  /** The spellings the query builder accepts as a sort direction, once
      read by `OrderKey`. */
  const AscendingSpellings: set<string> := {"asc", "ascending", "1"}
  const DescendingSpellings: set<string> := {"desc", "descending", "-1"}

  const CastErrorMessage := "Cast to Boolean failed"
  const InvalidSortMessage := "Invalid sort value"
  /** The database's refusal of a sort on the empty field name. */
  const EmptySortFieldMessage := "bad sort specification"

  /** The constraint one boolean parameter puts on its field. */
  datatype FlagFilter = AnyFlag | OnlyTrue | OnlyFalse

  datatype Direction = Ascending | Descending

  /** The query after defaults are applied and every parameter is read. */
  datatype Filters = Filters(
    offer: FlagFilter,
    furnished: FlagFilter,
    parking: FlagFilter,
    listingType: Option<string>,
    searchTerm: string,
    sort: string,
    direction: Direction,
    limit: Positive,
    startIndex: nat)

  // ----- Reading the parameters -------------------------------------------

  /** `parseBooleanQueryParam` followed by the mapper's boolean cast. */
  function DecodeFlag(param: Option<string>): Result<FlagFilter, ErrorValue> {
    match param
    case None => Ok(AnyFlag)
    case Some(v) =>
      if v == "false" then Ok(AnyFlag)
      else if v in TrueSpellings then Ok(OnlyTrue)
      else if v in FalseSpellings then Ok(OnlyFalse)
      else Err(ErrorValue(None, CastErrorMessage))
  }

  /** The query builder's reading of a sort value, `String(v || 1)` lower-
      cased: an empty order is falsy and reads as `1`, ascending. */
  function OrderKey(order: string): (k: string)
    ensures order == "" ==> k in AscendingSpellings
    ensures order in AscendingSpellings || order in DescendingSpellings ==> k == order
  {
    if order == "" then "1" else SpellingsAreLowerCase(order); Lower(order)
  }

  /** The accepted spellings are their own lower-case forms. */
  lemma SpellingsAreLowerCase(order: string)
    ensures order in AscendingSpellings || order in DescendingSpellings ==> Lower(order) == order
  {
    if order in AscendingSpellings || order in DescendingSpellings {
      assert forall i :: 0 <= i < |order| ==> !IsUpper(order[i]);
    }
  }

  function DecodeDirection(order: string): Result<Direction, ErrorValue> {
    if OrderKey(order) in AscendingSpellings then Ok(Ascending)
    else if OrderKey(order) in DescendingSpellings then Ok(Descending)
    else Err(ErrorValue(None, InvalidSortMessage))
  }

  /** `type` absent or `"all"` becomes "either sale or rent" (`None`). */
  function DecodeType(param: Option<string>): Option<string> {
    match param
    case None => None
    case Some(t) => if t == "all" then None else Some(t)
  }

  /** The sort field as the database reads it: `sort=` is the empty field
      name, which it refuses. The default applies only to an absent
      parameter. */
  function DecodeSortField(sort: Option<string>): Result<string, ErrorValue> {
    match sort
    case None => Ok(DefaultSort)
    case Some(f) => if f != "" then Ok(f) else Err(ErrorValue(None, EmptySortFieldMessage))
  }

  /** The direction is read first: `.sort()` rejects a bad order while the
      query is being built, before the filter's flags are cast when it
      runs. The database sees the sort field last, once the query is sent. */
  function DecodeQuery(q: Query): Result<Filters, ErrorValue> {
    var direction :- DecodeDirection(q.order.GetOr(DefaultOrder));
    var offer :- DecodeFlag(q.offer);
    var furnished :- DecodeFlag(q.furnished);
    var parking :- DecodeFlag(q.parking);
    var _ :- DecodeSortField(q.sort);
    Ok(Filters(offer, furnished, parking, DecodeType(q.listingType), q.searchTerm.GetOr(""),
               q.sort.GetOr(DefaultSort), direction, q.limit.GetOr(DefaultLimit), q.startIndex.GetOr(0)))
  }

  predicate FlagAdmits(f: FlagFilter, b: bool) {
    match f
    case AnyFlag => true
    case OnlyTrue => b
    case OnlyFalse => !b
  }

  /** `{ $in: ["sale", "rent"] }` when `None`, equality otherwise. */
  predicate TypeAdmits(t: Option<string>, listingType: string) {
    match t
    case None => listingType == "sale" || listingType == "rent"
    case Some(v) => listingType == v
  }

  /** The document filter handed to `Listing.find`. */
  predicate Matches(f: Filters, l: Listing) {
    && ContainsIgnoringCase(l.fields.title, f.searchTerm)
    && FlagAdmits(f.offer, l.fields.offer)
    && FlagAdmits(f.furnished, l.fields.furnished)
    && FlagAdmits(f.parking, l.fields.parking)
    && TypeAdmits(f.listingType, l.fields.listingType)
  }

  // ----- The query's meaning, parameter by parameter ----------------------

  /** A boolean parameter that can be read. */
  predicate FlagParamOk(param: Option<string>) {
    param.None? || param.value == "false" || param.value in TrueSpellings || param.value in FalseSpellings
  }

  /** A query every parameter of which can be read. */
  predicate WellFormed(q: Query) {
    && FlagParamOk(q.offer)
    && FlagParamOk(q.furnished)
    && FlagParamOk(q.parking)
    && (q.order.None? || OrderKey(q.order.value) in AscendingSpellings || OrderKey(q.order.value) in DescendingSpellings)
    && q.sort != Some("")
  }

  /** Absent or `"false"`: no constraint; a true spelling: only listings with
      the flag set; a false spelling: only listings without it. */
  predicate FlagParamAdmits(param: Option<string>, b: bool) {
    || param.None?
    || param.value == "false"
    || (param.value in TrueSpellings && b)
    || (param.value in FalseSpellings && !b)
  }

  /** Absent or `"all"`: sale or rent; any other value: exactly that type. */
  predicate TypeParamAdmits(param: Option<string>, listingType: string) {
    if param.None? || param.value == "all" then listingType == "sale" || listingType == "rent"
    else listingType == param.value
  }

  /** The listings a query asks for, stated on the raw parameters. */
  predicate Admitted(q: Query, l: Listing) {
    && ContainsIgnoringCase(l.fields.title, q.searchTerm.GetOr(""))
    && FlagParamAdmits(q.offer, l.fields.offer)
    && FlagParamAdmits(q.furnished, l.fields.furnished)
    && FlagParamAdmits(q.parking, l.fields.parking)
    && TypeParamAdmits(q.listingType, l.fields.listingType)
  }

  function LimitOf(q: Query): Positive {
    q.limit.GetOr(DefaultLimit)
  }

  function StartOf(q: Query): nat {
    q.startIndex.GetOr(0)
  }

  function SortFieldOf(q: Query): string {
    q.sort.GetOr(DefaultSort)
  }

  /** The direction of a well-formed query: descending unless asked otherwise. */
  function DirectionOf(q: Query): Direction {
    if q.order.Some? && OrderKey(q.order.value) in AscendingSpellings then Ascending else Descending
  }

  /** Reading the parameters fails exactly for a malformed query. */
  lemma DecodeOkIffWellFormed(q: Query)
    ensures DecodeQuery(q).Ok? <==> WellFormed(q)
    ensures DecodeQuery(q).Ok? ==> DecodeQuery(q).value.direction == DirectionOf(q)
    ensures DecodeQuery(q).Err? ==> DecodeQuery(q).error.statusCode.None?
  {
  }

  /** The direction ignores case, and an empty order sorts ascending. */
  lemma DirectionIgnoresCase(order: string)
    ensures DecodeDirection(Lower(order)) == DecodeDirection(order)
    ensures DecodeDirection("") == Ok(Ascending)
  {
    assert Lower(Lower(order)) == Lower(order);
  }

  /** Which error a malformed query reports: a bad order wins over a bad
      flag, a bad flag wins over an empty sort field, and none carries a
      status. */
  lemma DecodeErrorOf(q: Query)
    ensures DecodeDirection(q.order.GetOr(DefaultOrder)).Err? ==> DecodeQuery(q) == Err(ErrorValue(None, InvalidSortMessage))
    ensures DecodeDirection(q.order.GetOr(DefaultOrder)).Ok? ==>
      && (!(FlagParamOk(q.offer) && FlagParamOk(q.furnished) && FlagParamOk(q.parking)) ==>
            DecodeQuery(q) == Err(ErrorValue(None, CastErrorMessage)))
      && (FlagParamOk(q.offer) && FlagParamOk(q.furnished) && FlagParamOk(q.parking) && q.sort == Some("") ==>
            DecodeQuery(q) == Err(ErrorValue(None, EmptySortFieldMessage)))
  {
  }

  /** `sort=` answers 500 whatever the store holds: the default field
      applies only to an absent parameter. */
  lemma EmptySortFieldRefused(q: Query, stored: seq<Listing>)
    ensures GetListings(q.(sort := Some("")), stored).Err?
    ensures GetListings(q.(sort := Some("")), stored).error.statusCode.None?
  {
  }

  /** The filter built from a well-formed query admits exactly the listings
      the query asks for. */
  lemma DecodeQueryMeaning(q: Query, l: Listing)
    requires WellFormed(q)
    ensures DecodeQuery(q).Ok? && (Matches(DecodeQuery(q).value, l) <==> Admitted(q, l))
  {
  }

  // ----- Sorting -----------------------------------------------------------

  /** The value a listing is sorted by. Numeric fields sort by their value;
      every other field name gives all listings the same key. */
  function SortKey(field: string, l: Listing): int {
    if field == "createdAt" then l.createdAt
    else if field == "updatedAt" then l.updatedAt
    else if field == "regularPrice" then l.fields.regularPrice
    else if field == "discountPrice" then l.fields.discountPrice
    else if field == "bedrooms" then l.fields.bedrooms
    else if field == "bathrooms" then l.fields.bathrooms
    else 0
  }

  predicate InOrder(d: Direction, a: int, b: int) {
    match d
    case Ascending => a <= b
    case Descending => a >= b
  }

  /** Every element comes no later than the ones after it; ties in any order. */
  predicate Sorted(xs: seq<Listing>, key: Listing -> int, d: Direction) {
    forall i, j :: 0 <= i < j < |xs| ==> InOrder(d, key(xs[i]), key(xs[j]))
  }

  /** Sorted by the named field. */
  predicate SortedBy(xs: seq<Listing>, field: string, d: Direction) {
    Sorted(xs, KeyOf(field), d)
  }

  function KeyOf(field: string): Listing -> int {
    (l: Listing) => SortKey(field, l)
  }

  function Insert(x: Listing, xs: seq<Listing>, key: Listing -> int, d: Direction): (r: seq<Listing>)
    requires Sorted(xs, key, d)
    ensures Sorted(r, key, d)
    ensures multiset(r) == multiset(xs) + multiset{x}
  {
    if |xs| == 0 then [x]
    else if InOrder(d, key(x), key(xs[0])) then [x] + xs
    else
      var rest := Insert(x, xs[1..], key, d);
      InsertBehindHead(x, xs, rest, key, d);
      [xs[0]] + rest
  }

  /** The head of a sorted sequence may precede a sorted permutation of its
      tail plus an element that does not belong before it. */
  lemma InsertBehindHead(x: Listing, xs: seq<Listing>, rest: seq<Listing>, key: Listing -> int, d: Direction)
    requires |xs| > 0 && Sorted(xs, key, d) && Sorted(rest, key, d)
    requires !InOrder(d, key(x), key(xs[0]))
    requires multiset(rest) == multiset(xs[1..]) + multiset{x}
    ensures Sorted([xs[0]] + rest, key, d)
    ensures multiset([xs[0]] + rest) == multiset(xs) + multiset{x}
  {
    assert xs == [xs[0]] + xs[1..];
    forall j | 0 <= j < |rest| ensures InOrder(d, key(xs[0]), key(rest[j])) {
      assert rest[j] in multiset(rest);
      if rest[j] != x {
        assert rest[j] in multiset(xs[1..]);
        var k :| 0 <= k < |xs[1..]| && xs[1..][k] == rest[j];
        assert xs[k + 1] == rest[j];
      }
    }
    var r := [xs[0]] + rest;
    forall i, j | 0 <= i < j < |r| ensures InOrder(d, key(r[i]), key(r[j])) {
      if i > 0 {
        assert r[i] == rest[i - 1] && r[j] == rest[j - 1];
      } else {
        assert r[j] == rest[j - 1];
      }
    }
  }

  /** `.sort({ [field]: order })`: a sorted permutation of the input. */
  function SortListings(xs: seq<Listing>, key: Listing -> int, d: Direction): (r: seq<Listing>)
    ensures Sorted(r, key, d)
    ensures multiset(r) == multiset(xs)
  {
    if |xs| == 0 then []
    else
      assert xs == [xs[0]] + xs[1..];
      Insert(xs[0], SortListings(xs[1..], key, d), key, d)
  }

  // ----- The engine --------------------------------------------------------

  /** The sorted matches of a decoded filter. */
  function Run(f: Filters, stored: seq<Listing>): seq<Listing> {
    SortListings(Filter(stored, (l: Listing) => Matches(f, l)), KeyOf(f.sort), f.direction)
  }

  /** Every listing the query asks for, in the order the query asks for:
      the sequence the engine's pages are cut from. */
  function SortedMatches(q: Query, stored: seq<Listing>): (s: seq<Listing>)
    requires WellFormed(q)
    ensures SortedBy(s, SortFieldOf(q), DirectionOf(q))
    ensures forall l :: multiset(s)[l] == if Admitted(q, l) then multiset(stored)[l] else 0
  {
    var f := DecodeQuery(q).value;
    RunCounts(q, f, stored);
    Run(f, stored)
  }

  lemma RunCounts(q: Query, f: Filters, stored: seq<Listing>)
    requires DecodeQuery(q) == Ok(f)
    ensures f.sort == SortFieldOf(q) && f.direction == DirectionOf(q)
    ensures forall l :: multiset(Run(f, stored))[l] == if Admitted(q, l) then multiset(stored)[l] else 0
  {
    DecodeOkIffWellFormed(q);
    forall l ensures Matches(f, l) <==> Admitted(q, l) {
      DecodeQueryMeaning(q, l);
    }
  }

  /** The sorted matches do not depend on the window: a query that differs
      only in `startIndex` and `limit` cuts its pages from the same
      sequence. */
  lemma SortedMatchesIgnoresWindow(q: Query, stored: seq<Listing>, start: Option<nat>, limit: Option<Positive>)
    requires WellFormed(q)
    ensures WellFormed(q.(startIndex := start, limit := limit))
    ensures SortedMatches(q.(startIndex := start, limit := limit), stored) == SortedMatches(q, stored)
  {
    var q' := q.(startIndex := start, limit := limit);
    var f := DecodeQuery(q).value;
    var f' := DecodeQuery(q').value;
    assert f' == f.(startIndex := start.GetOr(0), limit := limit.GetOr(DefaultLimit));
    FilterSamePredicate(stored, (l: Listing) => Matches(f, l), (l: Listing) => Matches(f', l));
  }

  /** A window of a sorted sequence is sorted and holds only its elements. */
  lemma PageOfSorted(s: seq<Listing>, start: nat, limit: nat, key: Listing -> int, d: Direction)
    requires Sorted(s, key, d)
    ensures Sorted(Page(s, start, limit), key, d)
    ensures forall i :: 0 <= i < |Page(s, start, limit)| ==> Page(s, start, limit)[i] in s
  {
    var page := Page(s, start, limit);
    forall i, j | 0 <= i < j < |page| ensures InOrder(d, key(page[i]), key(page[j])) {
      assert page[i] == s[start + i] && page[j] == s[start + j];
    }
  }

  /** Matches of distinct stored listings are distinct. */
  lemma MatchesAreDistinct(q: Query, stored: seq<Listing>)
    requires WellFormed(q) && Distinct(stored)
    ensures Distinct(SortedMatches(q, stored))
  {
    DistinctIffCountsAtMostOne(stored);
    DistinctIffCountsAtMostOne(SortedMatches(q, stored));
  }

  /** Every member of the sorted matches is stored and asked for. */
  lemma MemberOfMatches(q: Query, stored: seq<Listing>, x: Listing)
    requires WellFormed(q) && x in SortedMatches(q, stored)
    ensures x in stored && Admitted(q, x)
  {
    assert x in multiset(SortedMatches(q, stored));
  }

  /** `getListings`: fails (and the middleware answers 500) exactly when a
      parameter cannot be read; otherwise returns the window of at most
      `limit` listings starting at `startIndex` of the sorted matches, each
      one stored and asked for. */
  function GetListings(q: Query, stored: seq<Listing>): (r: Result<seq<Listing>, ErrorValue>)
    ensures r.Err? <==> !WellFormed(q)
    ensures r.Err? ==> r.error.statusCode.None?
    ensures r.Ok? ==> r.value == Page(SortedMatches(q, stored), StartOf(q), LimitOf(q))
    ensures r.Ok? ==> |r.value| <= LimitOf(q)
    ensures r.Ok? ==> forall i :: 0 <= i < |r.value| ==> r.value[i] in stored && Admitted(q, r.value[i])
    ensures r.Ok? ==> SortedBy(r.value, SortFieldOf(q), DirectionOf(q))
  {
    match DecodeQuery(q)
    case Err(e) =>
      DecodeOkIffWellFormed(q);
      Err(e)
    case Ok(f) =>
      DecodeOkIffWellFormed(q);
      WindowOfMatches(q, stored);
      Ok(Page(Run(f, stored), f.startIndex, f.limit))
  }

  /** Any window of the sorted matches holds at most `limit` listings, each
      stored and asked for, in the query's order. */
  lemma WindowOfMatches(q: Query, stored: seq<Listing>)
    requires WellFormed(q)
    ensures var page := Page(SortedMatches(q, stored), StartOf(q), LimitOf(q));
      && |page| <= LimitOf(q)
      && (forall i :: 0 <= i < |page| ==> page[i] in stored && Admitted(q, page[i]))
      && SortedBy(page, SortFieldOf(q), DirectionOf(q))
  {
    var sm := SortedMatches(q, stored);
    var page := Page(sm, StartOf(q), LimitOf(q));
    PageOfSorted(sm, StartOf(q), LimitOf(q), KeyOf(SortFieldOf(q)), DirectionOf(q));
    forall i | 0 <= i < |page| ensures page[i] in stored && Admitted(q, page[i]) {
      MemberOfMatches(q, stored, page[i]);
    }
  }

  // ----- Properties of the engine ------------------------------------------

  /** For `offer`, `furnished` and `parking` alike, an absent parameter and
      the string `"false"` give the same answer. */
  lemma AbsentAndFalseAgree(q: Query, stored: seq<Listing>)
    ensures GetListings(q.(offer := None), stored) == GetListings(q.(offer := Some("false")), stored)
    ensures GetListings(q.(furnished := None), stored) == GetListings(q.(furnished := Some("false")), stored)
    ensures GetListings(q.(parking := None), stored) == GetListings(q.(parking := Some("false")), stored)
  {
    assert DecodeFlag(None) == DecodeFlag(Some("false")) == Ok(AnyFlag);
    DecodeWithFlags(q, None, Some("false"));
    SameReadingSameAnswer(q.(offer := None), q.(offer := Some("false")), stored);
    SameReadingSameAnswer(q.(furnished := None), q.(furnished := Some("false")), stored);
    SameReadingSameAnswer(q.(parking := None), q.(parking := Some("false")), stored);
  }

  /** Two spellings of a boolean parameter that read alike give the same
      reading of the whole query. */
  lemma DecodeWithFlags(q: Query, a: Option<string>, b: Option<string>)
    requires DecodeFlag(a) == DecodeFlag(b)
    ensures DecodeQuery(q.(offer := a)) == DecodeQuery(q.(offer := b))
    ensures DecodeQuery(q.(furnished := a)) == DecodeQuery(q.(furnished := b))
    ensures DecodeQuery(q.(parking := a)) == DecodeQuery(q.(parking := b))
  {
  }

  /** The answer depends on the query only through how its parameters read. */
  lemma SameReadingSameAnswer(q1: Query, q2: Query, stored: seq<Listing>)
    requires DecodeQuery(q1) == DecodeQuery(q2)
    ensures GetListings(q1, stored) == GetListings(q2, stored)
  {
  }

  /** `"true"` keeps only listings whose flag is set, while absent or
      `"false"` lets listings with either value through. */
  lemma FlagParamSemantics(param: Option<string>, b: bool)
    ensures (param.None? || param == Some("false")) ==> FlagParamAdmits(param, b)
    ensures param == Some("true") ==> (FlagParamAdmits(param, b) <==> b)
  {
  }

  /** `type=all` is the same as no `type` at all. */
  lemma AllMeansAnyType(q: Query, stored: seq<Listing>)
    ensures GetListings(q.(listingType := None), stored) == GetListings(q.(listingType := Some("all")), stored)
  {
    SameReadingSameAnswer(q.(listingType := None), q.(listingType := Some("all")), stored);
  }

  /** Over listings that are all for sale or rent, a `type` that is neither
      (nor `all`) finds nothing. */
  lemma {:induction false} UnknownTypeFindsNothing(q: Query, stored: seq<Listing>)
    requires WellFormed(q)
    requires forall i :: 0 <= i < |stored| ==> stored[i].fields.listingType in {"sale", "rent"}
    requires q.listingType.Some? && q.listingType.value !in {"all", "sale", "rent"}
    ensures GetListings(q, stored) == Ok([])
  {
    var s := SortedMatches(q, stored);
    if |s| > 0 {
      MemberOfMatches(q, stored, s[0]);
      var i :| 0 <= i < |stored| && stored[i] == s[0];
      UnknownTypeNotAdmitted(q, s[0]);
      assert false;
    }
  }

  /** A listing for sale or rent is not asked for by a `type` that is
      neither (nor `all`). */
  lemma UnknownTypeNotAdmitted(q: Query, l: Listing)
    requires l.fields.listingType in {"sale", "rent"}
    requires q.listingType.Some? && q.listingType.value !in {"all", "sale", "rent"}
    ensures !Admitted(q, l)
  {
  }

  /** The default search term, the empty one, matches every title. */
  lemma EmptyTermMatchesEveryTitle(title: string)
    ensures ContainsIgnoringCase(title, "")
  {
    ContainsEmpty(Lower(title));
  }

  /** The title filter ignores case on both sides: a term matches every
      title it occurs in, whatever the case of either, and two terms that
      differ only in case match the same titles. */
  lemma {:induction false} TermMatchesInAnyCase(title: string, term: string, variant: string)
    requires Lower(variant) == Lower(term)
    ensures Contains(title, variant) ==> ContainsIgnoringCase(title, term)
    ensures Contains(title, term) ==> ContainsIgnoringCase(title, term)
    ensures ContainsIgnoringCase(title, variant) <==> ContainsIgnoringCase(title, term)
  {
    if Contains(title, variant) {
      ContainsIsSubstring(title, variant);
      var i :| OccursAt(title, variant, i);
      OccursLower(title, variant, i);
      ContainsIsSubstring(Lower(title), Lower(variant));
    }
    if Contains(title, term) {
      ContainsIsSubstring(title, term);
      var i :| OccursAt(title, term, i);
      OccursLower(title, term, i);
      ContainsIsSubstring(Lower(title), Lower(term));
    }
  }

  /** When all matches fit in one window, the first window holds every
      listing the query asks for, as often as it is stored. */
  lemma FirstPageHoldsAllMatches(q: Query, stored: seq<Listing>)
    requires WellFormed(q) && StartOf(q) == 0
    requires |SortedMatches(q, stored)| <= LimitOf(q)
    ensures GetListings(q, stored).Ok?
    ensures forall l :: multiset(GetListings(q, stored).value)[l] == if Admitted(q, l) then multiset(stored)[l] else 0
  {
    var s := SortedMatches(q, stored);
    assert Page(s, 0, LimitOf(q)) == s;
  }
}

=== FILE: records.dfy ===
/** The stored entities: listings and users, and the request bodies that
    create or change them. */
module Records {
  import opened Base

  /** A document id (MongoDB's `_id`), compared as an opaque string. */
  type Id = string

  /** The fields a listing's owner edits: exactly the update form's state. */
  datatype ListingFields = ListingFields(
    title: string,
    description: string,
    address: string,
    imageURLs: seq<string>,
    listingType: string,
    bedrooms: int,
    bathrooms: int,
    regularPrice: int,
    discountPrice: int,
    offer: bool,
    parking: bool,
    furnished: bool)

  /** A stored listing: its id, the edited fields, the owner's id and the
      timestamps the document mapper maintains. */
  datatype Listing = Listing(id: Id, fields: ListingFields, userRef: Id, createdAt: int, updatedAt: int)

  /** The body of a create or full update request: the form fields and the
      owner id the client claims (absent when the client sends none). */
  datatype ListingDraft = ListingDraft(fields: ListingFields, userRef: Option<Id>)

  /** The body of an update request: every field it names overwrites the
      stored one; an absent field is left alone. */
  datatype ListingPatch = ListingPatch(
    title: Option<string>,
    description: Option<string>,
    address: Option<string>,
    imageURLs: Option<seq<string>>,
    listingType: Option<string>,
    bedrooms: Option<int>,
    bathrooms: Option<int>,
    regularPrice: Option<int>,
    discountPrice: Option<int>,
    offer: Option<bool>,
    parking: Option<bool>,
    furnished: Option<bool>,
    userRef: Option<Id>)

  /** The patch a full draft amounts to: every field named. */
  function PatchOf(d: ListingDraft): (p: ListingPatch)
    ensures p.userRef == d.userRef
  {
    var f := d.fields;
    ListingPatch(Some(f.title), Some(f.description), Some(f.address), Some(f.imageURLs),
                 Some(f.listingType), Some(f.bedrooms), Some(f.bathrooms), Some(f.regularPrice),
                 Some(f.discountPrice), Some(f.offer), Some(f.parking), Some(f.furnished), d.userRef)
  }

  /** The listing fields after a patch. */
  function PatchFields(f: ListingFields, p: ListingPatch): ListingFields {
    ListingFields(
      p.title.GetOr(f.title),
      p.description.GetOr(f.description),
      p.address.GetOr(f.address),
      p.imageURLs.GetOr(f.imageURLs),
      p.listingType.GetOr(f.listingType),
      p.bedrooms.GetOr(f.bedrooms),
      p.bathrooms.GetOr(f.bathrooms),
      p.regularPrice.GetOr(f.regularPrice),
      p.discountPrice.GetOr(f.discountPrice),
      p.offer.GetOr(f.offer),
      p.parking.GetOr(f.parking),
      p.furnished.GetOr(f.furnished))
  }

  /** A stored user. `password` holds the hashed secret. */
  datatype User = User(
    id: Id,
    username: string,
    email: string,
    password: string,
    avatar: string,
    createdAt: int,
    updatedAt: int)

  /** A user record as sent to clients after sign-in or an update: every
      field except the password hash. */
  datatype Profile = Profile(
    id: Id,
    username: string,
    email: string,
    avatar: string,
    createdAt: int,
    updatedAt: int)

  function WithoutPassword(u: User): (p: Profile)
    ensures p.id == u.id && p.username == u.username && p.email == u.email
    ensures p.avatar == u.avatar && p.createdAt == u.createdAt && p.updatedAt == u.updatedAt
  {
    Profile(u.id, u.username, u.email, u.avatar, u.createdAt, u.updatedAt)
  }

  /** The body of a profile update; absent fields are left alone. */
  datatype UserPatch = UserPatch(
    username: Option<string>,
    email: Option<string>,
    password: Option<string>,
    avatar: Option<string>)
}

=== FILE: routes.dfy ===
/** The route table (the user, auth and listing routers under api/routes,
    mounted by server/index.js) and the request pipeline around it: route
    matching in registration order, the token guard on protected routes,
    the handler, and the error middleware. */
module Routes {
  import opened Base
  import opened Records
  import opened Http
  import opened Store
  import opened Crypto
  import opened Guard
  import QueryEngine
  import ListingController
  import UserController
  import AuthController
  import UserModel

  datatype Method = Get | Post | Put | Delete

  /** What a request resolves to: one of the API endpoints, the client
      application served for any other GET, or no route at all. */
  datatype Route =
    | Signup | Signin | GoogleAuth | Signout
    | CreateListing | GetListing(id: Id) | DeleteListing(id: Id) | UpdateListing(id: Id) | GetListings
    | UpdateUser(id: Id) | DeleteUser(id: Id) | GetUserListings(id: Id) | GetUser(id: Id)
    | ClientApp
    | NoRoute

  /** The routes registered with `verifyToken` in front of the handler. */
  predicate Guarded(r: Route) {
    r.CreateListing? || r.DeleteListing? || r.UpdateListing?
    || r.UpdateUser? || r.DeleteUser? || r.GetUserListings? || r.GetUser?
  }

  /** The routes that name an API endpoint, each with a non-empty id where
      its path has a `:id` segment. */
  predicate IsEndpoint(r: Route) {
    !r.ClientApp? && !r.NoRoute?
    && ((r.GetListing? || r.DeleteListing? || r.UpdateListing? || r.UpdateUser?
         || r.DeleteUser? || r.GetUserListings? || r.GetUser?) ==> r.id != "")
  }

  /** The method and path segments an endpoint is registered under. */
  function PathOf(r: Route): (Method, seq<string>)
    requires IsEndpoint(r)
  {
    match r
    case Signup => (Post, ["api", "auth", "signup"])
    case Signin => (Post, ["api", "auth", "signin"])
    case GoogleAuth => (Post, ["api", "auth", "google"])
    case Signout => (Get, ["api", "auth", "signout"])
    case CreateListing => (Post, ["api", "listing", "create"])
    case GetListing(id) => (Get, ["api", "listing", "get", id])
    case DeleteListing(id) => (Delete, ["api", "listing", "delete", id])
    case UpdateListing(id) => (Put, ["api", "listing", "update", id])
    case GetListings => (Get, ["api", "listing", "get"])
    case UpdateUser(id) => (Post, ["api", "user", "update", id])
    case DeleteUser(id) => (Delete, ["api", "user", "delete", id])
    case GetUserListings(id) => (Get, ["api", "user", "listings", id])
    case GetUser(id) => (Get, ["api", "user", id])
  }

  /** The user router, tried in registration order; `:id` takes one
      non-empty segment. */
  function ResolveUser(m: Method, rest: seq<string>): Route {
    if m == Post && |rest| == 2 && rest[0] == "update" && rest[1] != "" then UpdateUser(rest[1])
    else if m == Delete && |rest| == 2 && rest[0] == "delete" && rest[1] != "" then DeleteUser(rest[1])
    else if m == Get && |rest| == 2 && rest[0] == "listings" && rest[1] != "" then GetUserListings(rest[1])
    else if m == Get && |rest| == 1 && rest[0] != "" then GetUser(rest[0])
    else NoRoute
  }

  function ResolveAuth(m: Method, rest: seq<string>): Route {
    if m == Post && rest == ["signup"] then Signup
    else if m == Post && rest == ["signin"] then Signin
    else if m == Post && rest == ["google"] then GoogleAuth
    else if m == Get && rest == ["signout"] then Signout
    else NoRoute
  }

  function ResolveListing(m: Method, rest: seq<string>): Route {
    if m == Post && rest == ["create"] then CreateListing
    else if m == Get && |rest| == 2 && rest[0] == "get" && rest[1] != "" then GetListing(rest[1])
    else if m == Delete && |rest| == 2 && rest[0] == "delete" && rest[1] != "" then DeleteListing(rest[1])
    else if m == Put && |rest| == 2 && rest[0] == "update" && rest[1] != "" then UpdateListing(rest[1])
    else if m == Get && rest == ["get"] then GetListings
    else NoRoute
  }

  /** The app: the three routers in mounting order, then the catch-all GET
      that serves the client application; any other request matches
      nothing. */
  function Resolve(m: Method, path: seq<string>): (r: Route)
    ensures r.ClientApp? <==> m == Get && !IsEndpoint(r)
    ensures r.NoRoute? <==> m != Get && !IsEndpoint(r)
  {
    var api :=
      if |path| >= 2 && path[0] == "api" && path[1] == "user" then ResolveUser(m, path[2..])
      else if |path| >= 2 && path[0] == "api" && path[1] == "auth" then ResolveAuth(m, path[2..])
      else if |path| >= 2 && path[0] == "api" && path[1] == "listing" then ResolveListing(m, path[2..])
      else NoRoute;
    if api.NoRoute? && m == Get then ClientApp else api
  }

  /** Every endpoint is reached by its own method and path. */
  lemma ResolvePathOf(r: Route)
    requires IsEndpoint(r)
    ensures Resolve(PathOf(r).0, PathOf(r).1) == r
  {
    var path := PathOf(r).1;
    assert path[2..] == path[2..];
  }

  /** Whatever endpoint a request resolves to is registered under exactly
      that request's method and path. */
  lemma PathOfResolve(m: Method, path: seq<string>)
    requires IsEndpoint(Resolve(m, path))
    ensures PathOf(Resolve(m, path)) == (m, path)
  {
    assert |path| >= 2;
    var rest := path[2..];
    assert path == [path[0], path[1]] + rest;
    if |rest| == 1 {
      assert path == [path[0], path[1], rest[0]];
    } else if |rest| == 2 {
      assert path == [path[0], path[1], rest[0], rest[1]];
    }
  }

  /** `GET /api/user/listings` has no id segment after `listings`, so it is
      taken by `/:id` as the profile of a user whose id is "listings". */
  lemma ListingsWithoutIdIsAUserLookup()
    ensures Resolve(Get, ["api", "user", "listings"]) == GetUser("listings")
  {
  }

  /** What the server does not choose itself: the hash and token
      functions, the fresh id, the clock and the random strings. */
  datatype Env = Env(crypto: Primitives, newId: Id, now: int, generatedPassword: string, suffix: string)

  /** The parts of a request the handlers read from its JSON body. */
  datatype Payload = Payload(
    draft: ListingDraft,
    listingPatch: ListingPatch,
    userPatch: UserPatch,
    username: string,
    email: string,
    password: string,
    name: string,
    avatar: Option<string>)

  datatype Request = Request(verb: Method, path: seq<string>, cookies: map<string, string>,
                             query: QueryEngine.Query, body: Payload)

  /** What the client receives, if anything, and the database afterwards. */
  datatype Served = Served(response: Option<Response>, db: Db)

  /** The handlers of the routes anyone may call. */
  function HandlePublic(r: Route, req: Request, env: Env, db: Db): (s: Step)
    requires !Guarded(r) && !r.NoRoute?
    ensures !r.Signup? && !r.GoogleAuth? ==> s.db == db
  {
    match r
    case Signup => AuthController.Signup(db, env.crypto, req.body.username, req.body.email, req.body.password, env.newId, env.now)
    case Signin => AuthController.Signin(db, env.crypto, req.body.email, req.body.password)
    case GoogleAuth =>
      AuthController.Google(db, env.crypto, req.body.name, req.body.email, req.body.avatar,
                            env.generatedPassword, env.suffix, env.newId, env.now)
    case Signout => AuthController.Signout(db)
    case GetListing(id) => ListingController.GetListing(db, id)
    case GetListings =>
      (match QueryEngine.GetListings(req.query, db.listings)
       case Ok(ls) => Step(Reply(Response(200, ListingsJson(ls), KeepCookie)), db)
       case Err(e) => Step(Next(e), db))
    case ClientApp => Step(Reply(Response(200, AppShell, KeepCookie)), db)
  }

  /** Which program the pipeline runs: the handlers as written, or with
      `errorHandler` where `handleError` is written and with an empty
      password left unwritten. */
  datatype Build = AsWritten | Corrected

  /** The handlers behind the token guard, run as `caller`. As written, a
      non-owner's delete or update of a stored listing throws and nothing
      answers; no other protected handler throws. */
  function HandleGuarded(b: Build, r: Route, caller: Id, req: Request, env: Env, db: Db): (s: Step)
    requires Guarded(r)
    ensures s.outcome.Unhandled? <==> b == AsWritten && NonOwnerEdit(r, caller, db)
  {
    match r
    case CreateListing => ListingController.CreateListing(db, caller, req.body.draft, env.newId, env.now)
    case DeleteListing(id) =>
      if b == AsWritten then ListingController.DeleteListingAsWritten(db, caller, id)
      else ListingController.DeleteListing(db, caller, id)
    case UpdateListing(id) =>
      if b == AsWritten then ListingController.UpdateListingAsWritten(db, caller, id, req.body.listingPatch, env.now)
      else ListingController.UpdateListing(db, caller, id, req.body.listingPatch, env.now)
    case UpdateUser(id) =>
      if b == AsWritten then UserController.UpdateUserAsWritten(db, env.crypto, caller, id, req.body.userPatch, env.now)
      else UserController.UpdateUser(db, env.crypto, caller, id, req.body.userPatch, env.now)
    case DeleteUser(id) => UserController.DeleteUser(db, caller, id)
    case GetUserListings(id) => UserController.GetUserListings(db, caller, id)
    case GetUser(id) => UserController.GetUser(db, id)
  }

  /** A delete or update, by `caller`, of a listing stored under another
      owner. */
  predicate NonOwnerEdit(r: Route, caller: Id, db: Db) {
    (r.DeleteListing? || r.UpdateListing?)
    && ListingController.Lookup(db, r.id).Some?
    && ListingController.Lookup(db, r.id).value.userRef != caller
  }

  /** The request passes the guard of a protected route as a caller who
      does not own the listing it deletes or updates. */
  predicate Unanswered(r: Route, req: Request, env: Env, db: Db) {
    Guarded(r) && VerifyToken(req.cookies, env.crypto).Admit?
    && NonOwnerEdit(r, VerifyToken(req.cookies, env.crypto).caller, db)
  }

  /** The pipeline once the request has matched route `r`. On a protected
      route a missing token is 401 and a bad one 403, in both cases before
      the handler runs and without a write; only protected routes and the
      two routes that create users write. Every request gets a response
      except, as written, a non-owner's delete or update of a stored
      listing. */
  function Dispatch(b: Build, r: Route, req: Request, env: Env, db: Db): (s: Served)
    ensures s.response.None? <==> b == AsWritten && Unanswered(r, req, env, db)
    ensures Guarded(r) && TokenOf(req.cookies).None? ==>
      s == Served(Some(Response(401, ErrorJson(false, 401, "Unauthorized"), KeepCookie)), db)
    ensures Guarded(r) && TokenOf(req.cookies).Some? && env.crypto.verify(TokenOf(req.cookies).value).None? ==>
      s == Served(Some(Response(403, ErrorJson(false, 403, "Forbidden"), KeepCookie)), db)
    ensures s.db != db ==> Guarded(r) || r.Signup? || r.GoogleAuth?
    ensures r.NoRoute? ==> s == Served(Some(Response(404, NoRoutePage, KeepCookie)), db)
  {
    if r.NoRoute? then Served(Some(Response(404, NoRoutePage, KeepCookie)), db)
    else if Guarded(r) then
      match VerifyToken(req.cookies, env.crypto)
      case Reject(e) => Served(Deliver(Next(e)), db)
      case Admit(caller) =>
        var st := HandleGuarded(b, r, caller, req, env, db);
        Served(Deliver(st.outcome), st.db)
    else
      var st := HandlePublic(r, req, env, db);
      Served(Deliver(st.outcome), st.db)
  }

  /** The whole pipeline for one request: route matching, then the route's
      guard, handler and error middleware. */
  function Serve(b: Build, req: Request, env: Env, db: Db): (s: Served)
    ensures s.response.None? <==> b == AsWritten && Unanswered(Resolve(req.verb, req.path), req, env, db)
    ensures var r := Resolve(req.verb, req.path);
      Guarded(r) && TokenOf(req.cookies).None? ==>
        s == Served(Some(Response(401, ErrorJson(false, 401, "Unauthorized"), KeepCookie)), db)
    ensures var r := Resolve(req.verb, req.path);
      Guarded(r) && TokenOf(req.cookies).Some? && env.crypto.verify(TokenOf(req.cookies).value).None? ==>
        s == Served(Some(Response(403, ErrorJson(false, 403, "Forbidden"), KeepCookie)), db)
    ensures var r := Resolve(req.verb, req.path);
      s.db != db ==> Guarded(r) || r.Signup? || r.GoogleAuth?
    ensures Resolve(req.verb, req.path).NoRoute? ==> s.response.Some? && s.response.value.status == 404
  {
    Dispatch(b, Resolve(req.verb, req.path), req, env, db)
  }

  /** The program as written and the corrected one answer and write alike,
      except for a non-owner's delete or update of a stored listing (no
      answer as written, 403 corrected; neither writes) and a profile
      update that carries the empty password. */
  lemma BuildsDiffer(req: Request, env: Env, db: Db)
    ensures var r := Resolve(req.verb, req.path);
      !Unanswered(r, req, env, db) && !(r.UpdateUser? && req.body.userPatch.password == Some(""))
      ==> Serve(AsWritten, req, env, db) == Serve(Corrected, req, env, db)
    ensures Unanswered(Resolve(req.verb, req.path), req, env, db) ==>
      && Serve(AsWritten, req, env, db) == Served(None, db)
      && Serve(Corrected, req, env, db).response.value.status == 403
      && Serve(Corrected, req, env, db).db == db
  {
    var r := Resolve(req.verb, req.path);
    if Guarded(r) && VerifyToken(req.cookies, env.crypto).Admit? {
      var caller := VerifyToken(req.cookies, env.crypto).caller;
      if r.DeleteListing? || r.UpdateListing? {
        ListingController.EditBuildsAgree(db, caller, r.id, req.body.listingPatch, env.now);
      } else if r.UpdateUser? && req.body.userPatch.password != Some("") {
        UserController.UpdateBuildsAgree(db, env.crypto, caller, r.id, req.body.userPatch, env.now);
      }
    }
  }

  /** A public route answers the same whatever cookies come with it. */
  lemma PublicRoutesIgnoreCookies(b: Build, req: Request, env: Env, db: Db, cookies: map<string, string>)
    requires !Guarded(Resolve(req.verb, req.path))
    ensures Serve(b, req, env, db) == Serve(b, req.(cookies := cookies), env, db)
  {
  }

  /** A signed-in user's own listings are reachable with the cookie
      sign-in set, and another user's listings are refused with 401. */
  lemma OwnListingsOnly(b: Build, req: Request, env: Env, db: Db, owner: Id, id: Id)
    requires Resolve(req.verb, req.path) == GetUserListings(id)
    requires TokenOf(req.cookies).Some? && env.crypto.verify(TokenOf(req.cookies).value) == Some(owner)
    ensures Serve(b, req, env, db).response.Some?
    ensures owner != id ==> Serve(b, req, env, db).response.value.status == 401
    ensures owner == id ==> Serve(b, req, env, db).response.value.status == 200
  {
  }

  /** Every request keeps listing ids, user ids, usernames and emails
      unique, in the program as written and in the corrected one. */
  lemma ServeKeepsValid(b: Build, req: Request, env: Env, db: Db)
    requires Valid(db)
    ensures Valid(Serve(b, req, env, db).db)
  {
    var r := Resolve(req.verb, req.path);
    if !r.NoRoute? && !Guarded(r) {
      PublicKeepsValid(r, req, env, db);
    } else if Guarded(r) && VerifyToken(req.cookies, env.crypto).Admit? {
      GuardedKeepsValid(b, r, VerifyToken(req.cookies, env.crypto).caller, req, env, db);
    }
  }

  /** The public routes keep the store valid: only sign-up and a first
      Google sign-in write, and each inserts a user the indexes accept. */
  lemma PublicKeepsValid(r: Route, req: Request, env: Env, db: Db)
    requires Valid(db) && !Guarded(r) && !r.NoRoute?
    ensures Valid(HandlePublic(r, req, env, db).db)
  {
    var b := req.body;
    if r.Signup? {
      var doc := UserModel.NewUser(b.username, b.email, env.crypto.hash(b.password), None);
      if UserModel.Save(db.users, doc, env.newId, env.now).Ok? {
        UserModel.SaveKeepsValid(db, doc, env.newId, env.now);
      }
    } else if r.GoogleAuth? {
      if AuthController.ByEmail(db, b.email).None? {
        var doc := UserModel.NewUser(AuthController.GoogleUsername(b.name, env.suffix), b.email,
                                     env.crypto.hash(env.generatedPassword), b.avatar);
        if UserModel.Save(db.users, doc, env.newId, env.now).Ok? {
          UserModel.SaveKeepsValid(db, doc, env.newId, env.now);
        }
      }
    }
  }

  /** The protected routes keep the store valid, whoever the caller, as
      written and corrected. */
  lemma GuardedKeepsValid(b: Build, r: Route, caller: Id, req: Request, env: Env, db: Db)
    requires Valid(db) && Guarded(r)
    ensures Valid(HandleGuarded(b, r, caller, req, env, db).db)
  {
    var body := req.body;
    var id := if r.CreateListing? then "" else r.id;
    ListingController.ListingStepsKeepValid(db, caller, id, body.draft, body.listingPatch, env.newId, env.now);
    UserController.UserStepsKeepValid(db, env.crypto, caller, id, body.userPatch, env.now);
  }
}

=== FILE: search.dfy ===
/** The search page (client/src/pages/Search.jsx): the sidebar form, the
    URL it submits, how the page reads that URL back, the query the server
    receives, and the "Show more" paging that appends further windows. */
module SearchPage {
  import opened Base
  import opened Text
  import opened Records
  import opened Seqs
  import opened Store
  import opened UrlParams
  import opened QueryEngine

  /** The names the page or the server reads. */
  const ReservedNames: set<string> :=
    {"searchTerm", "type", "parking", "furnished", "offer", "sort", "order", "startIndex", "limit"}

  /** Any other name: a pair under it is carried along and never read. */
  type OtherName = s: string | s !in ReservedNames witness ""

  /** The URL parameters the page reads or writes, by name; any other
      name is carried along and never read. A pair is read by its name, so
      a name the page reads is always its own constructor. */
  datatype Param =
    | SearchTermParam | TypeParam | ParkingParam | FurnishedParam | OfferParam
    | SortParam | OrderParam | StartIndexParam | LimitParam
    | OtherParam(name: OtherName)
  {
    /** The parameter's name in the URL. */
    function Name(): string {
      match this
      case SearchTermParam => "searchTerm"
      case TypeParam => "type"
      case ParkingParam => "parking"
      case FurnishedParam => "furnished"
      case OfferParam => "offer"
      case SortParam => "sort"
      case OrderParam => "order"
      case StartIndexParam => "startIndex"
      case LimitParam => "limit"
      case OtherParam(name) => name
    }
  }

  /** Distinct parameters have distinct names, so looking a pair up by its
      parameter is looking it up by name. */
  lemma NamesIdentifyParams(a: Param, b: Param)
    ensures a.Name() == b.Name() <==> a == b
  {
  }

  /** The sidebar form's state. */
  datatype Sidebar = Sidebar(
    searchTerm: string,
    listingType: string,
    parking: bool,
    furnished: bool,
    offer: bool,
    sort: string,
    order: string)

  const InitialSidebar := Sidebar("", "all", false, false, false, "createdAt", "desc")

  /** The default sort the page falls back to when reading a URL, as written. */
  const SortFallbackAsWritten := "created_at"

  /** The values of the sort select's options. */
  const SortOptions: seq<string> := ["regularPrice_desc", "regularPrice_asc", "createdAt_desc", "createdAt_asc"]

  /** The value the sort select starts on: `${sort}_${order}`. */
  function SelectValue(s: Sidebar): string {
    s.sort + "_" + s.order
  }

  // ----- Reading the URL into the form -------------------------------------

  /** `paramValue || fallback`: an absent or empty parameter is falsy. */
  function OrElse(v: Option<string>, fallback: string): string {
    if v.Some? && v.value != "" then v.value else fallback
  }

  /** The `useEffect` that reads the URL into the form, with the fallback
      for a missing `sort` as a parameter. */
  function ParseWith(p: Params<Param>, sortFallback: string): Sidebar {
    Sidebar(
      OrElse(Get(p, SearchTermParam), ""),
      OrElse(Get(p, TypeParam), "all"),
      Get(p, ParkingParam) == Some("true"),
      Get(p, FurnishedParam) == Some("true"),
      Get(p, OfferParam) == Some("true"),
      OrElse(Get(p, SortParam), sortFallback),
      OrElse(Get(p, OrderParam), "desc"))
  }

  /** The effect's reading of the URL as written: an absent sort becomes
      `"created_at"`. */
  function ParseSidebarAsWritten(p: Params<Param>): (s: Sidebar)
    ensures Get(p, SortParam).None? ==> s.sort == SortFallbackAsWritten
    ensures Get(p, OrderParam).None? ==> s.order == DefaultOrder
    ensures s.parking <==> Get(p, ParkingParam) == Some("true")
  {
    ParseWith(p, SortFallbackAsWritten)
  }

  /** The reading of the URL with the fallback the initial state and the
      server use. */
  function ParseSidebar(p: Params<Param>): (s: Sidebar)
    ensures Get(p, SortParam).None? ==> s.sort == DefaultSort
    ensures Get(p, OrderParam).None? ==> s.order == DefaultOrder
    ensures s.parking <==> Get(p, ParkingParam) == Some("true")
  {
    ParseWith(p, DefaultSort)
  }

  // ----- Submitting the form -----------------------------------------------

  /** `if (cond) urlParams.set(k, v)`. */
  function SetIf(p: Params<Param>, cond: bool, k: Param, v: string): Params<Param> {
    if cond then Set(p, k, v) else p
  }

  /** A conditional `set` is seen only under its own key, and only when it
      happens. */
  lemma GetSetIf(p: Params<Param>, cond: bool, k: Param, v: string, k': Param)
    ensures Get(SetIf(p, cond, k, v), k') == if cond && k' == k then Some(v) else Get(p, k')
  {
    if cond && k' != k {
      GetSetOther(p, k, v, k');
    }
  }

  /** The form's fields in their order, each written to the URL when it is
      truthy; `type` is left out when it is `"all"`. */
  function FilterParams(s: Sidebar): Params<Param> {
    var p := SetIf([], s.searchTerm != "", SearchTermParam, s.searchTerm);
    var p := SetIf(p, s.listingType != "all" && s.listingType != "", TypeParam, s.listingType);
    var p := SetIf(p, s.parking, ParkingParam, "true");
    var p := SetIf(p, s.furnished, FurnishedParam, "true");
    SetIf(p, s.offer, OfferParam, "true")
  }

  /** The value the submitted filters give parameter `k`. */
  function FilterValue(s: Sidebar, k: Param): Option<string> {
    if k == SearchTermParam && s.searchTerm != "" then Some(s.searchTerm)
    else if k == TypeParam && s.listingType != "all" && s.listingType != "" then Some(s.listingType)
    else if k == ParkingParam && s.parking then Some("true")
    else if k == FurnishedParam && s.furnished then Some("true")
    else if k == OfferParam && s.offer then Some("true")
    else None
  }

  /** What each key reads as in the filter part of a submitted URL. */
  lemma ReadFilter(s: Sidebar, k: Param)
    ensures Get(FilterParams(s), k) == FilterValue(s, k)
  {
    var p0: Params<Param> := [];
    var p1 := SetIf(p0, s.searchTerm != "", SearchTermParam, s.searchTerm);
    var p2 := SetIf(p1, s.listingType != "all" && s.listingType != "", TypeParam, s.listingType);
    var p3 := SetIf(p2, s.parking, ParkingParam, "true");
    var p4 := SetIf(p3, s.furnished, FurnishedParam, "true");
    GetSetIf(p0, s.searchTerm != "", SearchTermParam, s.searchTerm, k);
    GetSetIf(p1, s.listingType != "all" && s.listingType != "", TypeParam, s.listingType, k);
    GetSetIf(p2, s.parking, ParkingParam, "true", k);
    GetSetIf(p3, s.furnished, FurnishedParam, "true", k);
    GetSetIf(p4, s.offer, OfferParam, "true", k);
  }

  /** `handleSubmit` as written: `sort` and `order` are skipped, so the URL
      never carries them; nor does it carry a window. */
  function BuildParamsAsWritten(s: Sidebar): (p: Params<Param>)
    ensures Get(p, SortParam).None? && Get(p, OrderParam).None?
    ensures Get(p, StartIndexParam).None? && Get(p, LimitParam).None?
    ensures Get(p, ParkingParam).Some? <==> s.parking
  {
    ReadFilter(s, SortParam);
    ReadFilter(s, OrderParam);
    ReadFilter(s, StartIndexParam);
    ReadFilter(s, LimitParam);
    ReadFilter(s, ParkingParam);
    FilterParams(s)
  }

  /** `handleSubmit` writing the chosen sort and order as well. */
  function BuildParams(s: Sidebar): (p: Params<Param>)
    ensures Get(p, SortParam) == (if s.sort != "" then Some(s.sort) else None)
    ensures Get(p, OrderParam) == (if s.order != "" then Some(s.order) else None)
    ensures Get(p, StartIndexParam).None? && Get(p, LimitParam).None?
    ensures Get(p, ParkingParam).Some? <==> s.parking
  {
    ReadBuilt(s, SortParam);
    ReadBuilt(s, OrderParam);
    ReadBuilt(s, StartIndexParam);
    ReadBuilt(s, LimitParam);
    ReadBuilt(s, ParkingParam);
    Built(s)
  }

  /** The corrected submit's parameters: the filters, then the non-empty
      sort and order. */
  function Built(s: Sidebar): Params<Param> {
    SetIf(SetIf(FilterParams(s), s.sort != "", SortParam, s.sort), s.order != "", OrderParam, s.order)
  }

  /** What each key reads as in the corrected submit's parameters. */
  lemma ReadBuilt(s: Sidebar, k: Param)
    ensures Get(Built(s), k) ==
      if k == SortParam then (if s.sort != "" then Some(s.sort) else None)
      else if k == OrderParam then (if s.order != "" then Some(s.order) else None)
      else FilterValue(s, k)
  {
    var p1 := SetIf(FilterParams(s), s.sort != "", SortParam, s.sort);
    ReadFilter(s, k);
    GetSetIf(FilterParams(s), s.sort != "", SortParam, s.sort, k);
    GetSetIf(p1, s.order != "", OrderParam, s.order, k);
  }

  /** Reads every parameter the form writes. */
  lemma ReadAll(s: Sidebar)
    ensures Get(FilterParams(s), SearchTermParam) == FilterValue(s, SearchTermParam)
    ensures Get(FilterParams(s), TypeParam) == FilterValue(s, TypeParam)
    ensures Get(FilterParams(s), ParkingParam) == FilterValue(s, ParkingParam)
    ensures Get(FilterParams(s), FurnishedParam) == FilterValue(s, FurnishedParam)
    ensures Get(FilterParams(s), OfferParam) == FilterValue(s, OfferParam)
    ensures Get(FilterParams(s), SortParam).None? && Get(FilterParams(s), OrderParam).None?
    ensures Get(Built(s), SearchTermParam) == FilterValue(s, SearchTermParam)
    ensures Get(Built(s), TypeParam) == FilterValue(s, TypeParam)
    ensures Get(Built(s), ParkingParam) == FilterValue(s, ParkingParam)
    ensures Get(Built(s), FurnishedParam) == FilterValue(s, FurnishedParam)
    ensures Get(Built(s), OfferParam) == FilterValue(s, OfferParam)
  {
    ReadFilter(s, SearchTermParam);
    ReadFilter(s, TypeParam);
    ReadFilter(s, ParkingParam);
    ReadFilter(s, FurnishedParam);
    ReadFilter(s, OfferParam);
    ReadFilter(s, SortParam);
    ReadFilter(s, OrderParam);
    ReadBuilt(s, SearchTermParam);
    ReadBuilt(s, TypeParam);
    ReadBuilt(s, ParkingParam);
    ReadBuilt(s, FurnishedParam);
    ReadBuilt(s, OfferParam);
  }

  /** As written, reading back a submitted form keeps the filters but
      resets the sort to `"created_at"` and the order to `"desc"`. */
  lemma SidebarRoundTripAsWritten(s: Sidebar)
    requires s.listingType != ""
    ensures ParseSidebarAsWritten(BuildParamsAsWritten(s)) == s.(sort := SortFallbackAsWritten, order := DefaultOrder)
  {
    ReadAll(s);
  }

  /** As written, the fallback is latent. After the page reads a URL
      without `sort` (the page's own initial form, once submitted, gives
      one), the form's state holds `"created_at"`, but the submit never
      sends a sort, so the URL it builds is the one the intended fallback
      gives. Once the submit does send the sort, as the corrected
      `BuildParams` does, that state asks the server to sort by
      `created_at`, a field no listing has, instead of `createdAt`. */
  lemma SortFallbackLatentAsWritten(p: Params<Param>)
    requires Get(p, SortParam).None?
    ensures ParseSidebarAsWritten(BuildParamsAsWritten(InitialSidebar)).sort != InitialSidebar.sort
    ensures ParseSidebarAsWritten(p).sort == SortFallbackAsWritten != ParseSidebar(p).sort
    ensures BuildParamsAsWritten(ParseSidebarAsWritten(p)) == BuildParamsAsWritten(ParseSidebar(p))
    ensures ToQuery(BuildParams(ParseSidebarAsWritten(p))).sort == Some(SortFallbackAsWritten)
    ensures ToQuery(BuildParams(ParseSidebar(p))).sort == Some(DefaultSort)
  {
    SidebarRoundTripAsWritten(InitialSidebar);
  }

  /** With the corrected fallback and submit, any form state with a sort and
      an order reads back unchanged. */
  lemma SidebarRoundTrip(s: Sidebar)
    requires s.listingType != "" && s.sort != "" && s.order != ""
    ensures ParseSidebar(BuildParams(s)) == s
  {
    ReadAll(s);
  }

  /** With the corrected fallback, a URL without sort and order opens the
      select on "Latest", the order the server sorts such a query in. */
  lemma DefaultSelectIsLatest(p: Params<Param>)
    requires Get(p, SortParam).None? && Get(p, OrderParam).None?
    ensures SelectValue(ParseSidebar(p)) == SortOptions[2]
    ensures ParseSidebar(p).sort == SortFieldOf(ToQuery(p))
  {
  }

  // ----- Editing the form --------------------------------------------------

  /** An input's change: its `id`, `value` and `checked`. */
  datatype ChangeEvent = ChangeEvent(id: string, value: string, checked: bool)

  /** A change every version of the handler treats alike. */
  function ChangeCommon(s: Sidebar, e: ChangeEvent): Sidebar {
    if e.id == "all" || e.id == "rent" || e.id == "sale" then s.(listingType := e.id)
    else if e.id == "searchTerm" then s.(searchTerm := e.value)
    else if e.id == "parking" then s.(parking := e.checked)
    else if e.id == "furnished" then s.(furnished := e.checked)
    else if e.id == "offer" then s.(offer := e.checked)
    else s
  }

  /** `handleChange` as written. The sort select (`id` `"sort_order"`) has no
      `checked`, so its change is stored as `false` under a key of its own
      that nothing reads: the form's sort and order never change. */
  function HandleChangeAsWritten(s: Sidebar, e: ChangeEvent): (r: Sidebar)
    ensures e.id == "sort_order" ==> r == s
    ensures e.id == "rent" ==> r == s.(listingType := "rent")
    ensures r.sort == s.sort && r.order == s.order
  {
    ChangeCommon(s, e)
  }

  /** The select's value split at its first underscore. */
  function SplitChoice(v: string): (r: (string, string))
    ensures (exists i :: 0 <= i < |v| && v[i] == '_') ==> r.0 + "_" + r.1 == v
    ensures forall i :: 0 <= i < |r.0| ==> r.0[i] != '_'
  {
    match IndexWhere(v, (c: char) => c == '_')
    case None => (v, "")
    case Some(i) =>
      assert v == v[..i] + "_" + v[i + 1..];
      (v[..i], v[i + 1..])
  }

  /** `handleChange` with the select's value split into sort and order. */
  function HandleChange(s: Sidebar, e: ChangeEvent): (r: Sidebar)
    ensures e.id != "sort_order" ==> r == HandleChangeAsWritten(s, e)
    ensures e.id == "sort_order" ==> r == s.(sort := SplitChoice(e.value).0, order := SplitChoice(e.value).1)
  {
    if e.id == "sort_order" then
      var (sort, order) := SplitChoice(e.value);
      s.(sort := sort, order := order)
    else ChangeCommon(s, e)
  }

  /** As written, picking a sort changes neither the form's URL nor the
      query the server receives. */
  lemma SortChoiceIgnoredAsWritten(s: Sidebar, v: string)
    ensures var p := BuildParamsAsWritten(HandleChangeAsWritten(s, ChangeEvent("sort_order", v, false)));
      p == BuildParamsAsWritten(s) && ToQuery(p).sort.None? && ToQuery(p).order.None?
  {
  }

  /** With the corrected handler and submit, the chosen option reaches the
      server: the query's sort and order joined with an underscore are the
      option's value. */
  lemma SortChoiceReachesQuery(s: Sidebar, v: string)
    requires v in SortOptions
    ensures var q := ToQuery(BuildParams(HandleChange(s, ChangeEvent("sort_order", v, false))));
      q.sort.Some? && q.order.Some? && q.sort.value + "_" + q.order.value == v
  {
    SplitOption(v);
  }

  /** Every option's value splits into a non-empty sort and order that join
      back to it. */
  lemma SplitOption(v: string)
    requires v in SortOptions
    ensures SplitChoice(v).0 != "" && SplitChoice(v).1 != ""
    ensures SplitChoice(v).0 + "_" + SplitChoice(v).1 == v
  {
    if v == SortOptions[0] || v == SortOptions[1] {
      assert v[..12] == "regularPrice";
      SplitAt(v, 12);
    } else {
      assert v[..9] == "createdAt";
      SplitAt(v, 9);
    }
  }

  /** A value whose first underscore is at `i` splits there. */
  lemma SplitAt(v: string, i: nat)
    requires i < |v| && v[i] == '_' && '_' !in v[..i]
    ensures SplitChoice(v) == (v[..i], v[i + 1..])
  {
    assert forall j :: 0 <= j < i ==> v[j] == v[..i][j];
  }

  // ----- The request the server receives -----------------------------------

  /** A window parameter read as a natural. The server hands the raw string
      to the driver, which casts it and fails on a non-numeric one; the
      model reads such a value as absent instead, so that the default
      applies. */
  function NatParam(v: Option<string>): (r: Option<nat>)
    ensures v.Some? && ParseDecimal(v.value).Some? ==> r == ParseDecimal(v.value)
    ensures v.None? ==> r.None?
  {
    if v.Some? then ParseDecimal(v.value) else None
  }

  /** The limit read as a positive number. The driver reads `limit=0` as
      "no limit"; the model reads zero, like a non-numeric value, as absent,
      so that the default of nine applies. */
  function PositiveParam(v: Option<string>): (r: Option<Positive>)
    ensures r.Some? ==> v.Some? && ParseDecimal(v.value) == Some(r.value as nat)
    ensures v.None? ==> r.None?
  {
    match NatParam(v)
    case Some(n) => if n >= 1 then Some(n as Positive) else None
    case None => None
  }

  /** `req.query` of `GET /api/listing/get?<params>`. */
  function ToQuery(p: Params<Param>): (q: Query)
    ensures q.searchTerm == Get(p, SearchTermParam) && q.listingType == Get(p, TypeParam)
    ensures q.offer == Get(p, OfferParam) && q.parking == Get(p, ParkingParam) && q.furnished == Get(p, FurnishedParam)
    ensures q.sort == Get(p, SortParam) && q.order == Get(p, OrderParam)
    ensures Get(p, StartIndexParam).None? ==> q.startIndex.None?
    ensures Get(p, LimitParam).None? ==> q.limit.None?
  {
    Query(PositiveParam(Get(p, LimitParam)), NatParam(Get(p, StartIndexParam)),
          Get(p, OfferParam), Get(p, FurnishedParam), Get(p, ParkingParam),
          Get(p, TypeParam), Get(p, SearchTermParam), Get(p, SortParam), Get(p, OrderParam))
  }

  /** Setting `startIndex` to a number moves the window there and changes
      nothing else in the query. */
  lemma SetStartIndex(p: Params<Param>, n: nat)
    ensures ToQuery(Set(p, StartIndexParam, NatToDecimal(n))) == ToQuery(p).(startIndex := Some(n))
  {
    var p' := Set(p, StartIndexParam, NatToDecimal(n));
    DecimalRoundTrip(n);
    GetSetOther(p, StartIndexParam, NatToDecimal(n), LimitParam);
    GetSetOther(p, StartIndexParam, NatToDecimal(n), OfferParam);
    GetSetOther(p, StartIndexParam, NatToDecimal(n), FurnishedParam);
    GetSetOther(p, StartIndexParam, NatToDecimal(n), ParkingParam);
    GetSetOther(p, StartIndexParam, NatToDecimal(n), TypeParam);
    GetSetOther(p, StartIndexParam, NatToDecimal(n), SearchTermParam);
    GetSetOther(p, StartIndexParam, NatToDecimal(n), SortParam);
    GetSetOther(p, StartIndexParam, NatToDecimal(n), OrderParam);
  }

  /** Every URL the form submits reads as a query the server accepts: its
      flags are `"true"` and it names no order. */
  lemma SubmittedQueryIsWellFormedAsWritten(s: Sidebar)
    ensures WellFormed(ToQuery(BuildParamsAsWritten(s)))
  {
    ReadAll(s);
  }

  /** With the corrected submit, the query is accepted whenever the form's
      order is one of the select's. */
  lemma SubmittedQueryIsWellFormed(s: Sidebar)
    requires s.order in {"", "asc", "desc"}
    ensures WellFormed(ToQuery(BuildParams(s)))
  {
    ReadAll(s);
  }

  // ----- Results and "Show more" -------------------------------------------

  /** The listings on the page and whether "Show more" is offered. */
  datatype Results = Results(listings: seq<Listing>, showMore: bool)

  /** The listings one request for the URL's parameters returns. */
  function Fetch(p: Params<Param>, stored: seq<Listing>): (ls: seq<Listing>)
    requires WellFormed(ToQuery(p))
    ensures ls == Page(SortedMatches(ToQuery(p), stored), StartOf(ToQuery(p)), LimitOf(ToQuery(p)))
  {
    GetListings(ToQuery(p), stored).value
  }

  /** The effect on a new URL: the first request, with "Show more" offered
      when more than eight listings came back. */
  function Load(p: Params<Param>, stored: seq<Listing>): (r: Results)
    requires WellFormed(ToQuery(p))
    ensures r.listings == Page(SortedMatches(ToQuery(p), stored), StartOf(ToQuery(p)), LimitOf(ToQuery(p)))
    ensures r.showMore <==> |r.listings| >= DefaultLimit
  {
    var data := Fetch(p, stored);
    Results(data, |data| > 8)
  }

  /** `onShowMoreClick`: request the window starting after the listings
      shown, append it, and offer "Show more" again unless fewer than nine
      came back. The window is the next one of the same sorted matches. */
  function ShowMore(p: Params<Param>, r: Results, stored: seq<Listing>): (r': Results)
    requires WellFormed(ToQuery(p))
    ensures var more := Page(SortedMatches(ToQuery(p), stored), |r.listings|, LimitOf(ToQuery(p)));
      && r'.listings == r.listings + more
      && (r'.showMore <==> |more| >= DefaultLimit)
  {
    var q := ToQuery(p);
    var p' := Set(p, StartIndexParam, NatToDecimal(|r.listings|));
    SetStartIndex(p, |r.listings|);
    SortedMatchesIgnoresWindow(q, stored, Some(|r.listings|), q.limit);
    assert q.(startIndex := Some(|r.listings|), limit := q.limit) == ToQuery(p');
    var data := Fetch(p', stored);
    Results(r.listings + data, !(|data| < 9))
  }

  /** The results after loading and then pressing "Show more" `n` times. */
  function AfterClicks(p: Params<Param>, stored: seq<Listing>, n: nat): Results
    requires WellFormed(ToQuery(p))
  {
    if n == 0 then Load(p, stored) else ShowMore(p, AfterClicks(p, stored, n - 1), stored)
  }

  /** A URL the server accepts that names no window: the page's own URLs
      before any "Show more". */
  predicate Unwindowed(p: Params<Param>) {
    WellFormed(ToQuery(p)) && ToQuery(p).limit.None? && ToQuery(p).startIndex.None?
  }

  /** The results after loading and `n` presses, computed from the sorted
      matches alone: the first window of nine, then each press appends the
      next window and keeps the button only if that window was full. */
  function Windows(sm: seq<Listing>, n: nat): Results {
    if n == 0 then
      var first := Page(sm, 0, DefaultLimit);
      Results(first, |first| >= DefaultLimit)
    else
      var before := Windows(sm, n - 1);
      var more := Page(sm, |before.listings|, DefaultLimit);
      Results(before.listings + more, |more| >= DefaultLimit)
  }

  /** The windows tile the sorted matches: after `n` presses they are the
      first `9 * (n + 1)` of them (or all), and a hidden button means all. */
  lemma {:induction false} WindowsArePrefixes(sm: seq<Listing>, n: nat)
    ensures Windows(sm, n).listings == sm[..Min(DefaultLimit * (n + 1), |sm|)]
    ensures !Windows(sm, n).showMore ==> Windows(sm, n).listings == sm
  {
    assert sm[..|sm|] == sm;
    if n == 0 {
      assert DefaultLimit * (n + 1) == DefaultLimit;
    } else {
      WindowsArePrefixes(sm, n - 1);
      PrefixThenPage(sm, Min(DefaultLimit * n, |sm|), DefaultLimit);
    }
  }

  /** Loading a URL without a window shows the first window. */
  lemma LoadIsFirstWindow(p: Params<Param>, stored: seq<Listing>)
    requires Unwindowed(p)
    ensures Load(p, stored) == Windows(SortedMatches(ToQuery(p), stored), 0)
  {
  }

  /** A press of "Show more" after the first `n - 1` windows shows the
      `n`-th as well. */
  lemma ShowMoreIsNextWindow(p: Params<Param>, stored: seq<Listing>, n: nat)
    requires Unwindowed(p) && n > 0
    requires AfterClicks(p, stored, n - 1) == Windows(SortedMatches(ToQuery(p), stored), n - 1)
    ensures AfterClicks(p, stored, n) == Windows(SortedMatches(ToQuery(p), stored), n)
  {
  }

  /** The page's loads and presses, on a URL without a window, are the
      windows of the server's sorted matches for that URL. */
  lemma AfterClicksFollowsWindows(p: Params<Param>, stored: seq<Listing>, n: nat)
    requires Unwindowed(p)
    ensures AfterClicks(p, stored, n) == Windows(SortedMatches(ToQuery(p), stored), n)
  {
    LoadIsFirstWindow(p, stored);
    var i := 0;
    while i < n
      invariant i <= n
      invariant AfterClicks(p, stored, i) == Windows(SortedMatches(ToQuery(p), stored), i)
    {
      i := i + 1;
      ShowMoreIsNextWindow(p, stored, i);
    }
  }

  /** After loading and `n` presses of "Show more", the page shows the first
      `9 * (n + 1)` listings of the sorted matches (or all of them): no
      listing is skipped or shown twice relative to the server's order, and
      a hidden button means nothing is left to show. Every request of the
      model breaks ties among equal sort keys the same way, by storage
      order. */
  lemma ShowMorePagesThrough(p: Params<Param>, stored: seq<Listing>, n: nat)
    requires Unwindowed(p)
    ensures var sm := SortedMatches(ToQuery(p), stored);
      var r := AfterClicks(p, stored, n);
      && r.listings == sm[..Min(DefaultLimit * (n + 1), |sm|)]
      && (!r.showMore ==> r.listings == sm)
  {
    AfterClicksFollowsWindows(p, stored, n);
    WindowsArePrefixes(SortedMatches(ToQuery(p), stored), n);
  }

  /** With unique listing ids, the listings a search shows after any number
      of presses of "Show more" are pairwise distinct. */
  lemma ShownListingsAreDistinct(p: Params<Param>, stored: seq<Listing>, n: nat)
    requires Unwindowed(p)
    requires UniqueKeys(stored, ListingId)
    ensures Distinct(AfterClicks(p, stored, n).listings)
  {
    var sm := SortedMatches(ToQuery(p), stored);
    ShowMorePagesThrough(p, stored, n);
    UniqueKeysDistinct(stored, ListingId);
    MatchesAreDistinct(ToQuery(p), stored);
    PrefixDistinct(sm, Min(DefaultLimit * (n + 1), |sm|));
  }

  /** End to end: a search submitted from the form pages through exactly
      the listings the server matches for it, in the chosen order. */
  lemma SubmittedSearchPagesThrough(s: Sidebar, stored: seq<Listing>, n: nat)
    requires s.order in {"", "asc", "desc"}
    ensures WellFormed(ToQuery(BuildParams(s)))
    ensures s.sort != "" ==> SortFieldOf(ToQuery(BuildParams(s))) == s.sort
    ensures var sm := SortedMatches(ToQuery(BuildParams(s)), stored);
      AfterClicks(BuildParams(s), stored, n).listings == sm[..Min(DefaultLimit * (n + 1), |sm|)]
  {
    SubmittedQueryIsWellFormed(s);
    ShowMorePagesThrough(BuildParams(s), stored, n);
  }
}

=== FILE: seqs.dfy ===
/** Generic sequence operations: first match, filtering and windows. */
module Seqs {
  import opened Base

  /** The position of the first element satisfying `p`. */
  function IndexWhere<T>(xs: seq<T>, p: T -> bool): (r: Option<nat>)
    ensures r.Some? ==> r.value < |xs| && p(xs[r.value])
    ensures r.Some? ==> forall j :: 0 <= j < r.value ==> !p(xs[j])
    ensures r.None? <==> forall j :: 0 <= j < |xs| ==> !p(xs[j])
  {
    if |xs| == 0 then None
    else if p(xs[0]) then Some(0)
    else match IndexWhere(xs[1..], p)
      case None => None
      case Some(k) => Some(k + 1)
  }

  /** The elements satisfying `p`, in their original order. */
  function Filter<T(!new)>(xs: seq<T>, p: T -> bool): (r: seq<T>)
    ensures |r| <= |xs|
    ensures forall i :: 0 <= i < |r| ==> p(r[i])
    ensures forall x :: multiset(r)[x] == if p(x) then multiset(xs)[x] else 0
  {
    if |xs| == 0 then []
    else
      assert xs == [xs[0]] + xs[1..];
      (if p(xs[0]) then [xs[0]] else []) + Filter(xs[1..], p)
  }

  /** Filtering depends on the predicate only through its values. */
  lemma {:induction false} FilterSamePredicate<T(!new)>(xs: seq<T>, p: T -> bool, p': T -> bool)
    requires forall x :: p(x) == p'(x)
    ensures Filter(xs, p) == Filter(xs, p')
  {
    if |xs| > 0 {
      FilterSamePredicate(xs[1..], p, p');
    }
  }

  /** The elements of `xs` are pairwise distinct. */
  predicate Distinct<T(==)>(xs: seq<T>) {
    forall i, j :: 0 <= i < j < |xs| ==> xs[i] != xs[j]
  }

  /** A prefix of a distinct sequence is distinct. */
  lemma PrefixDistinct<T>(xs: seq<T>, k: nat)
    requires Distinct(xs) && k <= |xs|
    ensures Distinct(xs[..k])
  {
    forall i, j | 0 <= i < j < k ensures xs[..k][i] != xs[..k][j] {
      assert xs[..k][i] == xs[i] && xs[..k][j] == xs[j];
    }
  }

  /** A sequence is distinct exactly when no element occurs twice. */
  lemma {:induction false} DistinctIffCountsAtMostOne<T>(xs: seq<T>)
    ensures Distinct(xs) <==> forall x :: multiset(xs)[x] <= 1
  {
    if |xs| > 0 {
      var t := xs[1..];
      assert xs == [xs[0]] + t;
      DistinctIffCountsAtMostOne(t);
      if Distinct(xs) {
        assert xs[0] !in t;
        assert Distinct(t) by {
          forall i, j | 0 <= i < j < |t| ensures t[i] != t[j] {
            assert t[i] == xs[i + 1] && t[j] == xs[j + 1];
          }
        }
      } else {
        var i, j :| 0 <= i < j < |xs| && xs[i] == xs[j];
        if i == 0 {
          assert xs[j] in t;
          assert multiset(xs)[xs[0]] == 1 + multiset(t)[xs[0]];
        } else {
          assert t[i - 1] == t[j - 1];
          assert !Distinct(t);
          var x :| multiset(t)[x] > 1;
          assert multiset(xs)[x] >= multiset(t)[x];
        }
      }
    }
  }

  function Min(a: int, b: int): int {
    if a <= b then a else b
  }

  /** `skip(start).limit(limit)`: at most `limit` elements taken from
      position `start` on; nothing when `start` is past the end. */
  function Page<T>(xs: seq<T>, start: nat, limit: nat): (r: seq<T>)
    ensures start >= |xs| ==> r == []
    ensures start < |xs| ==> |r| == Min(limit, |xs| - start)
    ensures forall i :: 0 <= i < |r| ==> start + i < |xs| && r[i] == xs[start + i]
  {
    if start >= |xs| then [] else xs[start..Min(start + limit, |xs|)]
  }

  /** A prefix followed by the page that starts where it ends is again a
      prefix: consecutive pages leave no gap and repeat nothing. */
  lemma PrefixThenPage<T>(xs: seq<T>, k: nat, limit: nat)
    requires k <= |xs|
    ensures xs[..k] + Page(xs, k, limit) == xs[..Min(k + limit, |xs|)]
  {
    if k == |xs| {
      assert xs[..k] == xs;
    }
  }
}

=== FILE: store.dfy ===
/** The database as the handlers see it: two collections of documents in
    storage order, looked up by key. */
module Store {
  import opened Base
  import opened Records
  import opened Http
  import opened Seqs

  /** Both collections, each in the order the documents were stored. */
  datatype Db = Db(users: seq<User>, listings: seq<Listing>)

  /** A handler's outcome together with the database it leaves behind. */
  datatype Step = Step(outcome: Outcome, db: Db)

  function ListingId(l: Listing): Id { l.id }
  function UserId(u: User): Id { u.id }
  function UserName(u: User): string { u.username }
  function UserEmail(u: User): string { u.email }

  /** The first document whose key is `k` (`findById`, `findOne`). */
  function Find<T>(xs: seq<T>, key: T -> string, k: string): (r: Option<T>)
    ensures r.Some? ==> r.value in xs && key(r.value) == k
    ensures r.None? <==> forall i :: 0 <= i < |xs| ==> key(xs[i]) != k
  {
    if |xs| == 0 then None
    else if key(xs[0]) == k then Some(xs[0])
    else Find(xs[1..], key, k)
  }

  /** No two documents share a key. */
  predicate UniqueKeys<T>(xs: seq<T>, key: T -> string) {
    forall i, j :: 0 <= i < j < |xs| ==> key(xs[i]) != key(xs[j])
  }

  /** Documents with unique keys are pairwise distinct. */
  lemma UniqueKeysDistinct<T>(xs: seq<T>, key: T -> string)
    requires UniqueKeys(xs, key)
    ensures Distinct(xs)
  {
    forall i, j | 0 <= i < j < |xs| ensures xs[i] != xs[j] {
      assert key(xs[i]) != key(xs[j]);
    }
  }

  /** With unique keys, the document found for a key is the only one with it. */
  lemma FindUnique<T>(xs: seq<T>, key: T -> string, i: nat)
    requires UniqueKeys(xs, key) && i < |xs|
    ensures Find(xs, key, key(xs[i])) == Some(xs[i])
  {
    if i > 0 && key(xs[0]) != key(xs[i]) {
      FindUnique(xs[1..], key, i - 1);
    }
  }

  /** The invariant the unique indexes keep: listing ids, user ids,
      usernames and emails are each unique. */
  predicate Valid(db: Db) {
    && UniqueKeys(db.listings, ListingId)
    && UniqueKeys(db.users, UserId)
    && UniqueKeys(db.users, UserName)
    && UniqueKeys(db.users, UserEmail)
  }

  /** `findByIdAndDelete`: drop every document with key `k`. Lookups of
      every other key see the same document as before. */
  function Remove<T(!new)>(xs: seq<T>, key: T -> string, k: string): (r: seq<T>)
    ensures Find(r, key, k).None?
    ensures forall k' :: k' != k ==> Find(r, key, k') == Find(xs, key, k')
    ensures forall x :: x in r <==> x in xs && key(x) != k
    ensures |r| <= |xs|
  {
    if |xs| == 0 then []
    else if key(xs[0]) == k then Remove(xs[1..], key, k)
    else [xs[0]] + Remove(xs[1..], key, k)
  }

  /** Dropping documents keeps every key unique that was unique. */
  lemma {:induction false} RemoveKeepsUnique<T(!new)>(xs: seq<T>, key: T -> string, k: string, key2: T -> string)
    requires UniqueKeys(xs, key2)
    ensures UniqueKeys(Remove(xs, key, k), key2)
  {
    if |xs| > 0 {
      TailKeepsUnique(xs, key2);
      RemoveKeepsUnique(xs[1..], key, k, key2);
      if key(xs[0]) != k {
        var rest := Remove(xs[1..], key, k);
        forall j | 0 <= j < |rest| ensures key2(xs[0]) != key2(rest[j]) {
          assert rest[j] in xs[1..];
          var m :| 0 <= m < |xs[1..]| && xs[1..][m] == rest[j];
          assert xs[m + 1] == rest[j];
        }
        PrependKeepsUnique(xs[0], rest, key2);
      }
    }
  }

  lemma TailKeepsUnique<T>(xs: seq<T>, key: T -> string)
    requires |xs| > 0 && UniqueKeys(xs, key)
    ensures UniqueKeys(xs[1..], key)
  {
    forall i, j | 0 <= i < j < |xs[1..]| ensures key(xs[1..][i]) != key(xs[1..][j]) {
      assert xs[1..][i] == xs[i + 1] && xs[1..][j] == xs[j + 1];
    }
  }

  lemma PrependKeepsUnique<T>(x: T, rest: seq<T>, key: T -> string)
    requires UniqueKeys(rest, key)
    requires forall j :: 0 <= j < |rest| ==> key(x) != key(rest[j])
    ensures UniqueKeys([x] + rest, key)
  {
    var r := [x] + rest;
    forall i, j | 0 <= i < j < |r| ensures key(r[i]) != key(r[j]) {
      if i == 0 {
        assert r[j] == rest[j - 1];
      } else {
        assert r[i] == rest[i - 1] && r[j] == rest[j - 1];
      }
    }
  }

  /** `findByIdAndUpdate`: the document with key `k` becomes `x`; nothing
      else changes and no key moves. */
  function Replace<T>(xs: seq<T>, key: T -> string, k: string, x: T): (r: seq<T>)
    requires key(x) == k
    ensures |r| == |xs|
    ensures forall i :: 0 <= i < |xs| ==> key(r[i]) == key(xs[i])
    ensures forall i :: 0 <= i < |xs| && key(xs[i]) != k ==> r[i] == xs[i]
    ensures forall i :: 0 <= i < |xs| && key(xs[i]) == k ==> r[i] == x
    ensures Find(xs, key, k).Some? ==> Find(r, key, k) == Some(x)
    ensures Find(xs, key, k).None? ==> r == xs
    ensures forall k' :: k' != k ==> Find(r, key, k') == Find(xs, key, k')
  {
    if |xs| == 0 then []
    else if key(xs[0]) == k then [x] + Replace(xs[1..], key, k, x)
    else [xs[0]] + Replace(xs[1..], key, k, x)
  }

  /** Replacing a document under its own key keeps that key unique. */
  lemma ReplaceKeepsUnique<T>(xs: seq<T>, key: T -> string, k: string, x: T)
    requires key(x) == k && UniqueKeys(xs, key)
    ensures UniqueKeys(Replace(xs, key, k, x), key)
  {
    var r := Replace(xs, key, k, x);
    forall i, j | 0 <= i < j < |r| ensures key(r[i]) != key(r[j]) {
      assert key(r[i]) == key(xs[i]) && key(r[j]) == key(xs[j]);
    }
  }

  /** A document appended under a key no stored document has is the one
      found for that key. */
  lemma {:induction false} FindAppended<T>(xs: seq<T>, key: T -> string, x: T)
    requires Find(xs, key, key(x)).None?
    ensures Find(xs + [x], key, key(x)) == Some(x)
  {
    if |xs| > 0 {
      assert (xs + [x])[1..] == xs[1..] + [x];
      FindAppended(xs[1..], key, x);
    }
  }

  /** Appending a document whose key no stored document has keeps keys unique. */
  lemma AppendKeepsUnique<T>(xs: seq<T>, x: T, key: T -> string)
    requires UniqueKeys(xs, key)
    requires Find(xs, key, key(x)).None?
    ensures UniqueKeys(xs + [x], key)
  {
    var r := xs + [x];
    forall i, j | 0 <= i < j < |r| ensures key(r[i]) != key(r[j]) {
      if j == |xs| {
        assert r[i] == xs[i];
      } else {
        assert r[i] == xs[i] && r[j] == xs[j];
      }
    }
  }
}

=== FILE: text.dfy ===
/** String operations the system relies on: ASCII case folding, substring
    search, space removal and decimal rendering/parsing of numbers. */
module Text {
  import opened Base

  /** ASCII lower-casing of one character; every other character is kept. */
  function LowerChar(c: char): char {
    if 'A' <= c <= 'Z' then (c as int + 32) as char else c
  }

  predicate IsUpper(c: char) {
    'A' <= c <= 'Z'
  }

  /** `String.prototype.toLowerCase`, restricted to ASCII letters. */
  function Lower(s: string): (r: string)
    ensures |r| == |s|
    ensures forall i :: 0 <= i < |s| ==> r[i] == LowerChar(s[i])
    ensures forall i :: 0 <= i < |r| ==> !IsUpper(r[i])
  {
    seq(|s|, i requires 0 <= i < |s| => LowerChar(s[i]))
  }

  predicate StartsWith(s: string, p: string) {
    |p| <= |s| && s[..|p|] == p
  }

  /** `t` occurs somewhere in `s`, scanning `s` from the left. */
  predicate Contains(s: string, t: string)
    decreases |s|
  {
    StartsWith(s, t) || (|s| > 0 && Contains(s[1..], t))
  }

  /** `t` occurs in `s` starting at position `i`. */
  predicate OccursAt(s: string, t: string, i: int) {
    0 <= i <= |s| - |t| && s[i..i + |t|] == t
  }

  /** The scan agrees with the positional definition of a substring. */
  lemma {:induction false} ContainsIsSubstring(s: string, t: string)
    ensures Contains(s, t) <==> exists i :: OccursAt(s, t, i)
    decreases |s|
  {
    if Contains(s, t) {
      if StartsWith(s, t) {
        assert OccursAt(s, t, 0);
      } else {
        ContainsIsSubstring(s[1..], t);
        var i :| OccursAt(s[1..], t, i);
        assert s[i + 1..i + 1 + |t|] == s[1..][i..i + |t|];
        assert OccursAt(s, t, i + 1);
      }
    }
    if exists i :: OccursAt(s, t, i) {
      var i :| OccursAt(s, t, i);
      if i == 0 {
        assert StartsWith(s, t);
      } else {
        assert s[1..][i - 1..i - 1 + |t|] == s[i..i + |t|];
        assert OccursAt(s[1..], t, i - 1);
        ContainsIsSubstring(s[1..], t);
      }
    }
  }

  /** An occurrence survives lower-casing of both strings. */
  lemma OccursLower(s: string, t: string, i: int)
    requires OccursAt(s, t, i)
    ensures OccursAt(Lower(s), Lower(t), i)
  {
    assert forall k :: 0 <= k < |t| ==> t[k] == s[i + k];
    assert Lower(s)[i..i + |t|] == Lower(t);
  }

  /** The empty string occurs in every string. */
  lemma ContainsEmpty(s: string)
    ensures Contains(s, "")
  {
    assert StartsWith(s, "");
  }

  /** Case-insensitive containment of `term` in `text` (ASCII letters only). */
  predicate ContainsIgnoringCase(text: string, term: string) {
    Contains(Lower(text), Lower(term))
  }

  /** `s.split(" ").join("")`: every space removed, everything else kept in order. */
  function RemoveSpaces(s: string): (r: string)
    ensures |r| <= |s|
    ensures forall i :: 0 <= i < |r| ==> r[i] != ' '
    ensures (forall i :: 0 <= i < |s| ==> s[i] != ' ') ==> r == s
    ensures forall c :: c != ' ' ==> multiset(r)[c] == multiset(s)[c]
  {
    if |s| == 0 then ""
    else
      assert s == [s[0]] + s[1..];
      if s[0] == ' ' then RemoveSpaces(s[1..])
      else [s[0]] + RemoveSpaces(s[1..])
  }

  /** Removing spaces works piece by piece: the characters of `a` come out
      before those of `b`. */
  lemma {:induction false} RemoveSpacesAppend(a: string, b: string)
    ensures RemoveSpaces(a + b) == RemoveSpaces(a) + RemoveSpaces(b)
  {
    if |a| > 0 {
      assert (a + b)[1..] == a[1..] + b;
      RemoveSpacesAppend(a[1..], b);
    } else {
      assert a + b == b;
    }
  }

  /** A space is dropped and any other character is kept. */
  lemma RemoveSpacesOfChar(c: char)
    ensures RemoveSpaces([c]) == if c == ' ' then "" else [c]
  {
  }

  /** Lower-casing works piece by piece. */
  lemma LowerAppend(a: string, b: string)
    ensures Lower(a + b) == Lower(a) + Lower(b)
  {
  }

  predicate IsDigit(c: char) {
    '0' <= c <= '9'
  }

  predicate AllDigits(s: string) {
    forall i :: 0 <= i < |s| ==> IsDigit(s[i])
  }

  function DigitChar(d: nat): (c: char)
    requires d < 10
  {
    ('0' as int + d) as char
  }

  /** `String(n)` for a natural number: its shortest decimal spelling. */
  function NatToDecimal(n: nat): (s: string)
    ensures |s| >= 1 && AllDigits(s)
    ensures n >= 10 <==> |s| >= 2
    decreases n
  {
    if n < 10 then [DigitChar(n)] else NatToDecimal(n / 10) + [DigitChar(n % 10)]
  }

  /** The value of a string of decimal digits. */
  function DigitsValue(s: string): nat
    requires AllDigits(s)
  {
    if |s| == 0 then 0
    else DigitsValue(s[..|s| - 1]) * 10 + (s[|s| - 1] as int - '0' as int)
  }

  /** Decimal parsing of a non-negative integer; anything that is not a
      non-empty run of digits yields `None`. */
  function ParseDecimal(s: string): (r: Option<nat>)
    ensures r.Some? <==> |s| >= 1 && AllDigits(s)
  {
    if |s| >= 1 && AllDigits(s) then Some(DigitsValue(s)) else None
  }

  /** Rendering a natural number and parsing it back yields the number. */
  lemma {:induction false} DecimalRoundTrip(n: nat)
    ensures ParseDecimal(NatToDecimal(n)) == Some(n)
    decreases n
  {
    var s := NatToDecimal(n);
    if n >= 10 {
      DecimalRoundTrip(n / 10);
      assert s[..|s| - 1] == NatToDecimal(n / 10);
      assert DigitsValue(s) == DigitsValue(NatToDecimal(n / 10)) * 10 + n % 10;
    }
  }

  /** `String(i)` for an integer, with a leading minus sign when negative. */
  function IntToDecimal(i: int): (s: string)
    ensures i >= 0 ==> s == NatToDecimal(i)
    ensures i < 0 ==> |s| >= 2 && s[0] == '-' && s[1..] == NatToDecimal(-i)
  {
    if i < 0 then "-" + NatToDecimal(-i) else NatToDecimal(i)
  }

  /** The longest run of digits that `s` starts with. */
  function LeadingDigits(s: string): (r: string)
    ensures |r| <= |s| && r == s[..|r|] && AllDigits(r)
    ensures |r| < |s| ==> !IsDigit(s[|r|])
  {
    if |s| == 0 || !IsDigit(s[0]) then [] else [s[0]] + LeadingDigits(s[1..])
  }

  /** A run of digits followed by a non-digit (or nothing) is the leading
      run of the whole. */
  lemma {:induction false} LeadingDigitsOf(d: string, t: string)
    requires AllDigits(d)
    requires |t| == 0 || !IsDigit(t[0])
    ensures LeadingDigits(d + t) == d
  {
    if |d| > 0 {
      assert (d + t)[1..] == d[1..] + t;
      LeadingDigitsOf(d[1..], t);
    }
  }

  /** The sign `parseInt` reads: whether `s` starts with `-` (a leading
      `+` is skipped too), and the text after the sign. */
  function SplitSign(s: string): (r: (bool, string))
    ensures r.0 ==> |s| > 0 && s[0] == '-'
  {
    if |s| > 0 && (s[0] == '-' || s[0] == '+') then (s[0] == '-', s[1..]) else (false, s)
  }

  /** The value of the digits `s` starts with; `None` when it starts with
      none. */
  function LeadingValue(s: string): (r: Option<nat>)
    ensures r.Some? <==> |s| > 0 && IsDigit(s[0])
  {
    var digits := LeadingDigits(s);
    if |digits| == 0 then None else Some(DigitsValue(digits))
  }

  /** `parseInt(s)` on the strings a number input produces: an optional
      sign, then the leading digits; `None` (JavaScript's `NaN`) when no
      digit follows the sign. Whatever follows the digits is ignored. */
  function ParseInt(s: string): (r: Option<int>)
    ensures r.Some? <==> LeadingValue(SplitSign(s).1).Some?
  {
    var sign := SplitSign(s);
    var v := LeadingValue(sign.1);
    if v.None? then None
    else if sign.0 then Some(-(v.value as int))
    else Some(v.value as int)
  }

  /** `parseInt(String(i)) == i` for every integer of the model. Integers
      here are unbounded, so the exponent spelling and lost precision of
      JavaScript numbers beyond 2^53 do not arise. */
  lemma ParseIntRoundTrip(i: int)
    ensures ParseInt(IntToDecimal(i)) == Some(i)
  {
    var n: nat := if i < 0 then -i else i;
    LeadingDigitsOf(NatToDecimal(n), "");
    assert NatToDecimal(n) + "" == NatToDecimal(n);
    DecimalRoundTrip(n);
  }

  /** `parseInt` reads a run of digits up to the first non-digit. */
  lemma ParseIntOfDigits(d: string, t: string)
    requires |d| > 0 && AllDigits(d)
    requires |t| == 0 || !IsDigit(t[0])
    ensures ParseInt(d + t).Some? && ParseInt(d + t).value == DigitsValue(d)
  {
    var u := d + t;
    LeadingDigitsOf(d, t);
    assert u[0] == d[0];
    assert SplitSign(u) == (false, u);
  }

  /** A minus sign in front of a string that starts with a digit negates
      what `parseInt` reads. */
  lemma ParseIntNegated(u: string)
    requires |u| > 0 && IsDigit(u[0])
    ensures ParseInt("-" + u).Some? && ParseInt("-" + u).value == -ParseInt(u).value
  {
    assert SplitSign(u) == (false, u);
    assert ("-" + u)[1..] == u;
    assert SplitSign("-" + u) == (true, u);
  }

  /** The digits of a natural number followed by a non-digit read back as
      the number. */
  lemma ParseNatThenNonDigit(n: nat, t: string)
    requires |t| > 0 && !IsDigit(t[0])
    ensures |NatToDecimal(n) + t| > 0 && IsDigit((NatToDecimal(n) + t)[0])
    ensures ParseInt(NatToDecimal(n) + t).Some? && ParseInt(NatToDecimal(n) + t).value == n
  {
    DecimalRoundTrip(n);
    assert DigitsValue(NatToDecimal(n)) == n;
    ParseIntOfDigits(NatToDecimal(n), t);
  }

  /** A minus sign, the digits of a natural number, then a non-digit:
      `parseInt` reads the negated number. */
  lemma ParseNegativeThenNonDigit(s: string, n: nat, t: string)
    requires |t| > 0 && !IsDigit(t[0])
    requires s == "-" + (NatToDecimal(n) + t)
    ensures ParseInt(s) == Some(-(n as int))
  {
    ParseNatThenNonDigit(n, t);
    ParseIntNegated(NatToDecimal(n) + t);
  }

  /** A negative number's text is a minus sign before its magnitude's. */
  lemma NegativeText(i: int, t: string)
    requires i < 0
    ensures IntToDecimal(i) + t == "-" + (NatToDecimal(-i) + t)
  {
  }

  /** `parseInt` stops at the first non-digit after the number: a
      fractional part, an exponent or a trailing word is dropped. */
  lemma ParseIntStopsAtNonDigit(i: int, t: string)
    requires |t| > 0 && !IsDigit(t[0])
    ensures ParseInt(IntToDecimal(i) + t) == Some(i)
  {
    if i < 0 {
      NegativeText(i, t);
      ParseNegativeThenNonDigit(IntToDecimal(i) + t, -i, t);
    } else {
      ParseNatThenNonDigit(i, t);
    }
  }
}

=== FILE: update_listing.dfy ===
/** The update-listing page (client/src/pages/UpdateListing.jsx): the form
    that edits one listing, its list of image URLs, and the request it
    submits to `PUT /api/listing/update/:id`. Firebase uploads, `fetch` and
    navigation are outside the model: an upload's outcome, the server's
    answer and the target of `navigate` are values. */
module UpdateListingPage {
  import opened Base
  import opened Records
  import opened Http
  import opened Store
  import Text
  import ListingController
  import opened ListingCard

  const MaxImages := 6
  const ImageCountMessage := "You must upload a minimum of 1 image and a maximum of 6 images per listing."
  const UploadFailedMessage := "The image upload failed because the file might have exceeded the maximum allowed size of 2 MB."
  const NoImageMessage := "To proceed, you are required to upload at least one image."

  /** The form before the listing has been fetched: a rental with one
      bedroom, one bathroom, price 50, no discount, no flags, no images. */
  const InitialForm := ListingFields("", "", "", [], "rent", 1, 1, 50, 0, false, false, false)

  datatype PageState = PageState(
    form: ListingFields,
    imageUploadError: Option<string>,
    uploading: bool,
    error: Option<string>,
    loading: bool)

  const InitialPage := PageState(InitialForm, None, false, None, false)

  /** What a `fetch` followed by `response.json()` yields: a JSON body, a
      thrown error with its message (a body that is not JSON, a network
      failure), or nothing at all when the server never answers. */
  datatype Answer = Answered(body: Body) | Threw(message: string) | NoAnswer

  /** The answer the page sees for a server response; `parseError` is the
      browser's message for a body that is not JSON. */
  function AnswerOf(r: Option<Response>, parseError: string): (a: Answer)
    ensures r.None? <==> a.NoAnswer?
    ensures a.Answered? ==> r.Some? && a.body == r.value.body
    ensures r.Some? && (r.value.body.AppShell? || r.value.body.NoRoutePage?) ==> a == Threw(parseError)
  {
    match r
    case None => NoAnswer
    case Some(resp) =>
      if resp.body.AppShell? || resp.body.NoRoutePage? then Threw(parseError) else Answered(resp.body)
  }

  /** The body reports a failure: `data.success === false`. */
  predicate IsFailure(b: Body) {
    b.ErrorJson? && !b.success
  }

  /** `data._id` spelled into a path; a body without an `_id` gives
      `"undefined"`. */
  function IdText(b: Body): (r: string)
    ensures b.ErrorJson? ==> r == "undefined"
  {
    match b
    case ListingJson(l) => l.id
    case UserJson(u) => u.id
    case ProfileJson(p) => p.id
    case _ => "undefined"
  }

  // ---------------------------------------------------------------------
  // Loading the listing

  /** The effect on arrival: a listing replaces the whole form; an error
      body, a thrown error or no answer leaves the page as it was. */
  function Loaded(s: PageState, a: Answer): (r: PageState)
    ensures a.Answered? && a.body.ListingJson? ==> r == s.(form := a.body.listing.fields)
    ensures !(a.Answered? && a.body.ListingJson?) ==> r == s
  {
    match a
    case Answered(ListingJson(l)) => s.(form := l.fields)
    case _ => s
  }

  // ---------------------------------------------------------------------
  // Images

  /** The upload guard: at least one file, and no more than six images
      once they are added. */
  predicate UploadAllowed(fileCount: nat, images: seq<string>) {
    fileCount != 0 && fileCount + |images| <= MaxImages
  }

  /** `handleImageUpload` from the click to the settled promise. `result`
      is the URLs the storage returned, one per file in file order, or
      `None` when any upload failed. A rejected request changes only the
      upload error; an accepted one appends the URLs after the existing
      images, so the form never holds more than six. */
  function Upload(s: PageState, fileCount: nat, result: Option<seq<string>>): (r: PageState)
    requires result.Some? ==> |result.value| == fileCount
    ensures !UploadAllowed(fileCount, s.form.imageURLs) ==>
      r.form == s.form && r.imageUploadError == Some(ImageCountMessage) && r.uploading == s.uploading
    ensures UploadAllowed(fileCount, s.form.imageURLs) && result.Some? ==>
      && |r.form.imageURLs| == |s.form.imageURLs| + fileCount <= MaxImages
      && r.form.imageURLs[..|s.form.imageURLs|] == s.form.imageURLs
      && r.form.imageURLs[|s.form.imageURLs|..] == result.value
      && r.form == s.form.(imageURLs := r.form.imageURLs)
      && r.imageUploadError.None? && !r.uploading
    ensures UploadAllowed(fileCount, s.form.imageURLs) && result.None? ==>
      r.form == s.form && r.imageUploadError == Some(UploadFailedMessage) && !r.uploading
    ensures r.error == s.error && r.loading == s.loading
  {
    if !UploadAllowed(fileCount, s.form.imageURLs) then s.(imageUploadError := Some(ImageCountMessage))
    else
      var started := s.(uploading := true);
      match result
      case Some(urls) =>
        started.(form := started.form.(imageURLs := started.form.imageURLs + urls),
                 imageUploadError := None, uploading := false)
      case None => started.(imageUploadError := Some(UploadFailedMessage), uploading := false)
  }

  /** `filter((_, i) => i !== index)`: every element except the one at
      position `index`, in order; an index outside the list removes
      nothing. */
  function WithoutPosition<T>(xs: seq<T>, index: int): (r: seq<T>)
    ensures 0 <= index < |xs| ==> r == xs[..index] + xs[index + 1..]
    ensures !(0 <= index < |xs|) ==> r == xs
  {
    if |xs| == 0 then []
    else
      var rest := WithoutPosition(xs[1..], index - 1);
      if index == 0 then
        assert rest == xs[1..];
        rest
      else
        assert 0 < index < |xs| ==> [xs[0]] + xs[1..][..index - 1] == xs[..index];
        [xs[0]] + rest
  }

  /** `handleRemoveImage(index)`: only the image list changes. */
  function RemoveImage(s: PageState, index: int): (r: PageState)
    ensures r.form == s.form.(imageURLs := WithoutPosition(s.form.imageURLs, index))
    ensures r.(form := s.form) == s
  {
    s.(form := s.form.(imageURLs := WithoutPosition(s.form.imageURLs, index)))
  }

  /** Removing the image an upload of one file just added gives back the
      images as they were. */
  lemma RemoveUndoesUpload(s: PageState, url: string)
    requires UploadAllowed(1, s.form.imageURLs)
    ensures var up := Upload(s, 1, Some([url]));
      RemoveImage(up, |s.form.imageURLs|).form == s.form
  {
    var up := Upload(s, 1, Some([url]));
    assert up.form.imageURLs == s.form.imageURLs + [url];
    assert up.form.imageURLs[..|s.form.imageURLs|] == s.form.imageURLs;
  }

  // ---------------------------------------------------------------------
  // Field changes

  /** The page's inputs, by `id`. */
  datatype InputId =
    | Title | Description | Address
    | Sale | Rent | Parking | Furnished | Offer
    | Bedrooms | Bathrooms | RegularPrice | DiscountPrice
  {
    /** The input's `id` attribute. */
    function Id(): string {
      match this
      case Title => "title" case Description => "description" case Address => "address"
      case Sale => "sale" case Rent => "rent" case Parking => "parking"
      case Furnished => "furnished" case Offer => "offer"
      case Bedrooms => "bedrooms" case Bathrooms => "bathrooms"
      case RegularPrice => "regularPrice" case DiscountPrice => "discountPrice"
    }

    /** The input's `type` attribute. */
    function Kind(): InputKind {
      match this
      case Title => TextInput case Address => TextInput
      case Description => TextArea
      case Bedrooms => NumberInput case Bathrooms => NumberInput
      case RegularPrice => NumberInput case DiscountPrice => NumberInput
      case _ => Checkbox
    }
  }

  datatype InputKind = TextInput | TextArea | NumberInput | Checkbox

  /** A change event's target: its id, its `value` and its `checked`. */
  datatype ChangeEvent = ChangeEvent(input: InputId, value: string, checked: bool)

  /** Distinct inputs have distinct ids, so testing the id string is
      testing the input. */
  lemma IdsAreDistinct(i: InputId, j: InputId)
    ensures i.Id() == j.Id() <==> i == j
  {
  }

  /** `{ ...prev, [id]: checked }` for the three flag inputs. */
  function SetFlag(f: ListingFields, i: InputId, b: bool): (r: ListingFields)
    ensures AgreeOutside(f, r, i)
  {
    match i
    case Parking => f.(parking := b)
    case Furnished => f.(furnished := b)
    case Offer => f.(offer := b)
    case _ => f
  }

  /** `{ ...prev, [id]: type === "number" ? parseInt(value) : value }`. The
      page stores `NaN` for a number that does not parse; the model, whose
      counts and prices are integers, leaves the field as it was. */
  function SetValue(f: ListingFields, i: InputId, v: string): (r: ListingFields)
    ensures AgreeOutside(f, r, i)
  {
    match i
    case Title => f.(title := v)
    case Description => f.(description := v)
    case Address => f.(address := v)
    case Bedrooms => (match Text.ParseInt(v) case Some(n) => f.(bedrooms := n) case None => f)
    case Bathrooms => (match Text.ParseInt(v) case Some(n) => f.(bathrooms := n) case None => f)
    case RegularPrice => (match Text.ParseInt(v) case Some(n) => f.(regularPrice := n) case None => f)
    case DiscountPrice => (match Text.ParseInt(v) case Some(n) => f.(discountPrice := n) case None => f)
    case _ => f
  }

  /** The value an input shows for the form. */
  function Shown(f: ListingFields, i: InputId): string {
    match i
    case Title => f.title
    case Description => f.description
    case Address => f.address
    case Bedrooms => Text.IntToDecimal(f.bedrooms)
    case Bathrooms => Text.IntToDecimal(f.bathrooms)
    case RegularPrice => Text.IntToDecimal(f.regularPrice)
    case DiscountPrice => Text.IntToDecimal(f.discountPrice)
    case _ => ""
  }

  /** The flag an input shows as `checked`. */
  function Checked(f: ListingFields, i: InputId): bool {
    match i
    case Sale => f.listingType == "sale"
    case Rent => f.listingType == "rent"
    case Parking => f.parking
    case Furnished => f.furnished
    case Offer => f.offer
    case _ => false
  }

  /** Every field that input `i` does not own is the same in `f` and `g`;
      the `sale` and `rent` inputs both own `type`, and no input owns the
      image list. */
  predicate AgreeOutside(f: ListingFields, g: ListingFields, i: InputId) {
    && (i != Title ==> g.title == f.title)
    && (i != Description ==> g.description == f.description)
    && (i != Address ==> g.address == f.address)
    && g.imageURLs == f.imageURLs
    && (i != Sale && i != Rent ==> g.listingType == f.listingType)
    && (i != Bedrooms ==> g.bedrooms == f.bedrooms)
    && (i != Bathrooms ==> g.bathrooms == f.bathrooms)
    && (i != RegularPrice ==> g.regularPrice == f.regularPrice)
    && (i != DiscountPrice ==> g.discountPrice == f.discountPrice)
    && (i != Offer ==> g.offer == f.offer)
    && (i != Parking ==> g.parking == f.parking)
    && (i != Furnished ==> g.furnished == f.furnished)
  }

  /** `handleChange`: three independent tests in turn. `sale` and `rent`
      set `type` to their id whether the box was ticked or cleared; the
      three flags take `checked`; text, textarea and number inputs set
      their own field. Nothing outside the input's own field changes. */
  function HandleChange(f: ListingFields, e: ChangeEvent): (r: ListingFields)
    ensures AgreeOutside(f, r, e.input)
  {
    var i := e.input;
    var typed := if i == Sale || i == Rent then f.(listingType := i.Id()) else f;
    var flagged := if i == Parking || i == Furnished || i == Offer then SetFlag(typed, i, e.checked) else typed;
    if i.Kind() == NumberInput || i.Kind() == TextInput || i.Kind() == TextArea then SetValue(flagged, i, e.value) else flagged
  }

  /** The input's own field after a change: `sale` and `rent` tick their
      own box whatever `checked` says, the flags follow `checked`, text
      inputs show the typed value, and a number input shows the number
      `parseInt` read. When it read none the model leaves the form alone,
      where the page would store `NaN`. */
  lemma ChangeSetsOwnField(f: ListingFields, e: ChangeEvent)
    ensures var r := HandleChange(f, e);
      && (e.input == Sale || e.input == Rent ==> r.listingType == e.input.Id())
      && (e.input.Kind() == Checkbox ==> Checked(r, e.input) == (e.input == Sale || e.input == Rent || e.checked))
      && (e.input.Kind() == TextInput || e.input.Kind() == TextArea ==> Shown(r, e.input) == e.value)
      && (e.input.Kind() == NumberInput && Text.ParseInt(e.value).Some? ==>
            Shown(r, e.input) == Text.IntToDecimal(Text.ParseInt(e.value).value))
      && (e.input.Kind() == NumberInput && Text.ParseInt(e.value).None? ==> r == f)
  {
    match e.input
    case Sale =>
    case Rent =>
    case _ =>
  }

  /** Which of the three tests takes effect: for every input exactly one
      does. */
  lemma ChangeCases(f: ListingFields, e: ChangeEvent)
    ensures HandleChange(f, e) ==
      if e.input == Sale || e.input == Rent then f.(listingType := e.input.Id())
      else if e.input.Kind() == Checkbox then SetFlag(f, e.input, e.checked)
      else SetValue(f, e.input, e.value)
  {
  }

  /** Handling the same event twice is handling it once. */
  lemma ChangeIdempotent(f: ListingFields, e: ChangeEvent)
    ensures HandleChange(HandleChange(f, e), e) == HandleChange(f, e)
  {
    var r := HandleChange(f, e);
    ChangeCases(f, e);
    ChangeCases(r, e);
    if e.input.Kind() == NumberInput {
      NumberIdempotent(f, e.input, e.value);
    }
  }

  /** Setting a number field twice from the same text is setting it once. */
  lemma NumberIdempotent(f: ListingFields, i: InputId, v: string)
    requires i.Kind() == NumberInput
    ensures SetValue(SetValue(f, i, v), i, v) == SetValue(f, i, v)
  {
    match i
    case Bedrooms =>
    case Bathrooms =>
    case RegularPrice =>
    case DiscountPrice =>
  }

  /** An event that repeats what a value input already shows leaves the
      form as it is: for a number, `parseInt` reads back the number the
      input displays. */
  lemma ShownValueIsFixedPoint(f: ListingFields, i: InputId, checked: bool)
    requires i.Kind() != Checkbox
    ensures HandleChange(f, ChangeEvent(i, Shown(f, i), checked)) == f
  {
    ChangeCases(f, ChangeEvent(i, Shown(f, i), checked));
    match i
    case Bedrooms => Text.ParseIntRoundTrip(f.bedrooms);
    case Bathrooms => Text.ParseIntRoundTrip(f.bathrooms);
    case RegularPrice => Text.ParseIntRoundTrip(f.regularPrice);
    case DiscountPrice => Text.ParseIntRoundTrip(f.discountPrice);
    case Title =>
    case Description =>
    case Address =>
  }

  /** The type stays one of `sale` and `rent` under every change. */
  lemma TypeStaysSaleOrRent(f: ListingFields, e: ChangeEvent)
    requires f.listingType == "sale" || f.listingType == "rent"
    ensures var r := HandleChange(f, e); r.listingType == "sale" || r.listingType == "rent"
  {
  }

  // ---------------------------------------------------------------------
  // Submitting

  /** The page after a submit click, and the body sent, if any. */
  datatype Submission = Submission(page: PageState, request: Option<ListingDraft>)

  /** `handleSubmit` up to the request: with no image it shows an error and
      sends nothing; otherwise it sends the form with `userRef` set to the
      signed-in user and marks the page as loading. */
  function HandleSubmit(s: PageState, currentUser: Id): (r: Submission)
    ensures r.request.None? <==> |s.form.imageURLs| < 1
    ensures r.request.None? ==> r.page == s.(error := Some(NoImageMessage))
    ensures r.request.Some? ==>
      && r.request.value.fields == s.form
      && r.request.value.userRef == Some(currentUser)
      && r.page == s.(loading := true, error := None)
  {
    if |s.form.imageURLs| < 1 then Submission(s.(error := Some(NoImageMessage)), None)
    else Submission(s.(loading := true, error := None), Some(ListingDraft(s.form, Some(currentUser))))
  }

  /** The page after the answer, and where it navigates, if anywhere. */
  datatype Finished = Finished(page: PageState, navigateTo: Option<string>)

  /** The rest of `handleSubmit` as written: a failure body sets the error
      and the page still navigates, to the `_id` the failure body does not
      have. */
  function FinishSubmitAsWritten(s: PageState, a: Answer): (r: Finished)
    ensures a.NoAnswer? ==> r == Finished(s, None)
    ensures a.Threw? ==> r == Finished(s.(error := Some(a.message), loading := false), None)
    ensures a.Answered? ==> r.navigateTo == Some(ListingPath(IdText(a.body))) && !r.page.loading
    ensures a.Answered? && IsFailure(a.body) ==> r.page.error == Some(a.body.message)
    ensures a.Answered? && IsFailure(a.body) ==> r.navigateTo == Some(ListingPath("undefined"))
  {
    match a
    case NoAnswer => Finished(s, None)
    case Threw(m) => Finished(s.(error := Some(m), loading := false), None)
    case Answered(b) =>
      var withError := if IsFailure(b) then s.(error := Some(b.message)) else s;
      Finished(withError.(loading := false), Some(ListingPath(IdText(b))))
  }

  /** The rest of `handleSubmit` as evidently intended: a failure body
      keeps the user on the form with the server's message shown; a
      success goes to the updated listing. */
  function FinishSubmit(s: PageState, a: Answer): (r: Finished)
    ensures a.NoAnswer? ==> r == Finished(s, None)
    ensures a.Threw? ==> r == Finished(s.(error := Some(a.message), loading := false), None)
    ensures a.Answered? && IsFailure(a.body) ==>
      r == Finished(s.(error := Some(a.body.message), loading := false), None)
    ensures a.Answered? && !IsFailure(a.body) ==>
      r == Finished(s.(loading := false), Some(ListingPath(IdText(a.body))))
    ensures r.navigateTo.Some? ==> r.page.error == s.error
  {
    match a
    case NoAnswer => Finished(s, None)
    case Threw(m) => Finished(s.(error := Some(m), loading := false), None)
    case Answered(b) =>
      if IsFailure(b) then Finished(s.(error := Some(b.message), loading := false), None)
      else Finished(s.(loading := false), Some(ListingPath(IdText(b))))
  }

  /** The two endings differ exactly on failure bodies. */
  lemma FinishDiffersOnlyOnFailure(s: PageState, a: Answer)
    ensures FinishSubmitAsWritten(s, a) == FinishSubmit(s, a) <==> !(a.Answered? && IsFailure(a.body))
  {
  }

  /** The initial form cannot be submitted: it has no image. */
  lemma InitialFormNeedsAnImage(currentUser: Id)
    ensures HandleSubmit(InitialPage, currentUser).request.None?
    ensures HandleSubmit(InitialPage, currentUser).page.error == Some(NoImageMessage)
  {
  }

  /** The owner's submit stores the form as the listing's fields, keeps
      them as the owner, and the page goes to that listing. */
  lemma OwnerSubmitStoresForm(db: Db, s: PageState, owner: Id, id: Id, now: int, parseError: string)
    requires ListingController.Lookup(db, id).Some? && ListingController.Lookup(db, id).value.userRef == owner
    requires |s.form.imageURLs| >= 1
    ensures var sub := HandleSubmit(s, owner);
      var step := ListingController.UpdateListing(db, owner, id, PatchOf(sub.request.value), now);
      && ListingController.Lookup(step.db, id).Some?
      && ListingController.Lookup(step.db, id).value.fields == s.form
      && ListingController.Lookup(step.db, id).value.userRef == owner
      && FinishSubmit(sub.page, AnswerOf(Deliver(step.outcome), parseError))
         == Finished(s.(loading := false, error := None), Some(ListingPath(id)))
  {
    var sub := HandleSubmit(s, owner);
    ListingController.FullUpdateStoresDraft(db, owner, id, sub.request.value, now);
  }

  /** A listing loaded into the form and submitted by its owner without
      edits is stored with the fields it had. */
  lemma LoadThenSubmitKeepsFields(db: Db, s: PageState, l: Listing, now: int)
    requires ListingController.Lookup(db, l.id) == Some(l)
    requires |l.fields.imageURLs| >= 1
    ensures var sub := HandleSubmit(Loaded(s, Answered(ListingJson(l))), l.userRef);
      var step := ListingController.UpdateListing(db, l.userRef, l.id, PatchOf(sub.request.value), now);
      ListingController.Lookup(step.db, l.id).value.fields == l.fields
  {
    var sub := HandleSubmit(Loaded(s, Answered(ListingJson(l))), l.userRef);
    ListingController.FullUpdateStoresDraft(db, l.userRef, l.id, sub.request.value, now);
  }

  /** When the listing has been deleted since the page loaded it, the
      server as written answers 404. The page as written then shows the
      message and at once navigates to `/listing/undefined`; as intended,
      it stays on the form with the message shown. */
  lemma RefusedUpdateNavigatesAwayAsWritten(db: Db, s: PageState, caller: Id, id: Id, now: int, parseError: string)
    requires ListingController.Lookup(db, id).None?
    requires |s.form.imageURLs| >= 1
    ensures var sub := HandleSubmit(s, caller);
      var step := ListingController.UpdateListingAsWritten(db, caller, id, PatchOf(sub.request.value), now);
      var a := AnswerOf(Deliver(step.outcome), parseError);
      && step.db == db
      && a.Answered? && IsFailure(a.body)
      && FinishSubmitAsWritten(sub.page, a).navigateTo == Some(ListingPath("undefined"))
      && FinishSubmit(sub.page, a)
         == Finished(s.(error := Some(ListingController.NotFoundMessage), loading := false), None)
  {
  }

  /** As written, a submit by someone who does not own the listing gets no
      answer: the page keeps showing that it is loading and never
      navigates. */
  lemma NonOwnerSubmitHangsAsWritten(db: Db, s: PageState, caller: Id, id: Id, now: int, parseError: string)
    requires ListingController.Lookup(db, id).Some? && ListingController.Lookup(db, id).value.userRef != caller
    requires |s.form.imageURLs| >= 1
    ensures var sub := HandleSubmit(s, caller);
      var step := ListingController.UpdateListingAsWritten(db, caller, id, PatchOf(sub.request.value), now);
      var f := FinishSubmitAsWritten(sub.page, AnswerOf(Deliver(step.outcome), parseError));
      && step.db == db
      && f.page.loading && f.navigateTo.None?
  {
  }

  // ---------------------------------------------------------------------
  // Sequences of edits

  /** What a user can do on the loaded form. */
  datatype Edit =
    | UploadFiles(fileCount: nat, result: Option<seq<string>>)
    | RemoveAt(index: int)
    | Change(event: ChangeEvent)

  /** An upload resolves with one URL per file. */
  predicate Settles(e: Edit) {
    e.UploadFiles? && e.result.Some? ==> |e.result.value| == e.fileCount
  }

  function ApplyEdit(s: PageState, e: Edit): PageState
    requires Settles(e)
  {
    match e
    case UploadFiles(n, result) => Upload(s, n, result)
    case RemoveAt(i) => RemoveImage(s, i)
    case Change(ev) => s.(form := HandleChange(s.form, ev))
  }

  /** The page after `edits` in order. */
  function ApplyEdits(s: PageState, edits: seq<Edit>): PageState
    requires forall k :: 0 <= k < |edits| ==> Settles(edits[k])
  {
    if |edits| == 0 then s
    else ApplyEdit(ApplyEdits(s, edits[..|edits| - 1]), edits[|edits| - 1])
  }

  /** Starting from at most six images, no sequence of uploads, removals
      and field changes ever leads to more than six. */
  lemma {:induction false} ImagesStayWithinSix(s: PageState, edits: seq<Edit>)
    requires |s.form.imageURLs| <= MaxImages
    requires forall k :: 0 <= k < |edits| ==> Settles(edits[k])
    ensures |ApplyEdits(s, edits).form.imageURLs| <= MaxImages
  {
    if |edits| > 0 {
      var init := edits[..|edits| - 1];
      assert forall k :: 0 <= k < |init| ==> init[k] == edits[k];
      ImagesStayWithinSix(s, init);
    }
  }
}

=== FILE: url_params.dfy ===
/** `URLSearchParams` as the search page uses it: an ordered list of
    key/value pairs read with `get` and written with `set`. Keys are any
    type with equality; the page uses the names of its parameters. */
module UrlParams {
  import opened Base

  type Params<K> = seq<(K, string)>

  /** Some pair has key `k`. */
  predicate HasKey<K(==)>(p: Params<K>, k: K) {
    exists i :: 0 <= i < |p| && p[i].0 == k
  }

  /** `get(k)`: the value of the first pair with key `k`. */
  function Get<K(==)>(p: Params<K>, k: K): Option<string> {
    if |p| == 0 then None
    else if p[0].0 == k then Some(p[0].1)
    else Get(p[1..], k)
  }

  /** `get` finds nothing exactly when no pair has the key. */
  lemma {:induction false} GetNoneIffAbsent<K>(p: Params<K>, k: K)
    ensures Get(p, k).None? <==> !HasKey(p, k)
  {
    if |p| > 0 && p[0].0 != k {
      GetNoneIffAbsent(p[1..], k);
      if HasKey(p, k) {
        var i :| 0 <= i < |p| && p[i].0 == k;
        assert p[1..][i - 1].0 == k;
      }
      if HasKey(p[1..], k) {
        var i :| 0 <= i < |p[1..]| && p[1..][i].0 == k;
        assert p[i + 1].0 == k;
      }
    }
  }

  /** The value `get` returns is that of the first pair with the key. */
  lemma {:induction false} GetFindsFirst<K>(p: Params<K>, k: K)
    requires Get(p, k).Some?
    ensures exists i :: 0 <= i < |p| && p[i] == (k, Get(p, k).value) && forall j :: 0 <= j < i ==> p[j].0 != k
  {
    if p[0].0 != k {
      GetFindsFirst(p[1..], k);
      var i :| 0 <= i < |p[1..]| && p[1..][i] == (k, Get(p[1..], k).value) && forall j :: 0 <= j < i ==> p[1..][j].0 != k;
      assert p[i + 1] == (k, Get(p, k).value);
      assert forall j :: 0 <= j < i + 1 ==> p[j].0 != k by {
        forall j | 0 <= j < i + 1 ensures p[j].0 != k {
          if j > 0 {
            assert p[j] == p[1..][j - 1];
          }
        }
      }
    } else {
      assert p[0] == (k, Get(p, k).value);
    }
  }

  /** Every pair whose key is not `k`, in order. */
  function Drop<K(==)>(p: Params<K>, k: K): (r: Params<K>)
    ensures !HasKey(r, k)
    ensures |r| <= |p|
  {
    if |p| == 0 then []
    else if p[0].0 == k then Drop(p[1..], k)
    else [p[0]] + Drop(p[1..], k)
  }

  /** `set(k, v)`: the first pair with key `k` takes the value `v` in place
      and every later one is deleted; with no such pair, `(k, v)` goes
      last. Afterwards exactly one pair has key `k`. */
  function Set<K(==)>(p: Params<K>, k: K, v: string): (r: Params<K>)
    ensures Get(r, k) == Some(v)
    ensures forall i, j :: 0 <= i < |r| && 0 <= j < |r| && r[i].0 == k && r[j].0 == k ==> i == j
  {
    if |p| == 0 then [(k, v)]
    else if p[0].0 == k then
      var rest := Drop(p[1..], k);
      assert forall j :: 0 <= j < |rest| ==> rest[j].0 != k;
      [(k, v)] + rest
    else
      var rest := Set(p[1..], k, v);
      [p[0]] + rest
  }

  /** Dropping `k` leaves every other key's value alone. */
  lemma {:induction false} GetDropOther<K>(p: Params<K>, k: K, k': K)
    requires k' != k
    ensures Get(Drop(p, k), k') == Get(p, k')
  {
    if |p| > 0 {
      GetDropOther(p[1..], k, k');
    }
  }

  /** Setting `k` leaves every other key's value alone. */
  lemma {:induction false} GetSetOther<K>(p: Params<K>, k: K, v: string, k': K)
    requires k' != k
    ensures Get(Set(p, k, v), k') == Get(p, k')
  {
    if |p| > 0 {
      if p[0].0 == k {
        GetDropOther(p[1..], k, k');
      } else {
        GetSetOther(p[1..], k, v, k');
      }
    }
  }

  /** Setting a key twice to the same value is setting it once. */
  lemma {:induction false} SetIdempotent<K>(p: Params<K>, k: K, v: string)
    ensures Set(Set(p, k, v), k, v) == Set(p, k, v)
  {
    if |p| > 0 && p[0].0 == k {
      DropNothing(Drop(p[1..], k), k);
    } else if |p| > 0 {
      SetIdempotent(p[1..], k, v);
      assert Set(p, k, v)[1..] == Set(p[1..], k, v);
    }
  }
  /** Dropping a key that is not there changes nothing. */
  lemma {:induction false} DropNothing<K>(p: Params<K>, k: K)
    requires !HasKey(p, k)
    ensures Drop(p, k) == p
  {
    if |p| > 0 {
      assert p[0].0 != k;
      assert !HasKey(p[1..], k) by {
        forall i | 0 <= i < |p[1..]| ensures p[1..][i].0 != k {
          assert p[1..][i] == p[i + 1];
        }
      }
      DropNothing(p[1..], k);
      assert p == [p[0]] + p[1..];
    }
  }
}

=== FILE: user_controller.dfy ===
/** The user handlers `updateUser`, `deleteUser`, `getUserListings` and
    `getUser` (server/controllers/user.js). `caller` is the id the token
    guard put in `req.user`; `id` is the path parameter. */
module UserController {
  import opened Base
  import opened Records
  import opened Http
  import opened Store
  import opened Crypto
  import opened Seqs
  import UserModel

  const UpdateForbiddenMessage := "You can only update your own account!"
  const DeleteForbiddenMessage := "You can only delete your own account!"
  const ListingsForbiddenMessage := "You can only access your own listings"
  const UserNotFoundMessage := "The requested user not found!"
  const UserDeletedMessage := "User has been deleted!"
  /** What reading `_doc` of the `null` a missing user yields throws. */
  const NullDocumentMessage := "Cannot read properties of null (reading '_doc')"

  function LookupUser(db: Db, id: Id): Option<User> {
    Find(db.users, UserId, id)
  }

  /** The password value written as the handler is written: a non-empty
      password is hashed, while an empty one is falsy, skips the hashing and
      is written as it is. */
  function WrittenPasswordAsWritten(password: Option<string>, c: Primitives): (w: Option<string>)
    ensures password.Some? && password.value != "" ==> w == Some(c.hash(password.value))
    ensures password == Some("") ==> w == Some("")
    ensures password.None? ==> w.None?
  {
    match password
    case None => None
    case Some(p) => if p != "" then Some(c.hash(p)) else Some(p)
  }

  /** The password value written as intended: only a non-empty password is
      written, and only as its hash. */
  function WrittenPassword(password: Option<string>, c: Primitives): (w: Option<string>)
    ensures w.Some? <==> password.Some? && password.value != ""
    ensures w.Some? ==> w.value == c.hash(password.value)
  {
    match password
    case None => None
    case Some(p) => if p != "" then Some(c.hash(p)) else None
  }

  /** The stored user after `$set` of the four profile fields. */
  function SetProfile(u: User, p: UserPatch, password: Option<string>, now: int): User {
    u.(username := p.username.GetOr(u.username), email := p.email.GetOr(u.email),
       password := password.GetOr(u.password), avatar := p.avatar.GetOr(u.avatar), updatedAt := now)
  }

  /** Another user already holds the username or email `u` would take. */
  predicate TakenByOther(users: seq<User>, u: User) {
    exists i :: 0 <= i < |users| && users[i].id != u.id
      && (users[i].username == u.username || users[i].email == u.email)
  }

  /** The update common to both readings of the password field: self only,
      otherwise 403 with no write; a missing user makes the handler read
      `_doc` of `null` (500); a username or email held by another user fails
      the unique index (500) and writes nothing; otherwise only that user's
      four profile fields and `updatedAt` change, and the new record is
      returned without its password. */
  function UpdateUserWith(db: Db, caller: Id, id: Id, p: UserPatch, password: Option<string>, now: int): (s: Step)
    ensures caller != id ==> s == Step(Next(ErrorHandler(403, UpdateForbiddenMessage)), db)
    ensures s.db.listings == db.listings
    ensures s.db != db ==> caller == id && LookupUser(db, id).Some?
    ensures caller == id && LookupUser(db, id).None? ==> s == Step(Next(ErrorValue(None, NullDocumentMessage)), db)
    ensures caller == id && LookupUser(db, id).Some? ==>
      (s.outcome.Reply? <==> !TakenByOther(db.users, SetProfile(LookupUser(db, id).value, p, password, now)))
    ensures !s.outcome.Reply? ==> s.db == db && s.outcome.Next? && (caller == id ==> s.outcome.error.statusCode.None?)
    ensures s.outcome.Reply? ==>
      && LookupUser(db, id).Some?
      && LookupUser(s.db, id).Some?
      && var before := LookupUser(db, id).value;
      && var after := LookupUser(s.db, id).value;
      && after == SetProfile(before, p, password, now)
      && after.id == before.id && after.createdAt == before.createdAt
      && s.outcome.response == Response(200, ProfileJson(WithoutPassword(after)), KeepCookie)
      && (forall k :: k != id ==> LookupUser(s.db, k) == LookupUser(db, k))
  {
    if caller != id then Step(Next(ErrorHandler(403, UpdateForbiddenMessage)), db)
    else
      match LookupUser(db, id)
      case None => Step(Next(ErrorValue(None, NullDocumentMessage)), db)
      case Some(u) =>
        var after := SetProfile(u, p, password, now);
        if TakenByOther(db.users, after) then Step(Next(ErrorValue(None, UserModel.DuplicateKeyMessage)), db)
        else
          var users := Replace(db.users, UserId, id, after);
          Step(Reply(Response(200, ProfileJson(WithoutPassword(after)), KeepCookie)), db.(users := users))
  }

  /** `updateUser` as written. */
  function UpdateUserAsWritten(db: Db, c: Primitives, caller: Id, id: Id, p: UserPatch, now: int): (s: Step)
    ensures caller != id ==> s == Step(Next(ErrorHandler(403, UpdateForbiddenMessage)), db)
    ensures caller == id && LookupUser(db, id).Some? ==>
      (s.outcome.Reply? <==>
         !TakenByOther(db.users, SetProfile(LookupUser(db, id).value, p, WrittenPasswordAsWritten(p.password, c), now)))
    ensures !s.outcome.Reply? ==> s.db == db
    ensures s.outcome.Reply? && p.password == Some("") ==>
      LookupUser(s.db, id).Some? && LookupUser(s.db, id).value.password == ""
  {
    UpdateUserWith(db, caller, id, p, WrittenPasswordAsWritten(p.password, c), now)
  }

  /** `updateUser` writing only non-empty passwords: a stored password
      always comes from the store or from `hash`, never from the request. */
  function UpdateUser(db: Db, c: Primitives, caller: Id, id: Id, p: UserPatch, now: int): (s: Step)
    ensures caller != id ==> s == Step(Next(ErrorHandler(403, UpdateForbiddenMessage)), db)
    ensures caller == id && LookupUser(db, id).Some? ==>
      (s.outcome.Reply? <==>
         !TakenByOther(db.users, SetProfile(LookupUser(db, id).value, p, WrittenPassword(p.password, c), now)))
    ensures !s.outcome.Reply? ==> s.db == db
    ensures s.outcome.Reply? ==>
      && LookupUser(db, id).Some? && LookupUser(s.db, id).Some?
      && var before := LookupUser(db, id).value;
      && var after := LookupUser(s.db, id).value;
      && (p.password.Some? && p.password.value != "" ==> after.password == c.hash(p.password.value))
      && (p.password.None? || p.password == Some("") ==> after.password == before.password)
  {
    UpdateUserWith(db, caller, id, p, WrittenPassword(p.password, c), now)
  }

  /** `deleteUser`: self only, otherwise 403 with no write. On success only
      that user is gone, their listings stay, and the token cookie is
      cleared. */
  function DeleteUser(db: Db, caller: Id, id: Id): (s: Step)
    ensures caller != id ==> s == Step(Next(ErrorHandler(403, DeleteForbiddenMessage)), db)
    ensures caller == id ==>
      && s.outcome == Reply(Response(200, TextJson(UserDeletedMessage), ClearAccessToken))
      && LookupUser(s.db, id).None?
      && (forall k :: k != id ==> LookupUser(s.db, k) == LookupUser(db, k))
      && s.db.listings == db.listings
  {
    if caller != id then Step(Next(ErrorHandler(403, DeleteForbiddenMessage)), db)
    else Step(Reply(Response(200, TextJson(UserDeletedMessage), ClearAccessToken)),
              db.(users := Remove(db.users, UserId, id)))
  }

  predicate OwnedBy(id: Id, l: Listing) {
    l.userRef == id
  }

  /** `getUserListings`: 401 (not 403) for anyone but the owner; otherwise
      exactly the listings whose owner is `id`, each as often as stored. */
  function GetUserListings(db: Db, caller: Id, id: Id): (s: Step)
    ensures s.db == db
    ensures caller != id ==> s.outcome == Next(ErrorHandler(401, ListingsForbiddenMessage))
    ensures caller == id ==>
      && s.outcome.Reply? && s.outcome.response.status == 200
      && s.outcome.response.body.ListingsJson?
      && var ls := s.outcome.response.body.listings;
      && (forall i :: 0 <= i < |ls| ==> ls[i].userRef == id)
      && (forall l :: multiset(ls)[l] == if l.userRef == id then multiset(db.listings)[l] else 0)
  {
    if caller != id then Step(Next(ErrorHandler(401, ListingsForbiddenMessage)), db)
    else
      var ls := Filter(db.listings, (l: Listing) => OwnedBy(id, l));
      Step(Reply(Response(200, ListingsJson(ls), KeepCookie)), db)
  }

  /** `getUser`: 404 for a missing id; otherwise the stored record itself,
      password hash included, to any authenticated caller. */
  function GetUser(db: Db, id: Id): (s: Step)
    ensures s.db == db
    ensures LookupUser(db, id).None? ==> s.outcome == Next(ErrorHandler(404, UserNotFoundMessage))
    ensures LookupUser(db, id).Some? ==> s.outcome == Reply(Response(200, UserJson(LookupUser(db, id).value), KeepCookie))
  {
    match LookupUser(db, id)
    case None => Step(Next(ErrorHandler(404, UserNotFoundMessage)), db)
    case Some(u) => Step(Reply(Response(200, UserJson(u), KeepCookie)), db)
  }

  /** An empty password sent to the handler as written replaces the stored
      hash with the empty string, which no sign-in can match. */
  lemma EmptyPasswordStoredAsWritten(db: Db, c: Primitives, id: Id, now: int)
    requires LookupUser(db, id).Some?
    requires !TakenByOther(db.users, SetProfile(LookupUser(db, id).value, UserPatch(None, None, Some(""), None), Some(""), now))
    ensures var s := UpdateUserAsWritten(db, c, id, id, UserPatch(None, None, Some(""), None), now);
      s.outcome.Reply? && LookupUser(s.db, id).value.password == ""
  {
  }

  /** The user transitions keep ids, usernames and emails unique, with the
      password field read either way. */
  lemma UserStepsKeepValid(db: Db, c: Primitives, caller: Id, id: Id, p: UserPatch, now: int)
    requires Valid(db)
    ensures Valid(UpdateUser(db, c, caller, id, p, now).db)
    ensures Valid(UpdateUserAsWritten(db, c, caller, id, p, now).db)
    ensures Valid(DeleteUser(db, caller, id).db)
  {
    RemoveKeepsUnique(db.users, UserId, id, UserId);
    RemoveKeepsUnique(db.users, UserId, id, UserName);
    RemoveKeepsUnique(db.users, UserId, id, UserEmail);
    UpdateKeepsValid(db, caller, id, p, WrittenPassword(p.password, c), now);
    UpdateKeepsValid(db, caller, id, p, WrittenPasswordAsWritten(p.password, c), now);
  }

  /** A profile update keeps the indexes whatever password it writes. */
  lemma UpdateKeepsValid(db: Db, caller: Id, id: Id, p: UserPatch, password: Option<string>, now: int)
    requires Valid(db)
    ensures Valid(UpdateUserWith(db, caller, id, p, password, now).db)
  {
    var s := UpdateUserWith(db, caller, id, p, password, now);
    if s.db != db {
      var u := LookupUser(db, id).value;
      ReplaceKeepsUniqueProfile(db.users, id, SetProfile(u, p, password, now));
    }
  }

  /** The two readings of the password field give the same answer and the
      same store except for an update that carries the empty password. */
  lemma UpdateBuildsAgree(db: Db, c: Primitives, caller: Id, id: Id, p: UserPatch, now: int)
    requires p.password != Some("")
    ensures UpdateUserAsWritten(db, c, caller, id, p, now) == UpdateUser(db, c, caller, id, p, now)
  {
  }

  /** Replacing user `id` by a record that takes no other user's username
      or email keeps the three unique indexes. */
  lemma ReplaceKeepsUniqueProfile(users: seq<User>, id: Id, after: User)
    requires UniqueKeys(users, UserId) && UniqueKeys(users, UserName) && UniqueKeys(users, UserEmail)
    requires UserId(after) == id && !TakenByOther(users, after)
    ensures var r := Replace(users, UserId, id, after);
      UniqueKeys(r, UserId) && UniqueKeys(r, UserName) && UniqueKeys(r, UserEmail)
  {
    var r := Replace(users, UserId, id, after);
    forall i, j | 0 <= i < j < |r|
      ensures UserName(r[i]) != UserName(r[j]) && UserEmail(r[i]) != UserEmail(r[j])
    {
      if users[i].id == id {
        assert users[j].id != id by { assert UserId(users[i]) != UserId(users[j]); }
        assert r[i] == after && r[j] == users[j];
        NotTaken(users, after, j);
      } else if users[j].id == id {
        assert r[j] == after && r[i] == users[i];
        NotTaken(users, after, i);
      } else {
        assert r[i] == users[i] && r[j] == users[j];
        assert UserName(users[i]) != UserName(users[j]);
        assert UserEmail(users[i]) != UserEmail(users[j]);
      }
    }
  }

  lemma NotTaken(users: seq<User>, u: User, i: nat)
    requires !TakenByOther(users, u) && i < |users| && users[i].id != u.id
    ensures UserName(users[i]) != UserName(u) && UserEmail(users[i]) != UserEmail(u)
  {
  }
}

=== FILE: user_model.dfy ===
/** The User schema (api/models/user.js): required fields, unique
    username and email, and the default avatar, as enforced when a new
    user document is saved. */
module UserModel {
  import opened Base
  import opened Records
  import opened Http
  import opened Store

  const DefaultAvatar := "https://cdn.pixabay.com/photo/2015/10/05/22/37/blank-profile-picture-973460_1280.png"
  const ValidationMessage := "User validation failed"
  const DuplicateKeyMessage := "E11000 duplicate key error"

  /** The document handed to `new User(...)`; the avatar may be left out. */
  datatype NewUser = NewUser(username: string, email: string, password: string, avatar: Option<string>)

  /** A required string field is present and not empty. */
  predicate HasRequiredFields(doc: NewUser) {
    doc.username != "" && doc.email != "" && doc.password != "" && doc.avatar != Some("")
  }

  /** Storing `doc` under `id` would clash with a unique index. */
  predicate Clashes(users: seq<User>, doc: NewUser, id: Id) {
    || Find(users, UserId, id).Some?
    || Find(users, UserName, doc.username).Some?
    || Find(users, UserEmail, doc.email).Some?
  }

  /** `save()`: a missing required field fails validation, a username, email
      or id already taken fails the unique index, and otherwise the user is
      appended with the default avatar when none was given. A failure
      carries no status, so the middleware answers 500. */
  function Save(users: seq<User>, doc: NewUser, id: Id, now: int): (r: Result<User, ErrorValue>)
    ensures r.Ok? <==> HasRequiredFields(doc) && !Clashes(users, doc, id)
    ensures r.Err? ==> r.error.statusCode.None?
    ensures r.Ok? ==> var u := r.value;
      && u.id == id && u.username == doc.username && u.email == doc.email
      && u.password == doc.password && u.createdAt == now && u.updatedAt == now
      && u.avatar == doc.avatar.GetOr(DefaultAvatar)
  {
    if !HasRequiredFields(doc) then Err(ErrorValue(None, ValidationMessage))
    else if Clashes(users, doc, id) then Err(ErrorValue(None, DuplicateKeyMessage))
    else Ok(User(id, doc.username, doc.email, doc.password, doc.avatar.GetOr(DefaultAvatar), now, now))
  }

  /** The users after a successful save. */
  function Inserted(users: seq<User>, u: User): seq<User> {
    users + [u]
  }

  /** A successful save keeps ids, usernames and emails unique, and the new
      user can be found by its email. */
  lemma SaveKeepsValid(db: Db, doc: NewUser, id: Id, now: int)
    requires Valid(db)
    requires Save(db.users, doc, id, now).Ok?
    ensures var u := Save(db.users, doc, id, now).value;
      && Valid(db.(users := Inserted(db.users, u)))
      && Find(Inserted(db.users, u), UserEmail, doc.email) == Some(u)
  {
    var u := Save(db.users, doc, id, now).value;
    AppendKeepsUnique(db.users, u, UserId);
    AppendKeepsUnique(db.users, u, UserName);
    AppendKeepsUnique(db.users, u, UserEmail);
    FindUnique(db.users + [u], UserEmail, |db.users|);
  }

  /** Saving twice with the same username fails the second time. */
  lemma DuplicateUsernameRejected(users: seq<User>, doc: NewUser, other: NewUser, id1: Id, id2: Id, now: int)
    requires Save(users, doc, id1, now).Ok?
    requires other.username == doc.username
    ensures Save(Inserted(users, Save(users, doc, id1, now).value), other, id2, now).Err?
  {
    var u := Save(users, doc, id1, now).value;
    var us := Inserted(users, u);
    assert us[|users|] == u;
    assert Find(us, UserName, other.username).Some?;
  }

  /** Saving twice with the same email fails the second time. */
  lemma DuplicateEmailRejected(users: seq<User>, doc: NewUser, other: NewUser, id1: Id, id2: Id, now: int)
    requires Save(users, doc, id1, now).Ok?
    requires other.email == doc.email
    ensures Save(Inserted(users, Save(users, doc, id1, now).value), other, id2, now).Err?
  {
    var u := Save(users, doc, id1, now).value;
    var us := Inserted(users, u);
    assert us[|users|] == u;
    assert Find(us, UserEmail, other.email).Some?;
  }
}

=== FILE: user_slice.dfy ===
/** The client's user state (client/src/redux/user/userSlice.js): who is
    signed in, the last error, and whether a request is in flight, changed
    by the twelve actions of the sign-in, update, delete and sign-out
    requests. */
module UserSlice {
  import opened Base
  import opened Records

  datatype UserState = UserState(currentUser: Option<Profile>, error: Option<string>, loading: bool)

  const InitialState := UserState(None, None, false)

  /** The slice's actions; a success carries the user the server sent back
      and a failure the message to show. */
  datatype Action =
    | SignInStart | SignInSuccess(user: Profile) | SignInFailure(message: string)
    | UpdateUserStart | UpdateUserSuccess(user: Profile) | UpdateUserFailure(message: string)
    | DeleteUserStart | DeleteUserSuccess | DeleteUserFailure(message: string)
    | SignOutUserStart | SignOutUserSuccess | SignOutUserFailure(message: string)
  {
    /** A request has been sent. */
    predicate IsStart() {
      SignInStart? || UpdateUserStart? || DeleteUserStart? || SignOutUserStart?
    }

    /** A request came back with a user to keep. */
    predicate IsUserSuccess() {
      SignInSuccess? || UpdateUserSuccess?
    }

    /** A request came back and the user is gone. */
    predicate IsClearingSuccess() {
      DeleteUserSuccess? || SignOutUserSuccess?
    }

    /** A request failed. */
    predicate IsFailure() {
      SignInFailure? || UpdateUserFailure? || DeleteUserFailure? || SignOutUserFailure?
    }
  }

  /** The reducer. */
  function Reduce(s: UserState, a: Action): (r: UserState)
    ensures a.IsStart() ==> r.loading && r.error.None? && r.currentUser == s.currentUser
    ensures a.IsUserSuccess() ==> r == UserState(Some(a.user), None, false)
    ensures a.IsClearingSuccess() ==> r == UserState(None, None, false)
    ensures a.IsFailure() ==> r.error == Some(a.message) && !r.loading && r.currentUser == s.currentUser
  {
    match a
    case SignInStart => s.(loading := true, error := None)
    case SignInSuccess(u) => s.(currentUser := Some(u), loading := false, error := None)
    case SignInFailure(m) => s.(error := Some(m), loading := false)
    case UpdateUserStart => s.(loading := true, error := None)
    case UpdateUserSuccess(u) => s.(currentUser := Some(u), loading := false, error := None)
    case UpdateUserFailure(m) => s.(error := Some(m), loading := false)
    case DeleteUserStart => s.(loading := true, error := None)
    case DeleteUserSuccess => s.(currentUser := None, loading := false, error := None)
    case DeleteUserFailure(m) => s.(error := Some(m), loading := false)
    case SignOutUserStart => s.(loading := true, error := None)
    case SignOutUserSuccess => s.(currentUser := None, loading := false, error := None)
    case SignOutUserFailure(m) => s.(error := Some(m), loading := false)
  }

  /** The state after dispatching `actions` in order. */
  function Run(s: UserState, actions: seq<Action>): UserState {
    if |actions| == 0 then s
    else Reduce(Run(s, actions[..|actions| - 1]), actions[|actions| - 1])
  }

  /** Every action is one of the three kinds, and only one. */
  lemma ActionKinds(a: Action)
    ensures a.IsStart() || a.IsUserSuccess() || a.IsClearingSuccess() || a.IsFailure()
    ensures a.IsStart() ==> !a.IsUserSuccess() && !a.IsClearingSuccess() && !a.IsFailure()
    ensures a.IsFailure() ==> !a.IsUserSuccess() && !a.IsClearingSuccess()
  {
  }

  /** Dispatching the same action twice is dispatching it once. */
  lemma ReduceIdempotent(s: UserState, a: Action)
    ensures Reduce(Reduce(s, a), a) == Reduce(s, a)
  {
  }

  /** A request is in flight exactly when the last action was a start. */
  lemma LoadingIffLastIsStart(s: UserState, actions: seq<Action>)
    requires |actions| > 0
    ensures Run(s, actions).loading <==> actions[|actions| - 1].IsStart()
  {
    ActionKinds(actions[|actions| - 1]);
  }

  /** An error is shown exactly when the last action was a failure, and it
      is that failure's message. */
  lemma ErrorIffLastIsFailure(s: UserState, actions: seq<Action>)
    requires |actions| > 0
    ensures Run(s, actions).error.Some? <==> actions[|actions| - 1].IsFailure()
    ensures actions[|actions| - 1].IsFailure() ==> Run(s, actions).error == Some(actions[|actions| - 1].message)
  {
    ActionKinds(actions[|actions| - 1]);
  }

  /** Starts and failures never change who is signed in: only a success
      does. */
  lemma {:induction false} OnlySuccessChangesUser(s: UserState, actions: seq<Action>)
    requires forall i :: 0 <= i < |actions| ==> actions[i].IsStart() || actions[i].IsFailure()
    ensures Run(s, actions).currentUser == s.currentUser
  {
    if |actions| > 0 {
      var init := actions[..|actions| - 1];
      assert forall i :: 0 <= i < |init| ==> init[i] == actions[i];
      OnlySuccessChangesUser(s, init);
    }
  }

  /** The signed-in user is the one the last user-bearing success carried,
      unless a delete or sign-out succeeded after it. */
  lemma {:induction false} CurrentUserIsLastSuccess(s: UserState, actions: seq<Action>, k: nat)
    requires k < |actions| && actions[k].IsUserSuccess()
    requires forall i :: k < i < |actions| ==> actions[i].IsStart() || actions[i].IsFailure()
    ensures Run(s, actions).currentUser == Some(actions[k].user)
  {
    if k < |actions| - 1 {
      var init := actions[..|actions| - 1];
      assert forall i :: k < i < |init| ==> init[i] == actions[i];
      assert init[k] == actions[k];
      CurrentUserIsLastSuccess(s, init, k);
    }
  }

  /** From the initial state, a failed sign-in leaves nobody signed in, and
      shows its message. */
  lemma FailedSignInFromInitial(m: string)
    ensures Run(InitialState, [SignInStart, SignInFailure(m)]) == UserState(None, Some(m), false)
  {
    assert [SignInStart, SignInFailure(m)][..1] == [SignInStart];
    assert [SignInStart][..0] == [];
  }
}
